=== FILE: README.md ===
# gokuro in Dafny

gokuro is a line-oriented text macro preprocessor for Org-mode style files.
A line `#+MACRO: name body` defines a global macro. A line
`#+MACRO_LOCAL: name body` defines a local macro, which lives only until
the next line that is not itself a local definition. A call `{{{name}}}`
or `{{{name(a,b)}}}` is replaced by the body, with `$1` .. `$9` filled from
the comma-separated arguments (`\,` is a literal comma) and `$0` from the
whole argument text. Calls are expanded last-first, so nested calls work.
The line is classified again after every expansion. Definition lines are
not written; every other line is written after expansion.

The repository holds several revisions of the same program. Each is
modelled in its own module:

- **gokuro.c**, the current C program:
  - `Hashing`: the 32-bit name fingerprint;
  - `HashMap`: the open-addressing fingerprint-to-offset table;
  - `Buffers`: the growable byte buffers;
  - `Expansion`: the backward call scan, the name and argument scans and
    the `$n` substitution loop;
  - `Gokuro`: the line loop.
- **hash_map.h**: a header copy of gokuro.c's hash map, which none of the
  modelled revisions includes; `HashMap` covers it.
- **buffer.h**: the header buffer used by main.c. It differs from
  gokuro.c's buffer in its growth rule and is modelled in `BufferHeader`.
- **main.c**, the revision built on stb_ds: `MainC`. It echoes definition
  lines, takes any `#+name:` line as a local definition, and stops at a
  bare `#+MACRO: `. It reuses the expansion step of `Expansion`.
- **gokuro_c.c**, the early constant-only revision: `Early`. It has its own
  `begin_with`, FNV-style hash and scan.
- **gokuro.go** (`GoPort`) and **gokuro.js** (`JsPort`): these use `<<<` and
  `>>>` as delimiters, tables keyed by the name itself, and string
  replacement for the placeholders. What the two share lives in `Ports` and
  `Replacing`.

The modelling choices:

- Lines are character sequences. The C modules keep a line without its
  terminator, and `Text.At` returns the terminator the C code reads past the
  last byte.
- Symbol tables are maps. In the C revisions they are keyed by the name's
  fingerprint, exactly as the C code compares only fingerprints.
- Expansion may not terminate (`#+MACRO: a {{{a}}}`). Every loop that can
  diverge therefore runs on `fuel` and reports exhaustion. Proofs show that
  such inputs exhaust every fuel.
- In the Go and JavaScript revisions the regular-expression search for the
  last call is a parameter `find`. The only assumption about it (`Fits`) is
  that its match lies in the line. Everything the revisions do with a match
  is modelled.

In the JavaScript revision, `str.replace(pattern, replacement)` with a
string pattern interprets `$$`, `$&`, `` $` `` and `$'` in the replacement
text. `JsPort.Substitution` models that. As a consequence a body holding
`$&` or `$$` is not inserted literally, unlike in the Go revision. The
escape of `$` in argument text is `@$@`, and it is undone on the whole line
after a call with arguments. So an `@$@` already present before the call
comes out as `$` (`JsPort.EscapeBeforeCallLost`).

## Model

| member | source | states |
|---|---|---|
| Text.At | gokuro.c:346-347 | offsets up to the line's length read the line's byte, and the offset just past it reads the terminator, as the C code reads it |
| Text.BeginWith | gokuro.c:18-31 | `begin_with(a, b)` is true exactly when b is a prefix of a; `begin_with` of main.c (lines 29-42) is the same test |
| Text.MatchFrom | gokuro.c:20-30 | the byte loop, from any offset where the prefixes already agree, answers whether b is a prefix of a |
| Text.DigitValue | gokuro.c:568 | `*c - '0'` of a decimal digit is a number from 0 to 9 |
| Text.FindFrom | gokuro.c:267-275 | the scan for c stops at the first c at or after the start, or at the end of the text; no earlier byte is c |
| Text.Lines | gokuro.c:326-330 | no line read from the input holds '\n' |
| Text.UnlinesLines | gokuro.c:320-330 | splitting an input that ends with '\n' into lines and writing each line with its '\n' gives the input back |
| Text.LinesUnlines | gokuro.c:320-330 | writing lines without '\n', each followed by '\n', and reading them again gives the same lines |
| Text.LinesSplit | gokuro.c:326-330 | the first line ends at the first '\n', and reading resumes after it |
| Text.LinesFinalNewline | gokuro.c:650-654 | adding the missing final '\n' to the input does not change its lines |
| Text.Unlines | gokuro.c:593-595 | writing at least one line gives text that ends with '\n' |
| Text.NeverChanges | gokuro.c:343-591 | a value that each round gives back unchanged is the same after any number of rounds |
| Hashing.Rolling | gokuro.c:37-43 | the fold of a non-empty text lies below the word size |
| Hashing.Hash32 | gokuro.c:37-43 | `hash_32` is a 32-bit value |
| Hashing.Hash64 | main.c:61-67 | main.c's `hash` is a 64-bit value |
| Hashing.RollingLoop | gokuro.c:37-43 | the byte loop computes `h * 33 + byte` from the seed over the bytes in order, wrapping at the word size; main.c's `hash` (lines 61-67) is the same loop with its own seed and 64-bit words |
| Hashing.RollingAppend | gokuro.c:39-41 | hashing a concatenation continues from the hash of the first part |
| Hashing.Hash32Collision | gokuro.c:37-43 | after any common prefix, "aB" and "b!" have the same 32-bit hash |
| HashMap.Init | gokuro.c:54-74 | a new table has every slot empty and size 0, and stands for the empty map; `hash_map_init` of hash_map.h (lines 15-30) is the same |
| HashMap.Get | gokuro.c:146-157 | the probe returns the item stored under the key, or UINT32_MAX when the key is not in the map; hash_map.h (lines 98-109) is the same |
| HashMap.ProbeForPut | gokuro.c:77-87 | the probe stops at the first slot from the key's home slot that is empty or holds the key; every slot before it is occupied by another key |
| HashMap.ProbeMiss | gokuro.c:152-154 | an empty slot on the key's probe path, with the key not met before it, proves the key is stored nowhere |
| HashMap.InsertAtEmpty | gokuro.c:79-90 | storing a new key in the empty slot its probe reached keeps the probing invariant, adds exactly that binding, and occupies one more slot |
| HashMap.OverwriteAt | gokuro.c:83-90 | overwriting the item of the key's slot rebinds that key and nothing else |
| HashMap.ViewInsert | gokuro.c:89-90 | writing a new key into an empty slot adds exactly that binding to the map |
| HashMap.ProbeBound | gokuro.c:78-87 | while an empty slot exists, a probe passes fewer occupied slots than the capacity, so it ends |
| HashMap.Reinsert | gokuro.c:126-141 | moving one stored pair into the new arrays adds exactly that binding and keeps the invariant |
| HashMap.NotYetMoved | gokuro.c:126-141 | a key of the old arrays is not yet among the pairs already moved |
| HashMap.Rehash | gokuro.c:96-143 | growing doubles the capacity, keeps the size, and the table still stands for the same map |
| HashMap.Put | gokuro.c:76-144 | after `hash_map_put` the table stands for the old map with the key bound to the item; the size grows only for a new key; the capacity doubles exactly when the size reaches half of it, which keeps the load below one half; hash_map.h (lines 32-96) is the same |
| HashMap.Clear | gokuro.c:159-169 | clearing gives the empty map at the same capacity; an empty table is left as it is; hash_map.h (lines 111-121) is the same |
| HashMap.ViewDomain | gokuro.c:79-85 | a key is in the map exactly when some slot holds it and it is not the empty marker |
| HashMap.ViewValue | gokuro.c:149-150 | the map binds a stored key to the item in the key's slot |
| HashMap.OccupiedUpdate | gokuro.c:79-81 | filling an empty slot raises the number of occupied slots by one, as `size++` does |
| HashMap.OccupiedAllEmpty | gokuro.c:164-168 | a table with every slot empty has size 0 |
| Buffers.WriteAt | gokuro.c:218-220 | the copy loop writes src at the offset and leaves every other byte as it was |
| Buffers.Reserve | gokuro.c:191-209 | a sufficient capacity changes nothing; otherwise the buffer grows to twice the requested capacity and keeps its bytes |
| Buffers.ReserveKeepsContents | gokuro.c:191-209 | reserving never changes the bytes in use |
| Buffers.Put | gokuro.c:211-223 | `buffer_put` appends exactly the given bytes; zero bytes change nothing |
| Buffers.PutChar | gokuro.c:225-229 | `buffer_put_char` appends exactly one byte |
| Buffers.PutUntilPtr | gokuro.c:231-244 | the bytes of the range are appended; an inverted range changes nothing |
| Buffers.Unescaped | gokuro.c:255-264 | collapsing `\,` never lengthens the range |
| Buffers.UnescapedPlain | gokuro.c:255-264 | a range without a backslash is copied as it is |
| Buffers.Collapse | gokuro.c:255-264 | the copy loop writes the range with every `\,` collapsed to ',' |
| Buffers.PutUntilPtrEscapingComma | gokuro.c:246-265 | the range is appended with `\,` collapsed; an inverted range changes nothing |
| Buffers.PutUntilChar | gokuro.c:267-275 | the bytes from the start up to the first c are appended, c excluded |
| Buffers.PutDoubling | gokuro.c:269-273 | one round of that loop appends one byte, doubling a full buffer first |
| Buffers.Clear | gokuro.c:277-279 | `buffer_clear` empties the buffer and keeps its storage |
| Buffers.Truncate | gokuro.c:506 | setting `used` back keeps exactly the bytes before the new end |
| Buffers.Copy | gokuro.c:281-283 | `buffer_copy` appends the second buffer's bytes to the first |
| Buffers.StoreBody | gokuro.c:383-389 | the body after the name's space is stored with a NUL and reads back as a C string at the returned offset; bodies stored earlier still read back the same |
| Buffers.AppendedCString | gokuro.c:384-387 | a NUL-free text appended with its NUL reads back at the offset where it was appended |
| Buffers.AppendKeepsCStrings | gokuro.c:384-385 | appending never changes a string stored before |
| BufferHeader.Init | buffer.h:10-14 | a new buffer is empty, with the requested capacity |
| BufferHeader.Reserve | buffer.h:16-28 | a sufficient capacity changes nothing; otherwise the capacity becomes exactly the requested one and the bytes are kept |
| BufferHeader.MaxSize | buffer.h:30-32 | the larger of the two numbers |
| BufferHeader.Put | buffer.h:34-49 | the bytes are appended; when they do not fit, the capacity becomes the larger of twice the old one and what is needed; otherwise it stays |
| BufferHeader.CharIndex | buffer.h:51-58 | the offset of the first c among the first `size` bytes, or `size + 1` exactly when there is none; `find_char` of gokuro_c.c (lines 13-20) is the same |
| BufferHeader.Copy | buffer.h:60-62 | appends the second buffer's bytes to the first, growing by `buffer_put`'s rule: the capacity stays when they fit, and otherwise becomes the larger of twice the old capacity and what is needed |
| Expansion.LastTriple | gokuro.c:436-457 | the last position up to a bound where three copies of a brace start, or none |
| Expansion.FirstTriple | gokuro.c:448-456 | the first position in a range where three copies of a brace start, or none |
| Expansion.Locate | gokuro.c:433-465 | the call found from a scan start: the `{{{` nearest before it, the first `}}}` after that, and a new offset past the last `}}}` before the start; nothing exactly when no `{{{` is followed by a complete `}}}` |
| Expansion.RunTriple | gokuro.c:434-457 | a run counter reaching three means three equal braces that end before the scan start |
| Expansion.StepOther | gokuro.c:437-439 | a byte that is no brace resets both counters and keeps the scan's invariant |
| Expansion.StepOpen | gokuro.c:440-447 | a '{' that is not the third in a row keeps the invariant |
| Expansion.StepOpenFound | gokuro.c:443-446 | the third '{' in a row ends the scan with the call Locate describes |
| Expansion.StepClose | gokuro.c:448-456 | a '}' run of three or more records the call end and, the first time, the new offset |
| Expansion.FindLastCall | gokuro.c:433-465 | the backward scan with its two run counters finds exactly the call Locate describes; main.c's scan (lines 236-267) is the same |
| Expansion.NameEnd | gokuro.c:471-486 | the name ends at the first '(' or '}' after `{{{`; no earlier byte is either |
| Expansion.CallName | gokuro.c:468-486 | the call's name holds neither '(' nor '}' and fits inside the call |
| Expansion.ArgStarts | gokuro.c:527-544 | at most nine argument starts; the starts already found are kept, and each new one lies just after a ',' inside the call |
| Expansion.ArgValue | gokuro.c:565-582 | `$0` is the raw text from the first argument to the byte before `)}}}`; `$k` past the last argument is empty; the other arguments are what Expansion.ArgumentsSplit and Expansion.EscapedCommaKept state |
| Expansion.Arguments | gokuro.c:527-582 | ten texts, the first being the whole argument text; Expansion.ArgumentsSplit relates them to the comma-separated fields |
| Expansion.FieldArguments | gokuro.c:527-582 | the reference reading of an argument text, defined from its split at ',': always ten texts, `$0` being the whole text |
| Expansion.ArgStartsCommas | gokuro.c:527-544 | with no '\' in the call, the argument scan finds exactly the starts of the comma-separated fields, up to nine |
| Expansion.SplitOfStarts | gokuro.c:527-544 | the texts between those starts are the pieces of the argument text split at ','; with nine starts the last runs to the end, commas included |
| Expansion.ArgumentsSplit | gokuro.c:527-582 | with no '\' in the argument text, the ten arguments are exactly its reference reading |
| Expansion.EscapedCommaKept | gokuro.c:539-544 | `a\,b` with no other comma or '\' is the one argument `a,b`: the escaped comma is kept as ',' and does not split, and `$2` to `$9` are empty |
| Expansion.SubstitutePlain | gokuro.c:546-584 | a body without '$' is used as it is |
| Expansion.SubstituteAppend | gokuro.c:546-584 | substitution distributes over a split of the body that does not cut a `$` from its digit |
| Expansion.SubstituteArg | gokuro.c:565-583 | `$d` is replaced by the d-th argument text, and the scan resumes after the digit |
| Expansion.KeepByte | gokuro.c:555-563 | a byte that does not start `$d` is kept |
| Expansion.ArgStep | gokuro.c:566-583 | the pending bytes before `$d`, then argument d, are written, and writing resumes after the digit |
| Expansion.PendingDone | gokuro.c:551-553 | at the body's NUL the pending bytes complete the result |
| Expansion.SubstituteLoop | gokuro.c:547-584 | the substitution loop writes the body with every `$d` replaced by argument d and every other byte kept |
| Expansion.Substitute | gokuro.c:547-584 | the body with every `$d` replaced; its value is stated by Expansion.SubstituteLoop (it is what the loop writes), Expansion.SubstitutePlain, Expansion.SubstituteArg and Expansion.SubstituteAppend |
| Expansion.Replacement | gokuro.c:504-584 | an undefined name is replaced by nothing; a constant call by its body; a call with arguments by the body with each `$k` filled from the call's arguments |
| Expansion.Splice | gokuro.c:586-590 | the rebuilt line keeps the bytes before the call, then the replacement, then the bytes after the call |
| Expansion.WholeLineCall | gokuro.c:433-486 | a line that is exactly `{{{name}}}` is found as one whole call, and its name is read back |
| Expansion.SingleCallLocated | gokuro.c:433-465 | a line whose only `{{{` opens it and whose only `}}}` closes it is one call |
| Expansion.PlainNameEnd | gokuro.c:471-486 | the name scan stops at the closing `}}}` when the name has no '(' or '}' |
| Expansion.TailClearAtStart | gokuro.c:341 | with offset 0 the scan skips nothing |
| Expansion.TailShift | gokuro.c:586-590 | the bytes after the call are copied behind the replacement and still hold no `}}}` |
| Expansion.OffsetKeepsTailClear | gokuro.c:338-341 | after an expansion, the bytes the next scan skips are the old line's bytes after the call, and they hold no `}}}` |
| Expansion.TailClearNoCall | gokuro.c:338-341 | when the skipped tail holds no `}}}` and the scan finds no call, the whole line holds no complete call |
| Expansion.ExpandKeepsTailClear | gokuro.c:338-341 | an expansion keeps the loop invariant: the bytes the next scan skips hold no `}}}` |
| Expansion.ConstantCallExpands | gokuro.c:512-523 | replacing the call `{{{name}}}` that follows p in `p{{{name}}}s` gives p, the body, s; with no body, p then s |
| Expansion.ArgumentCallExpands | gokuro.c:525-590 | replacing the call `{{{name(args)}}}` that follows p, with no '\' in args, gives p, the body with `$k` read as the k-th comma-separated field of args, then s |
| Gokuro.Lookup | gokuro.c:488-502 | the local table answers first, and the global table is asked only on a miss; only the fingerprint is compared |
| Gokuro.CollidingNamesShareBody | gokuro.c:488-502 | two names with the same fingerprint get the same body |
| Gokuro.Classify | gokuro.c:349-425 | a global definition is `#+MACRO: `, a space-free name, a space and the body; a local one the same after `#+MACRO_LOCAL: ` |
| Gokuro.ClassifyBare | gokuro.c:355-361 | a line without '\n' is the bare case exactly when it is `#+MACRO: ` and nothing more |
| Gokuro.ClassifyGlobal | gokuro.c:355-391 | a line without '\n' is a global definition exactly when it starts with `#+MACRO: ` and holds a space after that prefix |
| Gokuro.ClassifyLocal | gokuro.c:394-424 | a line is a local definition exactly when it starts with `#+MACRO_LOCAL: ` and holds a space after that prefix |
| Gokuro.Store | gokuro.c:383-422 | a global definition binds the name's fingerprint in the global table, a local one in the local table; content changes nothing |
| Gokuro.NextTables | gokuro.c:597-599 | the global table is kept; the local table is kept after a local definition and emptied after any other line |
| Gokuro.Written | gokuro.c:593-595 | a content line is written with its '\n'; a definition line writes nothing |
| Gokuro.Run | gokuro.c:319-600 | the output is empty or ends with '\n' |
| Gokuro.Gokuro | gokuro.c:636-662 | an empty input writes nothing; any output is empty or ends with '\n' |
| Gokuro.ParseDefinition | gokuro.c:363-378 | no definition exactly when no space follows the prefix; otherwise the name has no space and the line is prefix, name, space, body |
| Gokuro.ExpandCall | gokuro.c:488-590 | one expansion keeps the bytes before and after the call; an undefined name leaves them joined, and a constant call puts its body between them |
| Gokuro.ProcessLine | gokuro.c:341-591 | a line that finishes as content leaves the tables alone, and when the bytes its first scan skips hold no `}}}` it ends with no complete call unless it is a bare `#+MACRO: `; a line that finishes as a definition ends in a line classified as one |
| Gokuro.DefinitionSplit | gokuro.c:363-386 | a line built from a space-free name and a body splits back into them |
| Gokuro.PlainLineWritten | gokuro.c:349-352 | a line not starting with '#' and with no complete call is written as it is, and the local table is cleared |
| Gokuro.GlobalDefinitionStored | gokuro.c:355-391 | `#+MACRO: name body` stores the body under the name's fingerprint, and the line is not written |
| Gokuro.LocalDefinitionStored | gokuro.c:395-424 | `#+MACRO_LOCAL: name body` stores the body in the local table, and the line is not written |
| Gokuro.BareMacroLineWritten | gokuro.c:358-361 | a line that is exactly `#+MACRO: ` defines nothing and is written without expansion |
| Gokuro.ExpansionCanDefine | gokuro.c:343-425 | classification runs again after every expansion, so a line that expands to a definition is stored as one |
| Gokuro.ContentLineClearsLocals | gokuro.c:593-599 | a content line, calls expanded or not, is written as its loop left it and the next line is processed with an empty local table |
| Gokuro.ExpansionRound | gokuro.c:427-591 | a content line with a call is expanded once and the loop continues from the new offset |
| Gokuro.SelfExpandsToItself | gokuro.c:433-523 | with `name` bound to `{{{name}}}`, that line is one call that expands to itself |
| Gokuro.SelfReferenceExhausts | gokuro.c:343-591 | `#+MACRO: a {{{a}}}` makes `{{{a}}}` expand forever |
| Gokuro.SelfRound | gokuro.c:343-591 | with `name` bound to `{{{name}}}`, one round on that line uses one unit of fuel and gives the same line back |
| Gokuro.OneCallThenDone | gokuro.c:343-591 | a line with one call, whose expansion holds no definition and no call left of the new offset, is written as that expansion |
| Gokuro.ConstantCallWritten | gokuro.c:488-590 | in `p{{{name}}}s` with name defined as b, the call is replaced and p, b, s is written, when nothing further expands |
| Gokuro.UndefinedCallDeleted | gokuro.c:504-510 | in `p{{{name}}}s` with name undefined, the call is deleted and p, s is written, when nothing further expands |
| Gokuro.ArgumentCallWritten | gokuro.c:525-590 | in `p{{{name(args)}}}s` with no '\' in args, the body with `$k` read as the k-th comma-separated field of args is written between p and s, when nothing further expands |
| Gokuro.ConstantCallLineClearsLocals | gokuro.c:488-599 | in the input, the line `p{{{name}}}s` with name defined as b is written as p, b, s, and the next line sees an empty local table |
| MainC.Lookup | main.c:290-297 | the local map first, the global map on a miss, both by 64-bit fingerprint |
| MainC.ExpandLine | main.c:224-385 | a line the loop finishes, when the bytes its first scan skips hold no `}}}`, holds no complete call |
| MainC.Run | main.c:129-391 | the output is empty or ends with '\n' |
| MainC.MainC | main.c:112-125 | an empty input writes nothing; any output is empty or ends with '\n' |
| MainC.Classify | main.c:143-222 | a global definition is prefix, space-free name, space, body; a local one is `#+`, a name without ':', the ':' and one more byte, then the body; the line is `#+MACRO: ` exactly for Stop; a line expands exactly when it does not start with `#+` |
| MainC.BareMacroLineStops | main.c:144-150 | `#+MACRO: ` alone ends the run; nothing after it is written |
| MainC.GlobalDefinitionEchoed | main.c:143-186 | a global definition is stored and echoed without expansion |
| MainC.LocalDefinitionEchoed | main.c:188-222 | `#+name: body` stores the body under name in the local map and is echoed; the locals survive to the next line |
| MainC.HashLineWithoutColonEchoed | main.c:190-207 | a `#+` line without ':' is echoed and defines nothing |
| MainC.PlainLineUnchanged | main.c:224-266 | a content line with no complete call is left as it is |
| MainC.ContentClearsLocals | main.c:224-391 | a content line is expanded and written, and the locals are dropped after it |
| Early.EarlyBeginWith | gokuro_c.c:57-70 | the early `begin_with` is true when either string is a prefix of the other |
| Early.EarlyBeginWithOnLine | gokuro_c.c:210 | on a line that still has its '\n' this is exactly the prefix test |
| Early.EndWidth | gokuro_c.c:72-83 | `end_width` is true exactly when the last byte is c; it is false on the empty string |
| Early.PoolPut | gokuro_c.c:121-133 | the bytes are appended at the old `used`, which is returned; a full pool grows to the larger of twice its capacity and what is needed |
| Early.FnvLoop | gokuro_c.c:148-158 | the loop multiplies by the factor and xors in the sign-extended byte, from the seed, byte by byte |
| Early.FnvAppend | gokuro_c.c:152-156 | hashing one more byte continues from the hash of the text before it |
| Early.Fnv | gokuro_c.c:148-158 | the 64-bit FNV-1 hash of a name; its value is stated by Early.FnvLoop (from the seed, multiply then xor, byte by byte) and Early.FnvAppend (one more byte continues the hash) |
| Early.EarlyScan | gokuro_c.c:256-296 | a call the scan reports starts at a `{{{` that lies left of the scan position |
| Early.Locate | gokuro_c.c:256-296 | a found call starts at a `{{{` and ends just past a `}}}`; it agrees with the later scan of gokuro.c |
| Early.ScanAgrees | gokuro_c.c:256-291 | the early scan finds a call exactly when gokuro.c's does, at the same `{{{`; its end may only lie further right, past extra '}' bytes |
| Early.NoOpen | gokuro_c.c:261-263 | a scan that stops with no `{{{` right of it matches gokuro.c finding nothing |
| Early.FoundOpen | gokuro_c.c:264-271 | a `{{{` ends the scan at the call gokuro.c finds |
| Early.SkipClose | gokuro_c.c:273-284 | passing a `}}}` records the end just past it |
| Early.SkipOne | gokuro_c.c:287-289 | moving left one byte keeps the scan's invariant |
| Early.SkipTwo | gokuro_c.c:264-276 | moving left over two equal braces keeps the invariant |
| Early.Lookup | gokuro_c.c:306-311 | an absent name reads as the zero value, a body of length 0 |
| Early.NoCallLineUnchanged | gokuro_c.c:250-296 | a line without a complete call is not changed |
| Early.ExpandLine | gokuro_c.c:250-345 | a line the loop finishes holds no complete call |
| Early.RunWholeLines | gokuro_c.c:190-348 | input made of whole lines is printed as whole lines: the output is empty or ends with '\n' |
| Early.Run | gokuro_c.c:190-348 | the line loop; what it writes is stated by Early.RunWholeLines, Early.PlainTextUnchanged, Early.DefinitionStoredThenExpanded and Early.BareMacroEndsRun |
| Early.ParameterizedCallLoops | gokuro_c.c:298-345 | a call with '(' is never expanded, so the same call is found forever and the run does not end |
| Early.ConstantCallReplaced | gokuro_c.c:306-344 | a constant call is replaced by the body stored under its name's hash, or deleted when nothing is stored |
| Early.UnterminatedLastLine | gokuro_c.c:196-200 | a last line without '\n' is printed as it is, definition or not |
| Early.BareMacroEndsRun | gokuro_c.c:210-216 | `#+MACRO: ` alone ends the run |
| Early.NamelessDefinitionPrinted | gokuro_c.c:218-234 | a definition line without a space after the name is printed, not stored and not expanded |
| Early.DefinitionParts | gokuro_c.c:210-241 | the name runs from offset 9 to the first space, and the body is everything after it |
| Early.DefinitionStoredThenExpanded | gokuro_c.c:210-247 | a definition is stored under the hash of its name; the definition line then goes through expansion and is printed |
| Early.PlainLinePrinted | gokuro_c.c:190-348 | a line with no complete call that is not a definition is printed as it is |
| Early.PlainTextUnchanged | gokuro_c.c:190-348 | text with no complete call and no definition line passes through unchanged |
| Early.WholeLineLocated | gokuro_c.c:256-296 | when gokuro.c finds the whole line as one call, the early scan does too |
| Early.SelfExpandsToItself | gokuro_c.c:306-344 | with `name` bound to `{{{name}}}`, that line expands to itself |
| Early.SelfReferenceExhausts | gokuro_c.c:250-345 | a self-referencing macro is expanded until the fuel runs out |
| Early.SelfRound | gokuro_c.c:250-345 | with `name` bound to `{{{name}}}`, one round on that line uses one unit of fuel and gives the same line back |
| Replacing.FirstOccurrence | gokuro.go:36 | the first offset where the pattern occurs, or the length when it does not occur; it occurs at no earlier offset |
| Replacing.FirstOccurrenceIs | gokuro.go:36 | that offset is the only one with these properties |
| Replacing.ReplaceFirst | gokuro.go:36 | with no occurrence of the pattern the text is kept; otherwise the result is the first piece of the split at the pattern, then the replacement, then the other pieces joined back with the pattern |
| Replacing.ReplaceAllIsJoinSplit | gokuro.go:48 | `strings.ReplaceAll` equals splitting at every occurrence and joining with the replacement |
| Replacing.ReplaceAll | gokuro.go:48 | `strings.ReplaceAll`; its value is stated by Replacing.ReplaceAllIsJoinSplit (split at every occurrence, joined with the replacement) |
| Replacing.SplitOn | gokuro.go:48 | splitting gives at least one piece |
| Replacing.JoinSplitOn | gokuro.go:48 | joining the pieces with the pattern gives the text back |
| Replacing.ReplaceAllSkip | gokuro.go:48 | bytes before the first occurrence are kept |
| Replacing.ReplaceAllAbsent | gokuro.go:52 | a text without the pattern's first byte is left alone |
| Replacing.ReplaceAllKeepsLast | gokuro.go:52 | replacing every occurrence keeps a final byte that the pattern cannot contain |
| Replacing.ReplaceFirstKeepsLast | gokuro.go:36 | replacing the first occurrence keeps such a final byte as well |
| Replacing.ReplaceAllKeepsAbsent | gokuro.go:48 | replacing never brings in a byte that neither the text nor the replacement has |
| Replacing.ReplaceFirstKeepsAbsent | gokuro.go:36 | the same holds for the first replacement |
| Replacing.ReplaceAllFreePrefix | gokuro.js:32-35 | a leading text without the pattern's first byte is passed over |
| Replacing.ReplaceAllFreeSuffix | gokuro.js:32-35 | a trailing text without the pattern's first and last bytes is passed over |
| Ports.PrependLine | gokuro.go:166-168 | an output made of written lines is empty or ends with '\n' |
| Ports.Decimal | gokuro.go:156 | `strconv.Itoa` of a number is a non-empty string of digits; one digit below 10 |
| Ports.DecimalValue | gokuro.go:156 | reading those digits back gives the number |
| Ports.Target | gokuro.go:156 | a placeholder is '$' followed by a digit |
| Ports.QuotedNoPlaceholder | gokuro.go:152 | quoted text holds no placeholder |
| Ports.DollarFreeNoPlaceholder | gokuro.go:152 | text without '$' holds no placeholder |
| Ports.ReplaceTargetAbsent | gokuro.go:157 | a text with no placeholder is left alone by every `$n` replacement |
| Ports.FillKeeps | gokuro.go:155-158 | the argument loop leaves a placeholder-free body alone |
| Ports.ClearKeeps | gokuro.go:159-162 | the missing-argument loop leaves a placeholder-free body alone |
| Ports.PlaceholderFreeKept | gokuro.go:154-162 | a body with no placeholder comes out of the whole procedure as it is |
| Ports.FillArguments | gokuro.go:155-158 | the loop over the supplied arguments; Ports.FillKeeps states it keeps a placeholder-free body, Ports.SuppliedArgument and Ports.FillSkips what it does to `$k` |
| Ports.ClearMissing | gokuro.go:159-162 | the loop over the missing arguments; Ports.ClearKeeps states it keeps a placeholder-free body, Ports.MissingArgument and Ports.ClearSkips what it does to `$k` |
| Ports.Placeholders | gokuro.go:154-162 | the whole placeholder procedure; Ports.PlaceholderFreeKept states it keeps a placeholder-free body, Ports.WholeArgumentText, Ports.SuppliedArgument and Ports.MissingArgument what `$0` and `$k` become |
| Ports.ZeroTarget | gokuro.go:154 | the first replacement is of `$0` |
| Ports.OtherTarget | gokuro.go:156-157 | replacing one single-digit placeholder leaves another untouched |
| Ports.SameTarget | gokuro.go:156-157 | a placeholder is replaced whole by its replacement |
| Ports.FillSkips | gokuro.go:155-158 | the argument loop passes `$k` by while it handles other numbers |
| Ports.ClearSkips | gokuro.go:159-162 | the missing-argument loop passes `$k` by likewise |
| Ports.SuppliedArgument | gokuro.go:155-158 | `$k` for a supplied argument becomes that argument |
| Ports.MissingArgument | gokuro.go:159-162 | `$k` past the supplied arguments becomes nothing |
| Ports.WholeArgumentText | gokuro.go:154 | `$0` becomes the whole argument text |
| Ports.PiecesWithout | gokuro.go:19-45 | the pieces of a text between commas hold no byte the text lacks |
| Ports.FillKeepsAbsent | gokuro.go:155-158 | the argument loop brings in no byte that the body and the arguments lack |
| Ports.ClearKeepsAbsent | gokuro.go:159-162 | the missing-argument loop brings in no byte |
| Ports.PlaceholdersKeepAbsent | gokuro.go:154-162 | the procedure brings in no byte that the body, the argument text and the arguments all lack |
| GoPort.MinInt | gokuro.go:12-17 | the smaller of the two numbers |
| GoPort.Lookup | gokuro.go:129-135 | the local table answers first; a name in neither table reads as the empty body |
| GoPort.EscapeFound | gokuro.go:33-37 | an escaped comma at the scan position means the first one in the text lies at or before it, so the replacement shortens the text by one byte |
| GoPort.ParseFrom | gokuro.go:23-43 | the loop always adds the final argument to those already found |
| GoPort.ParseArguments | gokuro.go:19-45 | there is always at least one argument |
| GoPort.ParseSkip | gokuro.go:41 | bytes that are neither ',' nor '\' only move the scan on |
| GoPort.ParseTail | gokuro.go:43 | without ',' or '\' ahead, the rest of the text is the last argument |
| GoPort.ParseComma | gokuro.go:24-30 | a comma ends the current argument and starts the next one after it |
| GoPort.ParseEscape | gokuro.go:33-38 | at `\,` the first escaped comma of the whole text becomes ',' and the scan moves two bytes on, capped at the new length |
| GoPort.ParsePlainByte | gokuro.go:41 | any other byte joins the current argument |
| GoPort.CommaPiecesSplit | gokuro.go:19-45 | the pieces found byte by byte are the pieces of the split at ',' |
| GoPort.ParseNoBackslash | gokuro.go:19-45 | from any start, text without '\' is parsed into its pieces between commas |
| GoPort.NoBackslashIsSplit | gokuro.go:19-45 | on text without '\' the arguments are exactly the pieces between commas |
| GoPort.ByteAfterEscapeSkipped | gokuro.go:33-38 | `\,` becomes ',' and does not split; the byte after it is skipped, so a ',' there does not split either |
| GoPort.TrailingEscapedComma | gokuro.go:37 | a final `\,` gives a final ',' in the one argument |
| GoPort.SliceQuoted | gokuro.go:25 | a slice of quoted text stays quoted unless it separates a '$' from its '@' |
| GoPort.EscapeRemovalKeepsQuoted | gokuro.go:36 | turning the first `\,` into ',' keeps the text quoted |
| GoPort.ParseKeepsQuoted | gokuro.go:152-153 | every argument of quoted text is quoted |
| GoPort.ParseKeepsAbsent | gokuro.go:19-45 | the arguments hold no byte other than ',' that the text lacks |
| GoPort.QuoteRoundTrip | gokuro.go:47-53 | unquoting quoted text gives it back |
| GoPort.QuotedDollars | gokuro.go:47-49 | in quoted text every '$' is followed by '@' |
| GoPort.QuoteDollarFree | gokuro.go:47-53 | text without '$' is unchanged by quoting and unquoting |
| GoPort.QuoteDollar | gokuro.go:47-49 | quoteDollar; GoPort.QuotedDollars states every '$' of its result is followed by '@', GoPort.QuoteRoundTrip that GoPort.UnquoteDollar undoes it, GoPort.QuoteDollarFree that it keeps text without '$' |
| GoPort.UnquoteDollar | gokuro.go:51-53 | unquoteDollar; GoPort.QuoteRoundTrip states it undoes GoPort.QuoteDollar, GoPort.QuoteDollarFree that it keeps text without '$' |
| GoPort.Substitute | gokuro.go:151-163 | the body of a call with arguments; GoPort.BodyWithoutDollarKept states a body without '$' is used as it is, GoPort.WholeArgumentTextKept that `$0` becomes the argument text as written |
| GoPort.Step | gokuro.go:127-163 | an expansion keeps the text before the call and the text after it, and a line that ends with '\n' still does |
| GoPort.FirstSpace | gokuro.go:55 | the first tab, newline, form feed, carriage return or space from the start, or the end of the line |
| GoPort.Definition | gokuro.go:55-56 | a recognised definition is prefix, a non-empty name without white space, a space, and a body without '\n', then the line's '\n' |
| GoPort.DefinitionFound | gokuro.go:55-56 | every line of that form is recognised, with its name and body |
| GoPort.FirstSpaceIs | gokuro.go:55 | that offset is the only one with these properties |
| GoPort.Classify | gokuro.go:81-99 | a line is global exactly when the global expression matches it, local exactly when only the local one does, and content otherwise; a definition is prefix, name, space, body and '\n' |
| GoPort.ProcessLine | gokuro.go:80-164 | a written line still ends with its '\n' |
| GoPort.Run | gokuro.go:67-174 | the output is empty or ends with '\n' |
| GoPort.Preprocess | gokuro.go:59-175 | the output is empty or ends with '\n' |
| GoPort.UndefinedCallDeleted | gokuro.go:129-141 | a call of a name in neither table is deleted |
| GoPort.EmptyLocalHidesGlobal | gokuro.go:131-141 | a local with the empty body hides a global of the same name, and the call is deleted |
| GoPort.LocalBodyReplacesCall | gokuro.go:129-148 | a call without arguments is replaced by the local body, whatever the global table holds |
| GoPort.BodyWithoutDollarKept | gokuro.go:151-163 | a body without '$' is used as it is, whatever the arguments |
| GoPort.WholeArgumentTextKept | gokuro.go:152-163 | `$0` becomes the argument text as written, '$' and all |
| GoPort.QuotedArguments | gokuro.go:152-153 | the arguments of quoted text are quoted |
| GoPort.ArgumentUsed | gokuro.go:152-163 | `$k` becomes the k-th argument with its '$' restored; an argument's own `$n` is not filled in by a later round |
| GoPort.ArgumentMissing | gokuro.go:159-163 | `$k` past the last argument becomes nothing |
| GoPort.SuppliedArgumentUsed | gokuro.go:151-163 | on text without '$' and '\', `$k` becomes the k-th comma-separated piece |
| GoPort.MissingArgumentEmpty | gokuro.go:159-163 | on such text, `$k` past the last piece becomes nothing |
| GoPort.GlobalDefinitionStored | gokuro.go:81-90 | `#+MACRO: name body` stores the body, is not written, and resets the local table |
| GoPort.LocalDefinitionStored | gokuro.go:92-99 | `#+MACRO_LOCAL: name body` stores the body in the local table, which the next line still sees; the line is not written |
| GoPort.LocalLineClassified | gokuro.go:92-99 | a local definition line is classified as one and not as a global one |
| GoPort.PlainLineWritten | gokuro.go:122-172 | a line with no call that does not start with `#+` is written as it is, and the local table is reset |
| GoPort.FinalNewlineAdded | gokuro.go:68-74 | a last line without '\n' is processed as if it had one |
| JsPort.PlainSubstitution | gokuro.js:123 | a replacement text with no special '$' is inserted as it is |
| JsPort.MatchedAndDollar | gokuro.js:123 | in a replacement text `$&` is the matched text and `$$` a single '$' |
| JsPort.PlainReplace | gokuro.js:106 | with such a replacement text, `replace` is literal replacement of the first occurrence |
| JsPort.ReplaceAtFront | gokuro.js:106 | a pattern at the front of the text is the one replaced |
| JsPort.Replace | gokuro.js:106 | `replace` with a string pattern; its value is stated by JsPort.ReplaceAt (the first occurrence, with the substituted replacement text), JsPort.ReplaceAtFront and JsPort.PlainReplace |
| JsPort.Substitution | gokuro.js:104-124 | the replacement-text expansion of `replace`; JsPort.PlainSubstitution states a text with no special '$' is inserted as it is, JsPort.MatchedAndDollar that `$&` is the matched text and `$$` one '$' |
| JsPort.EscapeHead | gokuro.js:27-30 | escaped text never starts with '$' |
| JsPort.EscapeRoundTrip | gokuro.js:27-35 | unescaping escaped text gives it back |
| JsPort.EscapeQuoted | gokuro.js:27-30 | in escaped text every '$' is followed by '@' |
| JsPort.EscapeDollarFree | gokuro.js:27-30 | text without '$' is its own escape |
| JsPort.Escape | gokuro.js:27-30 | escapeDollar; JsPort.EscapeRoundTrip, JsPort.EscapeQuoted, JsPort.EscapeHead and JsPort.EscapeDollarFree state what it gives |
| JsPort.UnescapeAtFree | gokuro.js:32-35 | text without '@' is its own unescape |
| JsPort.Unescape | gokuro.js:32-35 | unescapeDollar; JsPort.EscapeRoundTrip states it undoes JsPort.Escape, JsPort.UnescapeAtFree, JsPort.UnescapeAround and JsPort.UnescapeFront what it does to other text |
| JsPort.ParseFrom | gokuro.js:6-23 | the loop always adds the final argument to those already found |
| JsPort.ParseArgs | gokuro.js:1-25 | there is always at least one argument |
| JsPort.ParseAgrees | gokuro.js:1-25 | from the same state, the loop splits as the Go loop does |
| JsPort.ParseArgsAgree | gokuro.js:1-25 | `parseMacroArgs` gives exactly the arguments of Go's `parseMacroArguments` |
| JsPort.Lookup | gokuro.js:93-102 | a name is found exactly when either table has it; the local table wins, and a name only the global table holds reads as its global body |
| JsPort.Definition | gokuro.js:38-39 | a recognised definition is prefix, a name without space, a space, and a body, then '\n'; name and body hold no line terminator |
| JsPort.DefinitionFound | gokuro.js:38-39 | every line of that form is recognised, the empty name included |
| JsPort.Classify | gokuro.js:55-71 | a line is global exactly when the global expression matches it, local exactly when only the local one does, and content otherwise; a definition is prefix, name, space, body and '\n' |
| JsPort.ProcessLine | gokuro.js:54-125 | a written line still ends with its '\n' |
| JsPort.Run | gokuro.js:48-134 | the output is empty or ends with '\n' |
| JsPort.Preprocess | gokuro.js:37-135 | the output is empty or ends with '\n' |
| JsPort.UndefinedNameRemoved | gokuro.js:95-108 | a call of a name in neither table is deleted, with or without arguments |
| JsPort.ConstantCallReplaced | gokuro.js:104-108 | a defined call without arguments is replaced where it stands by its body, read as a replacement text with empty `` $` `` |
| JsPort.ParameterizedCallReplaced | gokuro.js:111-124 | a call with arguments, whose text occurs nowhere earlier and with no '@' around it, is replaced by its unescaped substituted body |
| JsPort.ReplaceAt | gokuro.js:123 | `replace` works at the first occurrence |
| JsPort.UnescapeAround | gokuro.js:124 | unescaping passes over text without '@' |
| JsPort.EscapeBeforeCallLost | gokuro.js:123-124 | an `@$@` before a call with arguments comes out as '$' |
| JsPort.UnescapeFront | gokuro.js:32-35 | `@$@` at the front is unescaped to '$' |
| JsPort.ReplaceKeepsLast | gokuro.js:106 | `replace` keeps a final byte the pattern cannot contain |
| JsPort.StepKeepsLineEnd | gokuro.js:104-124 | a step keeps the line's final '\n' |
| JsPort.Step | gokuro.js:93-124 | one expansion step; its value is stated by JsPort.UndefinedNameRemoved, JsPort.ConstantCallReplaced and JsPort.ParameterizedCallReplaced, and JsPort.StepKeepsLineEnd states it keeps the final '\n' |
| JsPort.TailReplaceKeepsLineEnd | gokuro.js:105-107 | the constant replacement keeps the final '\n' |
| JsPort.UnescapedReplaceKeepsLineEnd | gokuro.js:123-124 | the replacement of a call with arguments, then the unescape, keep the final '\n' |
| JsPort.WholeArgumentRestored | gokuro.js:112-124 | `$0` becomes the argument text as written, once the line is unescaped |
| JsPort.ArgumentUsed | gokuro.js:112-118 | `$k` becomes the k-th argument of the escaped text |
| JsPort.ArgumentMissing | gokuro.js:119-122 | `$k` past the last argument becomes nothing |
| JsPort.ArgumentsPlain | gokuro.js:112-118 | the arguments and the escaped argument text hold no special '$', so they are inserted literally |
| JsPort.SubstitutionAgrees | gokuro.js:111-124 | without '$' or '@' in the argument text and '@' in the body, the body a call receives is the one the Go revision computes |
| JsPort.NoAtUnquoted | gokuro.go:51-53 | text without '@' is unchanged by Go's unquoting |
| JsPort.ConstantCallAgrees | gokuro.js:104-108 | a constant call of a non-empty body with no special '$' expands as in the Go revision |
| JsPort.GlobalDefinitionStored | gokuro.js:55-61 | `#+MACRO: name body` stores the body, even under the empty name; the line is not written, and the local table is reset |
| JsPort.LocalDefinitionStored | gokuro.js:64-70 | `#+MACRO_LOCAL: name body` stores the body in the local table, which the next line still sees |
| JsPort.LocalLineClassified | gokuro.js:64-71 | a local definition line is classified as one and not as a global one |
| JsPort.PlainLineWritten | gokuro.js:127-133 | a line with no call that does not start with `#+` is written as it is, and the local table is reset |
| JsPort.FinalNewlineAdded | gokuro.js:48-49 | a last line without '\n' is handled as if it had one |

## Left out

- Reading the input and writing the output are left out. In the C
  revisions this covers `buffer_read_all`, `fputs`, `init_io` and `main`;
  in main.c and gokuro_c.c, `get_line` / `buffer_get_line`; in Go the
  `bufio` reader and writer; in JavaScript the readline stream. The model
  starts from the input text and produces the output text.
- Regular-expression matching in gokuro.go and gokuro.js is a parameter
  `find`, whose match is assumed to lie in the line. The backward search
  for three `<` and the lazy call expression are not modelled byte by byte.
- readline also splits lines at '\r'. The JavaScript model splits at '\n'
  only.
- JavaScript strings are UTF-16 code units and Go strings are bytes. A
  `char` stands for one unit in either.
- A name like `constructor` would find `Object.prototype` members in the
  JavaScript tables. Tables are plain maps here.
- Replacement patterns `$n` and `$<` apply only to patterns with capture
  groups, and gokuro.js's string patterns have none.
- Allocation failures, the MEMORY_MAX_SIZE panic and 32-bit overflow of the
  buffer sizes in gokuro.c are not modelled. The model grows buffers
  without limit.
- In gokuro_c.c, the realloc at lines 328-334 resizes the wrong buffer.
  The model is of bytes, not memory, so this is left out.
- Early.Lookup returns the body a definition stored. In gokuro_c.c,
  `memory_pool_put` (lines 121-133) may move `macro_values` to a larger
  block. A `macro` record stored earlier (lines 242-246) then keeps a
  body address into the freed block, which line 336 reads. The model is of bytes, not
  memory, so this is left out.
- Calls with '(' in gokuro_c.c never finish. This is modelled as the
  `Loops` outcome, and the model does not run on.
- `stb_ds` hash maps in main.c and gokuro_c.c are maps from fingerprint to
  body. Their random seed has no effect on results.
- The hash map of gokuro.c uses UINT32_MAX to mark an empty slot, but
  `hash_map_put` (lines 76-92) stores a name whose `hash_32` is UINT32_MAX
  all the same, in the first empty slot on its probe path. `hash_map_get`
  (lines 146-157) finds it there until a rehash drops it (lines 125-128)
  or a later put takes that slot as empty. `Gokuro.Tables` is a plain map
  and always keeps it. `HashMap.Put` requires a key other than the marker.
- HashMap.Put: items must be below 2^32, as the C items are `uint32_t`
  offsets into the body buffer. A body buffer beyond that size is not
  modelled.
- On ARM, `char` is unsigned. `Early.Fnv` sign-extends bytes of 0x80 and
  above, as on x86.
- A NUL byte in the input is left out. gokuro.c reads one with `fread`,
  stops its main loop at one that starts a line (line 322), copies one in
  the middle of a line (lines 267-275), but cuts a stored body at one
  (line 519) and the whole output at the first one (line 662). main.c and
  gokuro_c.c print lines with `fputs` and `%s`, which stop at a NUL as
  well. The models treat NUL as an ordinary byte.
- MainC.Classify: when the ':' of a local definition is the last byte of
  the line, main.c reads past the line's NUL. This is reported as `Fault`
  instead of modelling the bytes it reads.
- Gokuro.ProcessLine, MainC.ExpandLine, Early.ExpandLine, GoPort.ProcessLine
  and JsPort.ProcessLine run on `fuel`. A run that needs more expansions
  than the fuel allows reports exhaustion, where the program would loop on.
- Debug prints to stderr in gokuro_c.c are left out.
- ArgStarts: its own contract keeps the starts found and puts each new
  one just after a ','. That every unescaped ',' starts an argument is
  proved by `Expansion.ArgStartsCommas` for argument text without '\',
  and that `\,` does not split is proved by `Expansion.EscapedCommaKept`
  for one `\,`. Text that mixes several `\,` with unescaped commas is not
  characterized further.
- ArgValue: its own contract gives `$0`, the empty texts past the last
  argument and a length bound. The value of `$1` to `$9` is stated through
  `Expansion.Arguments` by `Expansion.ArgumentsSplit` and
  `Expansion.EscapedCommaKept`, with the same limit as for ArgStarts.
- Arguments: its own contract gives the count and `$0`. The other nine
  texts are stated by `Expansion.ArgumentsSplit` for argument text without
  '\' and by `Expansion.EscapedCommaKept` for one `\,`, not for text
  mixing several `\,` with unescaped commas.
- Hashing.Hash32 and Hashing.Hash64 state only the range in their own
  contracts. The value is stated by `Hashing.RollingLoop`.

=== FILE: buffer.dfy ===
/**
 The growable byte buffer of gokuro.c (lines 178-283).  A buffer is its
 allocated bytes (`|data|` is the capacity) and the count of bytes in use;
 growth keeps every byte of the old allocation.  Bytes a reallocation adds
 have no defined value in C; the model fills them with NUL.
 */
module Buffers {
  import opened Text

  datatype Buffer = Buffer(data: seq<char>, used: nat)

  ghost predicate Valid(b: Buffer)
  {
    b.used <= |b.data|
  }

  /** The bytes in use. */
  function Contents(b: Buffer): seq<char>
    requires Valid(b)
  {
    b.data[..b.used]
  }

  /** The byte-copy loop shared by every append: src written into data at
      offset `at`, all other bytes untouched. */
  method WriteAt(data: seq<char>, at: nat, src: seq<char>) returns (r: seq<char>)
    requires at + |src| <= |data|
    ensures |r| == |data|
    ensures r[..at] == data[..at]
    ensures r[at..at + |src|] == src
    ensures r[at + |src|..] == data[at + |src|..]
  {
    r := data;
    var i := 0;
    while i < |src|
      invariant i <= |src| && |r| == |data|
      invariant forall j :: 0 <= j < |r| && !(at <= j < at + i) ==> r[j] == data[j]
      invariant forall j :: 0 <= j < i ==> r[at + j] == src[j]
    {
      r := r[at + i := src[i]];
      i := i + 1;
    }
    assert r[at..at + |src|] == src by {
      forall j | 0 <= j < |src| ensures r[at..at + |src|][j] == src[j] {
        assert r[at + j] == src[j];
      }
    }
  }

  /** An append through WriteAt: the bytes in use gain exactly src. */
  lemma AppendContents(b: Buffer, r: seq<char>, src: seq<char>)
    requires Valid(b) && b.used + |src| <= |r|
    requires r[..b.used] == b.data[..b.used]
    requires r[b.used..b.used + |src|] == src
    ensures r[..b.used + |src|] == Contents(b) + src
  {
    assert r[..b.used + |src|] == r[..b.used] + r[b.used..b.used + |src|];
  }

  /** `buffer_reserve`: nothing happens when the capacity already suffices;
      otherwise the capacity becomes twice the request. */
  function Reserve(b: Buffer, capacity: nat): (r: Buffer)
    requires Valid(b)
    ensures Valid(r) && r.used == b.used
    ensures |r.data| >= capacity && |r.data| >= |b.data|
    ensures r.data[..|b.data|] == b.data
    ensures |b.data| >= capacity ==> r == b
    ensures |b.data| < capacity ==> |r.data| == 2 * capacity
  {
    if |b.data| >= capacity then b
    else Buffer(b.data + seq(2 * capacity - |b.data|, _ => '\0'), b.used)
  }

  lemma ReserveKeepsContents(b: Buffer, capacity: nat)
    requires Valid(b)
    ensures Contents(Reserve(b, capacity)) == Contents(b)
  {
    var r := Reserve(b, capacity);
    assert r.data[..b.used] == r.data[..|b.data|][..b.used];
  }

  /** `buffer_put`: appends `data_size` bytes; size 0 changes nothing. */
  method Put(b: Buffer, src: seq<char>) returns (r: Buffer)
    requires Valid(b)
    ensures Valid(r) && Contents(r) == Contents(b) + src
    ensures |r.data| >= |b.data|
    ensures |src| == 0 ==> r == b
  {
    if |src| == 0 {
      return b;
    }
    var grown := Reserve(b, b.used + |src|);
    ReserveKeepsContents(b, b.used + |src|);
    var data := WriteAt(grown.data, b.used, src);
    AppendContents(grown, data, src);
    r := Buffer(data, b.used + |src|);
  }

  /** `buffer_put_char`. */
  method PutChar(b: Buffer, c: char) returns (r: Buffer)
    requires Valid(b)
    ensures Valid(r) && Contents(r) == Contents(b) + [c]
    ensures |r.data| >= |b.data|
  {
    var grown := Reserve(b, b.used + 1);
    ReserveKeepsContents(b, b.used + 1);
    var data := grown.data[b.used := c];
    assert data[..b.used + 1] == grown.data[..b.used] + [c];
    r := Buffer(data, b.used + 1);
  }

  /** The bytes of [from, to) of src, or nothing for an inverted range. */
  function Range(src: seq<char>, from: nat, until: nat): (s: seq<char>)
    requires until <= |src|
    ensures from <= until ==> s == src[from..until]
    ensures from > until ==> s == []
  {
    if from <= until then src[from..until] else []
  }

  /** `buffer_put_until_ptr`: appends src[from..to); an inverted range
      appends nothing and reserves nothing. */
  method PutUntilPtr(b: Buffer, src: seq<char>, from: nat, until: nat) returns (r: Buffer)
    requires Valid(b) && until <= |src|
    ensures Valid(r) && Contents(r) == Contents(b) + Range(src, from, until)
    ensures from > until ==> r == b
  {
    if from > until {
      return b;
    }
    var size := until - from;
    var grown := Reserve(b, b.used + size);
    ReserveKeepsContents(b, b.used + size);
    var data := WriteAt(grown.data, b.used, src[from..until]);
    AppendContents(grown, data, src[from..until]);
    r := Buffer(data, b.used + size);
  }

  /** The bytes of [i, to) of src with every `\,` collapsed to `,`.  Like the
      C loop, the test for the comma reads the byte at offset `c + 1` even
      when that is `to` itself, and a collapsed pair consumes both bytes. */
  function Unescaped(src: seq<char>, i: nat, until: nat): (s: seq<char>)
    requires until <= |src|
    ensures |s| <= if i <= until then until - i else 0
    decreases if i <= until then until - i else 0
  {
    if i >= until then []
    else
      var (x, step) := EscapeAt(src, i);
      [x] + Unescaped(src, i + step, until)
  }

  /** The byte written for offset i and how many source bytes it uses:
      `\,` becomes one ',', any other byte is copied. */
  function EscapeAt(src: seq<char>, i: nat): (r: (char, nat))
    requires i < |src|
    ensures r.1 == 1 || r.1 == 2
  {
    if src[i] == '\\' && At(src, i + 1) == ',' then (',', 2) else (src[i], 1)
  }

  /** One round of the copy loop keeps the bytes written so far followed
      by what is left equal to the whole collapsed range. */
  lemma EscapeStep(src: seq<char>, c: nat, until: nat, out: seq<char>, total: seq<char>)
    requires c < until <= |src| && out + Unescaped(src, c, until) == total
    ensures (out + [EscapeAt(src, c).0]) + Unescaped(src, c + EscapeAt(src, c).1, until) == total
  {
    var (x, step) := EscapeAt(src, c);
    ConcatAssoc(out, [x], Unescaped(src, c + step, until));
  }

  /** Without a backslash in the range, nothing is collapsed. */
  lemma {:induction false} UnescapedPlain(src: seq<char>, i: nat, until: nat)
    requires i <= until <= |src|
    requires forall j :: i <= j < until ==> src[j] != '\\'
    ensures Unescaped(src, i, until) == src[i..until]
    decreases (until as int) - i
  {
    if i < until {
      UnescapedPlain(src, i + 1, until);
      assert src[i..until] == [src[i]] + src[i+1..until];
    }
  }

  /** The copy loop of `buffer_put_until_ptr_escaping_comma`: the bytes it
      writes, in order. */
  method Collapse(src: seq<char>, from: nat, until: nat) returns (out: seq<char>)
    requires from <= until <= |src|
    ensures out == Unescaped(src, from, until)
  {
    out := [];
    ghost var total := Unescaped(src, from, until);
    var c := from;
    while c < until
      invariant from <= c <= until + 1
      invariant out + Unescaped(src, c, until) == total
      decreases until + 1 - c
    {
      EscapeStep(src, c, until, out, total);
      var e := EscapeAt(src, c);
      out := out + [e.0];
      c := c + e.1;
    }
    assert Unescaped(src, c, until) == [];
    assert out + [] == out;
  }

  /** `buffer_put_until_ptr_escaping_comma`.  The C code reserves room for
      the whole range once and then writes without further checks; the
      collapsed text is never longer than the range, so every write stays
      inside the reservation. */
  method PutUntilPtrEscapingComma(b: Buffer, src: seq<char>, from: nat, until: nat) returns (r: Buffer)
    requires Valid(b) && until <= |src|
    ensures Valid(r)
    ensures Contents(r) == Contents(b) + (if from <= until then Unescaped(src, from, until) else [])
    ensures from > until ==> r == b
  {
    if from > until {
      return b;
    }
    var maxSize := until - from;
    var grown := Reserve(b, b.used + maxSize);
    ReserveKeepsContents(b, b.used + maxSize);
    // The bytes the loop writes from offset `used` on, in order.
    var out := Collapse(src, from, until);
    var data := WriteAt(grown.data, b.used, out);
    AppendContents(grown, data, out);
    r := Buffer(data, b.used + |out|);
    assert Contents(r) == data[..grown.used + |out|] == Contents(grown) + out;
  }

  /** `buffer_put_until_char`: appends the bytes from `from` up to the first
      c.  A full buffer is grown with `buffer_reserve(2 * capacity)`, which
      quadruples it. */
  method PutUntilChar(b: Buffer, src: seq<char>, from: nat, c: char) returns (r: Buffer)
    requires Valid(b) && from <= |src| && c in src[from..]
    requires |b.data| > 0 || src[from] == c
    ensures Valid(r)
    ensures Contents(r) == Contents(b) + src[from..FindFrom(src, from, c)]
    ensures |r.data| >= |b.data|
  {
    var stop := FindFrom(src, from, c);
    assert stop < |src| by {
      var j :| 0 <= j < |src[from..]| && src[from..][j] == c;
      assert src[from + j] == c;
    }
    var cur := b;
    var i := from;
    while src[i] != c
      invariant from <= i <= stop && Valid(cur)
      invariant |cur.data| >= |b.data| && (|cur.data| > 0 || i == stop)
      invariant Contents(cur) == Contents(b) + src[from..i]
      decreases stop - i
    {
      assert src[from..i+1] == src[from..i] + [src[i]];
      cur := PutDoubling(cur, src[i]);
      i := i + 1;
    }
    r := cur;
  }

  /** One byte of the `buffer_put_until_char` loop: a full buffer doubles
      its capacity first. */
  method PutDoubling(b: Buffer, c: char) returns (r: Buffer)
    requires Valid(b) && |b.data| > 0
    ensures Valid(r) && Contents(r) == Contents(b) + [c]
    ensures |r.data| >= |b.data|
  {
    var cur := b;
    if cur.used == |cur.data| {
      ReserveKeepsContents(cur, 2 * |cur.data|);
      cur := Reserve(cur, 2 * |cur.data|);
    }
    var data := cur.data[cur.used := c];
    assert data[..cur.used + 1] == cur.data[..cur.used] + [c];
    r := Buffer(data, cur.used + 1);
  }

  /** `buffer_clear`. */
  function Clear(b: Buffer): (r: Buffer)
    requires Valid(b)
    ensures Valid(r) && Contents(r) == [] && r.data == b.data
  {
    Buffer(b.data, 0)
  }

  /** Setting `used` to an earlier offset, as the expansion code does with
      `line_buf.used = macro_begin - line_buf.data`. */
  function Truncate(b: Buffer, n: nat): (r: Buffer)
    requires Valid(b) && n <= b.used
    ensures Valid(r) && Contents(r) == Contents(b)[..n] && r.data == b.data
  {
    Buffer(b.data, n)
  }

  /** `buffer_copy(buf1, buf2)`: appends buf2's bytes in use to buf1. */
  method Copy(b1: Buffer, b2: Buffer) returns (r: Buffer)
    requires Valid(b1) && Valid(b2)
    ensures Valid(r) && Contents(r) == Contents(b1) + Contents(b2)
  {
    r := Put(b1, Contents(b2));
  }

  // ---------------------------------------------------------------------
  // The body arena

  /** The NUL-terminated string that starts at offset o. */
  function CString(s: seq<char>, o: nat): seq<char>
    requires o <= |s|
  {
    s[o..FindFrom(s, o, '\0')]
  }

  /** Lines 384-387 (and 417-420) of gokuro.c: a definition's body, the
      bytes after the space that ends the name up to the line's '\n', is
      appended to the arena with a closing NUL, and its offset is computed
      back from the new `used`.  Reading the arena at that offset gives the
      body back, and every string stored earlier reads as before: the arena
      is append-only and addressed by offset. */
  method StoreBody(arena: Buffer, line: seq<char>, nameEnd: nat) returns (r: Buffer, offset: nat)
    requires Valid(arena) && |arena.data| > 0
    requires nameEnd < |line| && line[nameEnd] == ' ' && LineEnd !in line && NoNul(line)
    ensures Valid(r) && offset <= |Contents(r)|
    ensures CString(Contents(r), offset) == line[nameEnd + 1..]
    ensures Contents(arena) <= Contents(r)
    ensures forall o :: 0 <= o <= |Contents(arena)| && FindFrom(Contents(arena), o, '\0') < |Contents(arena)| ==>
      CString(Contents(r), o) == CString(Contents(arena), o)
  {
    var src := line + [LineEnd];
    var body := line[nameEnd + 1..];
    FindFromIs(src, nameEnd + 1, LineEnd, |line|);
    assert src[nameEnd + 1..|line|] == body;
    assert LineEnd in src[nameEnd + 1..] by {
      assert src[nameEnd + 1..][|line| - nameEnd - 1] == LineEnd;
    }
    var r1 := PutUntilChar(arena, src, nameEnd + 1, LineEnd);
    r := PutChar(r1, '\0');
    offset := r.used - |body| - 1;
    var prior := Contents(arena);
    assert Contents(r) == prior + body + ['\0'];
    AppendedCString(prior, body);
    AppendKeepsCStrings(prior, body + ['\0']);
    assert prior + body + ['\0'] == prior + (body + ['\0']);
  }

  /** A string appended with its NUL reads back at the offset it was
      appended at. */
  lemma AppendedCString(prior: seq<char>, body: seq<char>)
    requires NoNul(body)
    ensures CString(prior + body + ['\0'], |prior|) == body
  {
    var stored := prior + body + ['\0'];
    FindFromIs(stored, |prior|, '\0', |prior| + |body|);
    assert stored[|prior|..|prior| + |body|] == body;
  }

  /** Appending bytes does not change a NUL-terminated string that was
      already complete. */
  lemma AppendKeepsCStrings(prior: seq<char>, extra: seq<char>)
    ensures forall o :: 0 <= o <= |prior| && FindFrom(prior, o, '\0') < |prior| ==>
      CString(prior + extra, o) == CString(prior, o)
  {
    var stored := prior + extra;
    forall o | 0 <= o <= |prior| && FindFrom(prior, o, '\0') < |prior|
      ensures CString(stored, o) == CString(prior, o)
    {
      var k := FindFrom(prior, o, '\0');
      FindFromIs(stored, o, '\0', k);
      assert stored[o..k] == prior[o..k];
    }
  }
}

=== FILE: buffer_header.dfy ===
/**
 The buffer of buffer.h, used by main.c.  It shares gokuro.c's layout and
 copy loop but grows differently: `buffer_reserve` grows to exactly the
 requested capacity, and `buffer_put` asks for the larger of twice the
 capacity and what the append needs.
 */
module BufferHeader {
  import opened Buffers

  /** `buffer_init`: an empty buffer of the given capacity (the bytes
      `malloc` returns have no defined value; the model uses NUL). */
  function Init(capacity: nat): (r: Buffer)
    ensures Valid(r) && Contents(r) == [] && |r.data| == capacity
  {
    Buffer(seq(capacity, _ => '\0'), 0)
  }

  /** `buffer_reserve`: grows to exactly the requested capacity. */
  function Reserve(b: Buffer, capacity: nat): (r: Buffer)
    requires Valid(b)
    ensures |r.data| == if |b.data| >= capacity then |b.data| else capacity
    ensures Valid(r) && r.used == b.used && r.data[..|b.data|] == b.data
    ensures |b.data| >= capacity ==> r == b
  {
    if |b.data| >= capacity then b
    else Buffer(b.data + seq(capacity - |b.data|, _ => '\0'), b.used)
  }

  /** `max_size_t`. */
  function MaxSize(a: nat, b: nat): (m: nat)
    ensures m >= a && m >= b && (m == a || m == b)
  {
    if a > b then a else b
  }

  /** `buffer_put`: appends src; when it does not fit, the capacity becomes
      the larger of twice the old capacity and exactly what is needed. */
  method Put(b: Buffer, src: seq<char>) returns (r: Buffer)
    requires Valid(b)
    ensures Valid(r) && Contents(r) == Contents(b) + src
    ensures |src| == 0 ==> r == b
    ensures |src| > 0 && b.used + |src| > |b.data| ==> |r.data| == MaxSize(2 * |b.data|, b.used + |src|)
    ensures b.used + |src| <= |b.data| ==> |r.data| == |b.data|
  {
    if |src| == 0 {
      return b;
    }
    var grown := b;
    if b.used + |src| > |b.data| {
      grown := Reserve(b, MaxSize(2 * |b.data|, b.used + |src|));
    }
    assert grown.data[..b.used] == b.data[..b.used] by {
      assert grown.data[..b.used] == grown.data[..|b.data|][..b.used];
    }
    var data := WriteAt(grown.data, b.used, src);
    AppendContents(grown, data, src);
    r := Buffer(data, b.used + |src|);
  }

  /** `char_index`: the offset of the first c among the first `size` bytes
      of data, or `size + 1` when there is none. */
  method CharIndex(data: seq<char>, size: nat, c: char) returns (k: nat)
    requires size <= |data|
    ensures k <= size + 1 && k != size
    ensures k < size ==> data[k] == c && c !in data[..k]
    ensures k == size + 1 <==> c !in data[..size]
  {
    var i := 0;
    while i < size
      invariant i <= size && c !in data[..i]
    {
      if data[i] == c {
        return i;
      }
      assert data[..i+1] == data[..i] + [data[i]];
      i := i + 1;
    }
    return size + 1;
  }

  /** `buffer_copy(buf1, buf2)`: appends buf2's bytes in use to buf1. */
  method Copy(b1: Buffer, b2: Buffer) returns (r: Buffer)
    requires Valid(b1) && Valid(b2)
    ensures Valid(r) && Contents(r) == Contents(b1) + Contents(b2)
    ensures b1.used + b2.used <= |b1.data| ==> |r.data| == |b1.data|
    ensures b2.used > 0 && b1.used + b2.used > |b1.data| ==> |r.data| == MaxSize(2 * |b1.data|, b1.used + b2.used)
  {
    r := Put(b1, Contents(b2));
  }
}

=== FILE: early.dfy ===
/**
 The early constant-only revision, gokuro_c.c.  It has its own helpers
 (`begin_with`, `end_width`, a memory pool, an FNV-style hash), a scan that
 steps over `{{{` and `}}}` three bytes at a time, and an expansion loop
 that handles only constant calls: a call with '(' in it is located again
 and again without the line changing, so the program never finishes.
 */
module Early {
  import opened Text
  import opened Options
  import opened Hashing
  import opened Buffers
  import BufferHeader
  import Expansion
  import Gokuro

  // ---------------------------------------------------------------------
  // Helpers

  /** `begin_with` of gokuro_c.c: compares until either string ends, so it
      is true when one string is a prefix of the other. */
  function EarlyBeginWith(a: seq<char>, b: seq<char>, i: nat): (r: bool)
    requires i <= |a| && i <= |b| && a[..i] == b[..i]
    ensures r <==> b <= a || a <= b
    decreases |a| - i
  {
    if i == |a| || i == |b| then
      assert a[..i] == a || b[..i] == b;
      true
    else if a[i] != b[i] then
      false
    else
      assert a[..i + 1] == b[..i + 1] by {
        assert a[..i + 1] == a[..i] + [a[i]];
        assert b[..i + 1] == b[..i] + [b[i]];
      }
      EarlyBeginWith(a, b, i + 1)
  }

  /** On a line that still carries its '\n' (a byte the pattern does not
      contain), the quirk disappears: `begin_with` is the prefix test. */
  lemma EarlyBeginWithOnLine(line: seq<char>, pattern: seq<char>)
    requires LineEnd !in pattern && LineEnd !in line
    ensures EarlyBeginWith(line + [LineEnd], pattern, 0) <==> pattern <= line
  {
    var a := line + [LineEnd];
    if |a| <= |pattern| {
      assert pattern[|line|] != a[|line|];
    }
    if |pattern| <= |line| {
      assert a[..|pattern|] == line[..|pattern|];
    } else if |pattern| == |a| {
      assert pattern[|line|] != a[|line|];
    }
  }

  /** `end_width(a, c)`: true exactly when the last byte of a is c; false
      for the empty string. */
  method EndWidth(a: seq<char>, c: char) returns (r: bool)
    requires NoNul(a)
    ensures r <==> |a| > 0 && a[|a| - 1] == c
  {
    var i := 0;
    var justReadC := false;
    while i < |a|
      invariant i <= |a|
      invariant justReadC <==> i > 0 && a[i - 1] == c
    {
      justReadC := a[i] == c;
      i := i + 1;
    }
    r := justReadC;
  }

  /** `memory_pool_put`: appends the bytes and returns the offset where they
      start, the old `used`; a full pool grows to the larger of twice its
      capacity and what the append needs. */
  method PoolPut(pool: Buffer, src: seq<char>) returns (r: Buffer, start: nat)
    requires Valid(pool)
    ensures Valid(r) && start == pool.used && r.used == pool.used + |src|
    ensures Contents(r) == Contents(pool) + src
    ensures Contents(r)[start..] == src
    ensures pool.used + |src| > |pool.data| ==> |r.data| == BufferHeader.MaxSize(2 * |pool.data|, pool.used + |src|)
    ensures pool.used + |src| <= |pool.data| ==> |r.data| == |pool.data|
  {
    start := pool.used;
    r := BufferHeader.Put(pool, src);
    assert Contents(r)[start..] == src by {
      assert Contents(r) == Contents(pool) + src;
    }
  }

  // ---------------------------------------------------------------------
  // The hash

  const FnvSeed: bv64 := 1099511628211
  const FnvFactor: bv64 := 14695981039346656037

  /** The byte as the C code feeds it to `^=`: `char` is signed on the usual
      targets, so a byte of 0x80 or more is sign-extended to 64 bits. */
  function Widen(c: char): bv64
  {
    var b := Byte(c) as bv64;
    if b < 128 then b else b | 0xFFFF_FFFF_FFFF_FF00
  }

  /** One step of the hash: multiply by the factor, xor in the byte. */
  function Mix(h: bv64, c: char): bv64
  {
    (h * FnvFactor) ^ Widen(c)
  }

  /** `fnv1_hash_64`: from the seed, one Mix per byte (the two FNV
      constants are used the other way round). */
  function Fnv(s: seq<char>): bv64
    decreases |s|
  {
    if |s| == 0 then FnvSeed
    else Mix(Fnv(s[..|s| - 1]), s[|s| - 1])
  }

  /** The loop of `fnv1_hash_64`. */
  method FnvLoop(data: seq<char>) returns (h: bv64)
    ensures h == Fnv(data)
  {
    h := FnvSeed;
    var i := 0;
    while i < |data|
      invariant i <= |data| && h == Fnv(data[..i])
    {
      assert data[..i + 1][..i] == data[..i];
      h := Mix(h, data[i]);
      i := i + 1;
    }
    assert data[..i] == data;
  }

  /** The fold is a left fold: hashing an extension continues from the
      hash of the prefix. */
  lemma {:induction false} FnvAppend(s: seq<char>, c: char)
    ensures Fnv(s + [c]) == Mix(Fnv(s), c)
  {
    assert (s + [c])[..|s|] == s;
  }

  // ---------------------------------------------------------------------
  // Locating a call

  /** The scan of lines 256-291 from offset i leftwards.  A '{' or '}' is
      checked together with the two bytes to its left; a triple of '{'
      ends the scan, a triple of '}' records the call end just after it and
      the scan resumes left of it; otherwise the scan resumes at the first
      byte that did not match.  A `}}}` that starts at offset 0 abandons the
      scan. */
  function EarlyScan(line: seq<char>, i: int, end: Option<nat>): (r: Option<(nat, nat)>)
    requires i <= |line|
    ensures r.Some? ==> Expansion.Triple(line, r.value.0, '{') && r.value.0 + 2 <= i
    decreases i + 1
  {
    if i < 2 then None
    else if At(line, i) == '{' then
      if At(line, i - 1) == '{' then
        if At(line, i - 2) == '{' then
          if end.None? then None else Some((i - 2, end.value))
        else EarlyScan(line, i - 2, end)
      else EarlyScan(line, i - 1, end)
    else if At(line, i) == '}' then
      if At(line, i - 1) == '}' then
        if At(line, i - 2) == '}' then
          if i - 2 == 0 then None
          else EarlyScan(line, i - 3, Some(i + 1))
        else EarlyScan(line, i - 2, end)
      else EarlyScan(line, i - 1, end)
    else EarlyScan(line, i - 1, end)
  }

  /** The scan from the end of the line: a call starts at a `{{{` and ends
      just past a `}}}`. */
  function Locate(line: seq<char>): (r: Option<(nat, nat)>)
    ensures AgreesWithLater(line, r)
    ensures r.Some? ==> var (b, e) := r.value;
      Expansion.Triple(line, b, '{') && Expansion.Triple(line, e - 3, '}') && b + 6 <= e <= |line|
  {
    ScanAgrees(line, |line|, None);
    EarlyScan(line, |line|, None)
  }

  /** Only '}' from offset j up to g. */
  ghost predicate Closes(line: seq<char>, j: int, g: int)
  {
    0 <= j && g <= |line| && forall k :: j <= k < g ==> line[k] == '}'
  }

  /** A recorded end e, seen from offset i: just past a `}}}` right of i,
      and every `}}}` between i - 1 and it reaches it through '}' only. */
  ghost predicate EndState(line: seq<char>, i: int, e: nat)
  {
    e >= 3 && Expansion.Triple(line, e - 3, '}') && i + 1 <= e - 3 &&
    forall j :: i - 1 <= j < e - 3 && Expansion.Triple(line, j, '}') ==> Closes(line, j, e - 3)
  }

  /** What the scan knows when it is about to read offset i: no `{{{`
      starts at i - 1 or later, and with no end recorded no `}}}` does
      either. */
  ghost predicate ScanState(line: seq<char>, i: int, end: Option<nat>)
  {
    -1 <= i <= |line| &&
    (forall j :: i - 1 <= j ==> !Expansion.Triple(line, j, '{')) &&
    (end.None? ==> forall j :: i - 1 <= j ==> !Expansion.Triple(line, j, '}')) &&
    (end.Some? ==> EndState(line, i, end.value))
  }

  /** The early scan finds a call exactly when the scan of gokuro.c does
      (from the end of the line), at the same `{{{`; its end may lie further
      right, past extra '}' bytes only. */
  ghost predicate AgreesWithLater(line: seq<char>, r: Option<(nat, nat)>)
  {
    var c := Expansion.Locate(line, 0);
    (r.None? <==> c.None?) &&
    (r.Some? && c.Some? ==>
      c.value.begin == r.value.0 && c.value.end <= r.value.1 <= |line| &&
      Closes(line, c.value.end - 3, r.value.1))
  }

  /** Moving left over offsets where no triple of either brace starts. */
  lemma Skip(line: seq<char>, i: int, i': int, end: Option<nat>)
    requires ScanState(line, i, end) && -1 <= i' <= i
    requires forall j :: i' - 1 <= j < i - 1 ==> !Expansion.Triple(line, j, '{') && !Expansion.Triple(line, j, '}')
    ensures ScanState(line, i', end)
  {
  }

  /** Passing a `}}}` at offset i - 2 records the end just past it. */
  lemma SkipClose(line: seq<char>, i: int, end: Option<nat>)
    requires ScanState(line, i, end) && 3 <= i
    requires line[i - 2] == '}' && line[i - 1] == '}' && At(line, i) == '}'
    ensures ScanState(line, i - 3, Some(i + 1))
  {
    assert !Expansion.Triple(line, i - 4, '{') && !Expansion.Triple(line, i - 3, '{');
    if Expansion.Triple(line, i - 3, '}') {
      assert Closes(line, i - 3, i - 2);
    }
    if Expansion.Triple(line, i - 4, '}') {
      assert Closes(line, i - 4, i - 2);
    }
  }

  /** A scan that stops with no `{{{` to its right finds nothing, as does
      the later revision's. */
  lemma NoOpen(line: seq<char>, i: int, end: Option<nat>)
    requires ScanState(line, i, end)
    requires forall j :: 0 <= j < i - 1 ==> !Expansion.Triple(line, j, '{')
    ensures Expansion.Locate(line, 0).None?
  {
    assert Expansion.LastTriple(line, '{', |line| - 2).None?;
  }

  /** A `{{{` at offset i - 2 ends the scan: with an end recorded the call
      starts there, and it is the later revision's call. */
  lemma FoundOpen(line: seq<char>, i: int, end: Option<nat>)
    requires ScanState(line, i, end) && 2 <= i
    requires line[i - 2] == '{' && line[i - 1] == '{' && At(line, i) == '{'
    ensures AgreesWithLater(line, if end.None? then None else Some((i - 2, end.value)))
  {
    var b := i - 2;
    assert Expansion.Triple(line, b, '{');
    assert Expansion.LastTriple(line, '{', |line| - 2) == Some(b);
    if end.Some? {
      var g := end.value - 3;
      var f := Expansion.FirstTriple(line, '}', b + 1, |line| - 2);
      assert f.Some? && f.value <= g;
      assert Closes(line, f.value, g);
    } else {
      assert Expansion.FirstTriple(line, '}', b + 1, |line| - 2).None?;
    }
  }

  /** Moving left one byte when bytes i - 1 and i are not both the same
      brace. */
  lemma SkipOne(line: seq<char>, i: int, end: Option<nat>)
    requires ScanState(line, i, end) && 2 <= i
    requires At(line, i) != '{' || At(line, i - 1) != '{'
    requires At(line, i) != '}' || At(line, i - 1) != '}'
    ensures ScanState(line, i - 1, end)
  {
    Skip(line, i, i - 1, end);
  }

  /** Moving left two bytes over a pair of one brace preceded by another
      byte. */
  lemma SkipTwo(line: seq<char>, i: int, end: Option<nat>)
    requires ScanState(line, i, end) && 2 <= i
    requires At(line, i) == '{' || At(line, i) == '}'
    requires At(line, i - 1) == At(line, i) && At(line, i - 2) != At(line, i)
    ensures ScanState(line, i - 2, end)
  {
    Skip(line, i, i - 2, end);
  }

  lemma {:induction false} ScanAgrees(line: seq<char>, i: int, end: Option<nat>)
    requires ScanState(line, i, end)
    ensures AgreesWithLater(line, EarlyScan(line, i, end))
    decreases i + 1, 1
  {
    var r := EarlyScan(line, i, end);
    if i < 2 {
      NoOpen(line, i, end);
      NoneAgrees(line);
      AgreesAlike(line, r, None);
    } else if At(line, i) == '{' && At(line, i - 1) == '{' && At(line, i - 2) == '{' {
      FoundOpen(line, i, end);
      AgreesAlike(line, r, if end.None? then None else Some((i - 2, end.value)));
    } else if At(line, i) == '}' && At(line, i - 1) == '}' && At(line, i - 2) == '}' {
      if i - 2 == 0 {
        NoOpen(line, i, end);
        NoneAgrees(line);
        AgreesAlike(line, r, None);
      } else {
        ScanAgreesClose(line, i, end);
      }
    } else if (At(line, i) == '{' || At(line, i) == '}') && At(line, i - 1) == At(line, i) {
      ScanAgreesTwo(line, i, end);
    } else {
      ScanAgreesOne(line, i, end);
    }
  }

  /** The case of ScanAgrees where the scan passes a `}}}`. */
  lemma {:induction false} ScanAgreesClose(line: seq<char>, i: int, end: Option<nat>)
    requires ScanState(line, i, end) && 3 <= i
    requires At(line, i) == '}' && At(line, i - 1) == '}' && At(line, i - 2) == '}'
    ensures AgreesWithLater(line, EarlyScan(line, i, end))
    decreases i + 1, 0
  {
    SkipClose(line, i, end);
    ScanAgrees(line, i - 3, Some(i + 1));
    ScanStepClose(line, i, end);
    AgreesAlike(line, EarlyScan(line, i, end), EarlyScan(line, i - 3, Some(i + 1)));
  }

  /** The case of ScanAgrees where the scan passes a pair of one brace. */
  lemma {:induction false} ScanAgreesTwo(line: seq<char>, i: int, end: Option<nat>)
    requires ScanState(line, i, end) && 2 <= i
    requires At(line, i) == '{' || At(line, i) == '}'
    requires At(line, i - 1) == At(line, i) && At(line, i - 2) != At(line, i)
    ensures AgreesWithLater(line, EarlyScan(line, i, end))
    decreases i + 1, 0
  {
    SkipTwo(line, i, end);
    ScanAgrees(line, i - 2, end);
    ScanStepTwo(line, i, end);
    AgreesAlike(line, EarlyScan(line, i, end), EarlyScan(line, i - 2, end));
  }

  /** The case of ScanAgrees where the scan passes one byte. */
  lemma {:induction false} ScanAgreesOne(line: seq<char>, i: int, end: Option<nat>)
    requires ScanState(line, i, end) && 2 <= i
    requires At(line, i) != '{' || At(line, i - 1) != '{'
    requires At(line, i) != '}' || At(line, i - 1) != '}'
    ensures AgreesWithLater(line, EarlyScan(line, i, end))
    decreases i + 1, 0
  {
    SkipOne(line, i, end);
    ScanAgrees(line, i - 1, end);
    ScanStepOne(line, i, end);
    AgreesAlike(line, EarlyScan(line, i, end), EarlyScan(line, i - 1, end));
  }


  /** One step of the scan over `}}}`: the end is recorded. */
  lemma ScanStepClose(line: seq<char>, i: int, end: Option<nat>)
    requires 3 <= i <= |line| && At(line, i) == '}' && At(line, i - 1) == '}' && At(line, i - 2) == '}'
    ensures EarlyScan(line, i, end) == EarlyScan(line, i - 3, Some(i + 1))
  {
  }

  /** One step of the scan over a pair of one brace. */
  lemma ScanStepTwo(line: seq<char>, i: int, end: Option<nat>)
    requires 2 <= i <= |line| && (At(line, i) == '{' || At(line, i) == '}')
    requires At(line, i - 1) == At(line, i) && At(line, i - 2) != At(line, i)
    ensures EarlyScan(line, i, end) == EarlyScan(line, i - 2, end)
  {
  }

  /** One step of the scan over any other byte. */
  lemma ScanStepOne(line: seq<char>, i: int, end: Option<nat>)
    requires 2 <= i <= |line|
    requires At(line, i) != '{' || At(line, i - 1) != '{'
    requires At(line, i) != '}' || At(line, i - 1) != '}'
    ensures EarlyScan(line, i, end) == EarlyScan(line, i - 1, end)
  {
  }

  /** With no call on the line, a scan that finds nothing agrees. */
  lemma NoneAgrees(line: seq<char>)
    requires Expansion.Locate(line, 0).None?
    ensures AgreesWithLater(line, None)
  {
  }

  /** Equal scan results agree alike. */
  lemma AgreesAlike(line: seq<char>, r: Option<(nat, nat)>, r': Option<(nat, nat)>)
    requires r == r' && AgreesWithLater(line, r')
    ensures AgreesWithLater(line, r)
  {
  }


  // ---------------------------------------------------------------------
  // Expansion

  /** The body of a name: an absent name reads as the zero value of the
      map, a body of length 0. */
  function Lookup(t: map<bv64, seq<char>>, name: seq<char>): (body: seq<char>)
    ensures Fnv(name) in t ==> body == t[Fnv(name)]
    ensures Fnv(name) !in t ==> body == []
  {
    if Fnv(name) in t then t[Fnv(name)] else []
  }

  datatype LineOutcome = Done(line: seq<char>) | OutOfFuel | Loops

  /** The expansion loop of lines 250-345.  A constant call is replaced by
      its body; for a call with '(' the line is left as it is and the same
      call is found forever (Loops).  At most `fuel` calls are expanded. */
  function ExpandLine(line: seq<char>, t: map<bv64, seq<char>>, fuel: nat): (r: LineOutcome)
    ensures r.Done? ==> Expansion.NoCompleteCall(r.line, |r.line|)
    decreases fuel
  {
    match Locate(line)
    case None => Done(line)
    case Some((b, e)) =>
      if '(' in line[b + 3..e - 3] then Loops
      else if fuel == 0 then OutOfFuel
      else ExpandLine(line[..b] + Lookup(t, line[b + 3..e - 3]) + line[e..], t, fuel - 1)
  }

  datatype Outcome = Output(text: seq<char>) | Exhausted | Diverges

  /** Prefixes the text of an outcome with what an earlier line wrote.
      Each revision has its own Outcome (this one can also diverge), so each
      module keeps its own Prepend rather than sharing one. */
  function Prepend(w: seq<char>, o: Outcome): (r: Outcome)
    ensures o.Output? ==> r == Output(w + o.text)
    ensures !o.Output? ==> r == o
    ensures o.Output? && w != [] && Terminated(w) && Terminated(o.text) ==> r.Output? && Terminated(r.text)
  {
    match o
    case Output(text) => Output(w + text)
    case _ => o
  }

  /** The main loop (lines 190-348) over the rest of the input.  A last
      line without '\n' is printed as it is; `#+MACRO: ` on its own ends
      the run; a definition with no space after the name is printed and
      not stored; any other definition is stored and the line then goes
      through expansion like every other line. */
  function Run(text: seq<char>, t: map<bv64, seq<char>>, fuel: nat): (r: Outcome)
    decreases |text|
  {
    if |text| == 0 then Output([])
    else
      var k := FindFrom(text, 0, LineEnd);
      if k == |text| then Output(text)
      else
        var line := text[..k];
        var rest := text[k + 1..];
        EarlyBeginWithOnLine(line, Gokuro.GlobalPrefix);
        if EarlyBeginWith(line + [LineEnd], Gokuro.GlobalPrefix, 0) then
          if At(line, 9) == LineEnd then Output([])
          else
            var sp := FindFrom(line, 9, ' ');
            if sp == |line| then Prepend(line + [LineEnd], Run(rest, t, fuel))
            else
              var t' := t[Fnv(line[9..sp]) := line[sp + 1..]];
              Emit(ExpandLine(line, t', fuel), Run(rest, t', fuel))
        else Emit(ExpandLine(line, t, fuel), Run(rest, t, fuel))
  }

  /** The main loop keeps text made of whole lines whole: what it prints
      is empty or ends in '\n'. */
  lemma {:induction false} RunWholeLines(text: seq<char>, t: map<bv64, seq<char>>, fuel: nat)
    requires Terminated(text)
    ensures Run(text, t, fuel).Output? ==> Terminated(Run(text, t, fuel).text)
    decreases |text|
  {
    if |text| > 0 {
      var k := FindFrom(text, 0, LineEnd);
      if k < |text| {
        var line := text[..k];
        var rest := text[k + 1..];
        RestKeepsLineEnd(text, k);
        RunWholeLines(rest, t, fuel);
        EarlyBeginWithOnLine(line, Gokuro.GlobalPrefix);
        if EarlyBeginWith(line + [LineEnd], Gokuro.GlobalPrefix, 0) && At(line, 9) != LineEnd {
          var sp := FindFrom(line, 9, ' ');
          if sp < |line| {
            RunWholeLines(rest, t[Fnv(line[9..sp]) := line[sp + 1..]], fuel);
          }
        }
      }
    }
  }

  /** What follows a line break of a text ending in '\n' is empty or ends in '\n' too. */
  lemma RestKeepsLineEnd(text: seq<char>, k: nat)
    requires k < |text|
    ensures Terminated(text) ==> Terminated(text[k + 1..])
  {
  }

  /** Prints an expanded line ahead of what the rest of the input gives. */
  function Emit(o: LineOutcome, next: Outcome): (r: Outcome)
    ensures o.Done? ==> r == Prepend(o.line + [LineEnd], next)
    ensures o.OutOfFuel? ==> r == Exhausted
    ensures o.Loops? ==> r == Diverges
    ensures r.Output? && Terminated(next.text) ==> Terminated(r.text)
  {
    match o
    case Done(l) => Prepend(l + [LineEnd], next)
    case OutOfFuel => Exhausted
    case Loops => Diverges
  }

  // ---------------------------------------------------------------------
  // Properties of the line loop

  /** A line without a complete call is printed as it is. */
  lemma NoCallLineUnchanged(line: seq<char>, t: map<bv64, seq<char>>, fuel: nat)
    requires Expansion.NoCompleteCall(line, |line|)
    ensures ExpandLine(line, t, fuel) == Done(line)
  {
  }

  /** A call with '(' in it is never expanded: the same call is found
      again and again and the run does not end. */
  lemma ParameterizedCallLoops(line: seq<char>, t: map<bv64, seq<char>>, fuel: nat, rest: seq<char>)
    requires LineEnd !in line && !(Gokuro.GlobalPrefix <= line)
    requires Locate(line).Some?
    requires var (b, e) := Locate(line).value; b + 3 <= e - 3 && '(' in line[b + 3..e - 3]
    ensures ExpandLine(line, t, fuel) == Loops
    ensures Run(line + [LineEnd] + rest, t, fuel) == Diverges
  {
    var text := line + [LineEnd] + rest;
    FindFromIs(text, 0, LineEnd, |line|);
    assert text[..|line|] == line && text[|line| + 1..] == rest;
    EarlyBeginWithOnLine(line, Gokuro.GlobalPrefix);
  }

  /** A constant call is replaced by the body stored under its name's
      hash, or deleted when nothing is stored there. */
  lemma ConstantCallReplaced(line: seq<char>, t: map<bv64, seq<char>>, fuel: nat)
    requires Locate(line).Some? && fuel > 0
    requires var (b, e) := Locate(line).value; b + 3 <= e - 3 && '(' !in line[b + 3..e - 3]
    ensures var (b, e) := Locate(line).value; var name := line[b + 3..e - 3];
      ExpandLine(line, t, fuel) ==
        ExpandLine(line[..b] + (if Fnv(name) in t then t[Fnv(name)] else []) + line[e..], t, fuel - 1)
  {
  }

  /** A last line without '\n' is printed as it is, definition or not. */
  lemma UnterminatedLastLine(text: seq<char>, t: map<bv64, seq<char>>, fuel: nat)
    requires |text| > 0 && LineEnd !in text
    ensures Run(text, t, fuel) == Output(text)
  {
    FindFromIs(text, 0, LineEnd, |text|);
  }

  /** `#+MACRO: ` on its own ends the run; nothing after it is printed. */
  lemma BareMacroEndsRun(rest: seq<char>, t: map<bv64, seq<char>>, fuel: nat)
    ensures Run(Gokuro.GlobalPrefix + [LineEnd] + rest, t, fuel) == Output([])
  {
    var line := Gokuro.GlobalPrefix;
    var text := line + [LineEnd] + rest;
    FindFromIs(text, 0, LineEnd, |line|);
    assert text[..|line|] == line;
    EarlyBeginWithOnLine(line, Gokuro.GlobalPrefix);
  }

  /** A definition with no space after the name is printed, not stored and
      not expanded. */
  lemma NamelessDefinitionPrinted(name: seq<char>, rest: seq<char>, t: map<bv64, seq<char>>, fuel: nat)
    requires |name| > 0 && ' ' !in name && LineEnd !in name
    ensures var line := Gokuro.GlobalPrefix + name;
      Run(line + [LineEnd] + rest, t, fuel) == Prepend(line + [LineEnd], Run(rest, t, fuel))
  {
    var line := Gokuro.GlobalPrefix + name;
    var text := line + [LineEnd] + rest;
    FindFromIs(text, 0, LineEnd, |line|);
    assert text[..|line|] == line && text[|line| + 1..] == rest;
    assert Gokuro.GlobalPrefix <= line;
    EarlyBeginWithOnLine(line, Gokuro.GlobalPrefix);
    assert line[9] == name[0];
    FindFromIs(line, 9, ' ', |line|);
  }

  /** The first line of `line + "\n" + rest` is line, and rest follows it. */
  lemma HeadLine(line: seq<char>, rest: seq<char>)
    requires LineEnd !in line
    ensures var text := line + [LineEnd] + rest;
      |text| > 0 && FindFrom(text, 0, LineEnd) == |line| &&
      text[..|line|] == line && text[|line| + 1..] == rest
  {
    var text := line + [LineEnd] + rest;
    FindFromIs(text, 0, LineEnd, |line|);
    assert text[..|line|] == line && text[|line| + 1..] == rest;
  }

  /** How the definition branch reads `#+MACRO: name body`: the name runs
      from offset 9 to the first space, and the body is what follows it. */
  lemma DefinitionParts(name: seq<char>, body: seq<char>, line: seq<char>)
    requires |name| > 0 && ' ' !in name && LineEnd !in name
    requires line == Gokuro.GlobalPrefix + name + [' '] + body
    ensures Gokuro.GlobalPrefix <= line && At(line, 9) != LineEnd
    ensures FindFrom(line, 9, ' ') == 9 + |name|
    ensures line[9..9 + |name|] == name && line[9 + |name| + 1..] == body
  {
    assert line[..9] == Gokuro.GlobalPrefix;
    assert line[9] == name[0];
    var sp := 9 + |name|;
    assert line[sp] == ' ';
    forall j | 9 <= j < sp
      ensures line[j] != ' '
    {
      assert line[j] == name[j - 9];
    }
    FindFromIs(line, 9, ' ', sp);
    assert line[9..sp] == name && line[sp + 1..] == body;
  }

  /** `#+MACRO: name body` stores body under the hash of name; the
      definition line itself then goes through expansion and is printed. */
  lemma DefinitionStoredThenExpanded(name: seq<char>, body: seq<char>, rest: seq<char>,
                                     t: map<bv64, seq<char>>, fuel: nat)
    requires |name| > 0 && ' ' !in name && LineEnd !in name && LineEnd !in body
    ensures var line := Gokuro.GlobalPrefix + name + [' '] + body;
      var t' := t[Fnv(name) := body];
      Run(line + [LineEnd] + rest, t, fuel) == Emit(ExpandLine(line, t', fuel), Run(rest, t', fuel))
  {
    var line := Gokuro.GlobalPrefix + name + [' '] + body;
    HeadLine(line, rest);
    DefinitionParts(name, body, line);
    EarlyBeginWithOnLine(line, Gokuro.GlobalPrefix);
    var text := line + [LineEnd] + rest;
    var sp := FindFrom(line, 9, ' ');
    var t' := t[Fnv(line[9..sp]) := line[sp + 1..]];
    assert t' == t[Fnv(name) := body];
    assert Run(text, t, fuel) == Emit(ExpandLine(line, t', fuel), Run(rest, t', fuel));
  }

  /** A line with no complete call that is not a definition is printed
      as it is. */
  lemma PlainLinePrinted(line: seq<char>, rest: seq<char>, t: map<bv64, seq<char>>, fuel: nat)
    requires LineEnd !in line && !(Gokuro.GlobalPrefix <= line)
    requires Expansion.NoCompleteCall(line, |line|)
    ensures Run(line + [LineEnd] + rest, t, fuel) == Prepend(line + [LineEnd], Run(rest, t, fuel))
  {
    var text := line + [LineEnd] + rest;
    FindFromIs(text, 0, LineEnd, |line|);
    assert text[..|line|] == line && text[|line| + 1..] == rest;
    EarlyBeginWithOnLine(line, Gokuro.GlobalPrefix);
    NoCallLineUnchanged(line, t, fuel);
  }

  /** Every line has no complete call and is not a definition. */
  ghost predicate AllPlain(ls: seq<seq<char>>)
  {
    forall i :: 0 <= i < |ls| ==> Expansion.NoCompleteCall(ls[i], |ls[i]|) && !(Gokuro.GlobalPrefix <= ls[i])
  }

  /** Text with no complete call and no definition line passes through
      unchanged. */
  lemma {:induction false} PlainTextUnchanged(text: seq<char>, t: map<bv64, seq<char>>, fuel: nat)
    requires AllPlain(Lines(text))
    ensures Run(text, t, fuel) == Output(text)
    decreases |text|
  {
    if |text| > 0 {
      var k := FindFrom(text, 0, LineEnd);
      if k < |text| {
        var line := text[..k];
        var rest := text[k + 1..];
        assert Lines(text) == [line] + Lines(rest);
        assert text == line + [LineEnd] + rest;
        assert Lines(text)[0] == line;
        assert Expansion.NoCompleteCall(line, |line|) && !(Gokuro.GlobalPrefix <= line);
        assert AllPlain(Lines(rest)) by {
          assert forall i :: 0 <= i < |Lines(rest)| ==> Lines(rest)[i] == Lines(text)[i + 1];
        }
        PlainLinePrinted(line, rest, t, fuel);
        PlainTextUnchanged(rest, t, fuel);
      }
    }
  }

  /** When the later scan finds the whole line as one call, so does the
      early scan. */
  lemma WholeLineLocated(line: seq<char>)
    requires Expansion.Locate(line, 0) == Some(Expansion.Call(0, |line|, 0))
    ensures Locate(line) == Some((0, |line|))
  {
    assert AgreesWithLater(line, Locate(line));
  }

  /** With name defined as `{{{name}}}`, the line `{{{name}}}` is one call
      whose expansion is the line itself. */
  lemma SelfExpandsToItself(name: seq<char>, line: seq<char>, t: map<bv64, seq<char>>)
    requires '{' !in name && '}' !in name && '(' !in name && line == "{{{" + name + "}}}"
    requires Fnv(name) in t && t[Fnv(name)] == line
    ensures Locate(line) == Some((0, |line|))
    ensures line[3..|line| - 3] == name && line[..0] + t[Fnv(line[3..|line| - 3])] + line[|line|..] == line
  {
    Expansion.WholeLineCall(name);
    WholeLineLocated(line);
    var inner := line[3..|line| - 3];
    assert inner == Expansion.CallName(line, Expansion.Call(0, |line|, 0));
    assert t[Fnv(inner)] == line;
    WholeSplice(line);
  }

  /** Replacing the whole line by itself. */
  lemma WholeSplice(line: seq<char>)
    ensures line[..0] + line + line[|line|..] == line
  {
    assert line[..0] == [] && line[|line|..] == [];
  }

  /** A macro whose body is a call to itself never finishes: the call is
      expanded until the fuel runs out. */
  lemma SelfReferenceExhausts(name: seq<char>, t: map<bv64, seq<char>>, fuel: nat)
    requires '{' !in name && '}' !in name && '(' !in name
    requires Fnv(name) in t && t[Fnv(name)] == "{{{" + name + "}}}"
    ensures ExpandLine("{{{" + name + "}}}", t, fuel) == OutOfFuel
  {
    var line := "{{{" + name + "}}}";
    SelfRound(name, t, 0);
    forall k: nat
      ensures ExpandLine(line, t, k + 1) == ExpandLine(line, t, k)
    {
      SelfRound(name, t, k + 1);
    }
    NeverChanges(k => ExpandLine(line, t, k), fuel);
  }

  /** One round on `{{{name}}}` with name bound to that line: without fuel
      the line is out of fuel, otherwise the round only uses up one unit. */
  lemma SelfRound(name: seq<char>, t: map<bv64, seq<char>>, fuel: nat)
    requires '{' !in name && '}' !in name && '(' !in name
    requires Fnv(name) in t && t[Fnv(name)] == "{{{" + name + "}}}"
    ensures var line := "{{{" + name + "}}}";
      ExpandLine(line, t, fuel) == if fuel == 0 then OutOfFuel else ExpandLine(line, t, fuel - 1)
  {
    var line := "{{{" + name + "}}}";
    SelfExpandsToItself(name, line, t);
    if fuel > 0 {
      ConstantCallReplaced(line, t, fuel);
    }
  }
}

=== FILE: expansion.dfy ===
/**
 One macro expansion step of gokuro.c (lines 427-590): find the last call on
 the line, read its name and arguments, build the replacement and splice it
 in.  A call is `{{{name}}}` (a constant) or `{{{name(arg1,arg2,...)}}}`;
 inside an argument `\,` stands for a comma.  In a body `$0` stands for the
 whole text in the parentheses and `$1` to `$9` for the arguments.
 */
module Expansion {
  import opened Text
  import opened Options
  import opened Buffers
  import Replacing

  // ---------------------------------------------------------------------
  // Locating the last call

  /** Three copies of ch start at offset i. */
  predicate Triple(line: seq<char>, i: int, ch: char)
  {
    0 <= i && i + 3 <= |line| && line[i] == ch && line[i + 1] == ch && line[i + 2] == ch
  }

  /** The largest i <= hi where a triple of ch starts. */
  function LastTriple(line: seq<char>, ch: char, hi: int): (r: Option<nat>)
    ensures r.Some? ==> r.value <= hi && Triple(line, r.value, ch)
    ensures r.Some? ==> forall j :: r.value < j <= hi ==> !Triple(line, j, ch)
    ensures r.None? ==> forall j :: j <= hi ==> !Triple(line, j, ch)
    decreases if hi < 0 then 0 else hi + 1
  {
    if hi < 0 then None
    else if Triple(line, hi, ch) then Some(hi)
    else LastTriple(line, ch, hi - 1)
  }

  /** The smallest i in [lo, hi] where a triple of ch starts. */
  function FirstTriple(line: seq<char>, ch: char, lo: nat, hi: int): (r: Option<nat>)
    ensures r.Some? ==> lo <= r.value <= hi && Triple(line, r.value, ch)
    ensures r.Some? ==> forall j :: lo <= j < r.value ==> !Triple(line, j, ch)
    ensures r.None? ==> forall j :: lo <= j <= hi ==> !Triple(line, j, ch)
    decreases if hi < lo then 0 else hi - lo + 1
  {
    if hi < lo then None
    else if Triple(line, lo, ch) then Some(lo)
    else FirstTriple(line, ch, lo + 1, hi)
  }

  /** A call found on a line: it occupies line[begin..end), and `offset` is
      the new `macro_offset`, the number of bytes at the end of the line the
      next scan skips. */
  datatype Call = Call(begin: nat, end: nat, offset: nat)

  /** No `{{{` up to the scan start is followed by a `}}}` that has no
      `{{{` after it: the state in which the scan finds nothing. */
  ghost predicate NoCompleteCall(line: seq<char>, start: int)
  {
    forall i, j :: i < j <= start - 2 && Triple(line, i, '{') && Triple(line, j, '}') ==>
      exists k :: j < k <= start - 2 && Triple(line, k, '{')
  }

  /** The call the backward scan of gokuro.c finds when it starts
      `offset` bytes before the end of the line (the terminator is the byte
      at offset |line|): the `{{{` nearest to the scan start, the first
      `}}}` after it, and the new offset just past the last `}}}` seen. */
  function Locate(line: seq<char>, offset: nat): (r: Option<Call>)
    requires offset <= |line|
    ensures r.None? <==> NoCompleteCall(line, |line| - offset)
    ensures r.Some? ==> var c := r.value; var start := |line| - offset;
      Triple(line, c.begin, '{') && c.begin + 2 <= start &&
      (forall j :: c.begin < j <= start - 2 ==> !Triple(line, j, '{')) &&
      Triple(line, c.end - 3, '}') && c.begin + 6 <= c.end <= start + 1 &&
      (forall j :: c.begin < j < c.end - 3 ==> !Triple(line, j, '}')) &&
      c.end <= |line| - c.offset <= start + 1 &&
      Triple(line, |line| - c.offset - 3, '}') &&
      (forall j :: |line| - c.offset - 3 < j <= start - 2 ==> !Triple(line, j, '}'))
  {
    var start := |line| - offset;
    match LastTriple(line, '{', start - 2)
    case None => None
    case Some(b) =>
      match FirstTriple(line, '}', b + 1, start - 2)
      case None => None
      case Some(e3) =>
        var f := LastTriple(line, '}', start - 2).value;
        Some(Call(b, e3 + 3, |line| - f - 3))
  }

  /** The number of consecutive ch starting at offset i, not counting
      beyond offset `start`. */
  function Run(line: seq<char>, i: int, start: int, ch: char): nat
    requires start <= |line|
    decreases if i > start then 0 else start - i + 1
  {
    if i < 0 || i > start || At(line, i) != ch then 0
    else 1 + Run(line, i + 1, start, ch)
  }

  /** A run of three ch from offset i is a triple that ends by `start`. */
  lemma RunTriple(line: seq<char>, i: int, start: int, ch: char)
    requires 0 <= i && start <= |line| && ch != LineEnd
    ensures Run(line, i, start, ch) >= 3 <==> Triple(line, i, ch) && i + 2 <= start
  {
    if Run(line, i, start, ch) >= 3 {
      assert At(line, i) == ch && Run(line, i + 1, start, ch) >= 2;
      assert At(line, i + 1) == ch && Run(line, i + 2, start, ch) >= 1;
      assert At(line, i + 2) == ch;
    }
    if Triple(line, i, ch) && i + 2 <= start {
      assert Run(line, i + 2, start, ch) >= 1;
    }
  }

  /** What the backward scan knows when it is about to read offset c:
      the run counters describe the bytes after c, no `{{{` starts after c,
      `macroEnd` is just past the first `}}}` after c, and the new offset is
      fixed by the last `}}}` of the window. */
  ghost predicate ScanInv(line: seq<char>, start: int, c: int, open: nat, close: nat,
                          macroEnd: Option<nat>, newOffset: int)
    requires start <= |line|
  {
    -1 <= c <= start &&
    open == Run(line, c + 1, start, '{') && open < 3 &&
    close == Run(line, c + 1, start, '}') &&
    (forall j :: c < j <= start - 2 ==> !Triple(line, j, '{')) &&
    (macroEnd.None? ==> FirstTriple(line, '}', c + 1, start - 2).None?) &&
    (macroEnd.Some? ==> macroEnd.value >= 3 && FirstTriple(line, '}', c + 1, start - 2) == Some(macroEnd.value - 3)) &&
    (macroEnd.Some? ==> (LastTriple(line, '}', start - 2).Some? &&
      newOffset == |line| - LastTriple(line, '}', start - 2).value - 3))
  }

  lemma StepOther(line: seq<char>, start: int, c: int, open: nat, close: nat,
                  macroEnd: Option<nat>, newOffset: int)
    requires 0 <= start <= |line| && 0 <= c
    requires ScanInv(line, start, c, open, close, macroEnd, newOffset)
    requires At(line, c) != '{' && At(line, c) != '}'
    ensures ScanInv(line, start, c - 1, 0, 0, macroEnd, newOffset)
  {
  }

  lemma StepOpen(line: seq<char>, start: int, c: int, open: nat, close: nat,
                 macroEnd: Option<nat>, newOffset: int)
    requires 0 <= start <= |line| && 0 <= c
    requires ScanInv(line, start, c, open, close, macroEnd, newOffset)
    requires At(line, c) == '{' && open + 1 < 3
    ensures ScanInv(line, start, c - 1, open + 1, 0, macroEnd, newOffset)
  {
    RunTriple(line, c, start, '{');
  }

  lemma StepOpenFound(line: seq<char>, start: int, c: int, open: nat, close: nat,
                      macroEnd: Option<nat>, newOffset: int)
    requires 0 <= start <= |line| && 0 <= c && start == |line| - (|line| - start)
    requires ScanInv(line, start, c, open, close, macroEnd, newOffset)
    requires At(line, c) == '{' && open + 1 == 3
    ensures Locate(line, |line| - start) ==
      if macroEnd.None? then None else Some(Call(c, macroEnd.value, newOffset))
  {
    RunTriple(line, c, start, '{');
    assert LastTriple(line, '{', start - 2) == Some(c);
  }

  lemma StepClose(line: seq<char>, start: int, c: int, open: nat, close: nat,
                  macroEnd: Option<nat>, newOffset: int)
    requires 0 <= start <= |line| && 0 <= c
    requires ScanInv(line, start, c, open, close, macroEnd, newOffset)
    requires At(line, c) == '}'
    ensures close + 1 >= 3 ==> ScanInv(line, start, c - 1, 0, close + 1, Some(c + 3),
      if macroEnd.None? then |line| - c - 3 else newOffset)
    ensures close + 1 < 3 ==> ScanInv(line, start, c - 1, 0, close + 1, macroEnd, newOffset)
  {
    RunTriple(line, c, start, '}');
    if close + 1 >= 3 && macroEnd.None? {
      assert LastTriple(line, '}', start - 2) == Some(c);
    }
  }

  /** The backward scan of gokuro.c (lines 433-464) with its two run
      counters.  It computes exactly Locate. */
  method FindLastCall(line: seq<char>, offset: nat) returns (r: Option<Call>)
    requires offset <= |line|
    ensures r == Locate(line, offset)
  {
    var start := |line| - offset;
    var open := 0;
    var close := 0;
    var macroEnd: Option<nat> := None;
    var newOffset: int := offset;
    var c: int := start;
    while 0 <= c
      invariant ScanInv(line, start, c, open, close, macroEnd, newOffset)
      decreases c + 1
    {
      var ch := At(line, c);
      if ch != '{' && ch != '}' {
        StepOther(line, start, c, open, close, macroEnd, newOffset);
        open := 0;
        close := 0;
      } else if ch == '{' {
        if open + 1 == 3 {
          StepOpenFound(line, start, c, open, close, macroEnd, newOffset);
          if macroEnd.None? {
            return None;
          }
          return Some(Call(c, macroEnd.value, newOffset));
        }
        StepOpen(line, start, c, open, close, macroEnd, newOffset);
        open := open + 1;
        close := 0;
      } else {
        StepClose(line, start, c, open, close, macroEnd, newOffset);
        open := 0;
        close := close + 1;
        if close >= 3 {
          if macroEnd.None? {
            newOffset := |line| - c - 3;
          }
          macroEnd := Some(c + 3);
        }
      }
      c := c - 1;
    }
    assert LastTriple(line, '{', start - 2).None?;
    return None;
  }

  // ---------------------------------------------------------------------
  // Name and arguments

  /** The end of the name (lines 471-486): the first '(' or '}' from `from`
      on.  The `}}}` of the call bounds the search. */
  function NameEnd(line: seq<char>, from: nat, limit: nat): (n: nat)
    requires from <= limit < |line| && line[limit] == '}'
    ensures from <= n <= limit && (line[n] == '(' || line[n] == '}')
    ensures forall j :: from <= j < n ==> line[j] != '(' && line[j] != '}'
    decreases limit - from
  {
    if line[from] == '(' || line[from] == '}' then from
    else NameEnd(line, from + 1, limit)
  }

  /** The name of a located call. */
  function CallName(line: seq<char>, call: Call): (name: seq<char>)
    requires call.begin + 6 <= call.end <= |line| && line[call.end - 3] == '}'
    ensures |name| <= call.end - call.begin - 6
    ensures '(' !in name && '}' !in name
  {
    line[call.begin + 3..NameEnd(line, call.begin + 3, call.end - 3)]
  }

  /** The argument scan of lines 527-544: from c up to `until` (the end of
      the call), every ',' starts a new argument after it, `\,` is skipped
      as a whole, and the scan stops once nine arguments have started. */
  function ArgStarts(line: seq<char>, c: nat, until: nat, starts: seq<nat>): (r: seq<nat>)
    requires until <= |line| && 1 <= |starts| <= 9
    ensures |starts| <= |r| <= 9 && r[..|starts|] == starts
    ensures forall k :: |starts| <= k < |r| ==> c < r[k] <= until && line[r[k] - 1] == ','
    decreases if c <= until then until - c else 0
  {
    if |starts| == 9 || c >= until then starts
    else if line[c] == ',' then ArgStarts(line, c + 1, until, starts + [c + 1])
    else if line[c] == '\\' && At(line, c + 1) == ',' then ArgStarts(line, c + 2, until, starts)
    else ArgStarts(line, c + 1, until, starts)
  }

  /** The text `$k` stands for (lines 565-582), given the argument starts
      and the end of the call.  `$0` is the raw text from the first argument
      to the byte before the closing `)}}}`; `$k` runs from the k-th start
      to the comma before the next start, or to that same end for the last
      argument, with `\,` collapsed; a `$k` beyond the arguments is empty. */
  function ArgValue(line: seq<char>, starts: seq<nat>, k: nat, end: nat): (v: seq<char>)
    requires 4 <= end <= |line| && 1 <= |starts| <= 9 && k <= 9
    requires forall i :: 0 <= i < |starts| ==> 1 <= starts[i] <= end
    ensures k == 0 ==> v == Range(line, starts[0], end - 4)
    ensures k > |starts| ==> v == []
    ensures 0 < k <= |starts| ==> |v| <= end
  {
    if k == 0 then Range(line, starts[0], end - 4)
    else if k > |starts| then []
    else
      var from := starts[k - 1];
      var until := if k == 9 || k == |starts| then end - 4 else starts[k] - 1;
      if from <= until then Unescaped(line, from, until) else []
  }

  /** The ten texts `$0` to `$9` stand for in the call whose name ends with
      the '(' at offset n. */
  function Arguments(line: seq<char>, n: nat, end: nat): (args: seq<seq<char>>)
    requires n + 4 <= end <= |line|
    ensures |args| == 10
    ensures args[0] == Range(line, n + 1, end - 4)
  {
    var starts := ArgStarts(line, n + 1, end, [n + 1]);
    seq(10, k requires 0 <= k < 10 => ArgValue(line, starts, k, end))
  }

  // ---------------------------------------------------------------------
  // The arguments as comma-separated fields

  /** The reference reading of an argument text without '\': `$0` is the
      whole text, `$1` to `$8` its comma-separated fields, `$9` everything
      from the ninth field on (commas included), and a field the text does
      not have is empty. */
  function FieldArguments(text: seq<char>): (args: seq<seq<char>>)
    ensures |args| == 10 && args[0] == text
  {
    var p := Replacing.SplitOn(text, ",");
    seq(10, k requires 0 <= k < 10 =>
      if k == 0 then text
      else if k > |p| then []
      else if k < 9 then p[k - 1]
      else Replacing.Join(p[8..], ","))
  }

  /** A field from offset a ends at the ',' just before offset b, and holds
      no ',' itself. */
  ghost predicate Link(line: seq<char>, a: nat, b: nat, text: nat)
    requires text <= |line|
  {
    a < b <= text && line[b - 1] == ',' && forall j :: a <= j < b - 1 ==> line[j] != ','
  }

  /** Each start after the first lies just after a ',' and has no ','
      between it and the start before it. */
  ghost predicate Chain(line: seq<char>, r: seq<nat>, text: nat)
    requires text <= |line|
  {
    forall i :: 0 < i < |r| ==> LinkAt(line, r, i, text)
  }

  /** The i-th start is linked to the one before it. */
  ghost predicate LinkAt(line: seq<char>, r: seq<nat>, i: nat, text: nat)
    requires text <= |line| && 0 < i < |r|
  {
    Link(line, r[i - 1], r[i], text)
  }

  /** The starts of the fields of line[lo..text]: a chain from lo that, when
      it has fewer than nine starts, leaves no ',' after its last one. */
  ghost predicate CommaStarts(line: seq<char>, r: seq<nat>, lo: nat, text: nat)
  {
    1 <= |r| <= 9 && r[0] == lo && lo <= text <= |line| &&
    (forall i :: 0 <= i < |r| ==> lo <= r[i] <= text) && Chain(line, r, text) &&
    (|r| < 9 ==> forall j :: r[|r| - 1] <= j < text ==> line[j] != ',')
  }

  /** Without a '\' ahead, the argument scan finds exactly the starts of
      the comma-separated fields, up to nine. */
  lemma {:induction false} ArgStartsCommas(line: seq<char>, c: nat, end: nat, starts: seq<nat>)
    requires 4 <= end <= |line|
    requires forall j :: end - 4 <= j < end ==> line[j] != ','
    requires forall j :: c <= j < end ==> line[j] != '\\'
    requires 1 <= |starts| <= 9 && Chain(line, starts, end - 4)
    requires forall i :: 0 <= i < |starts| ==> starts[0] <= starts[i] <= end - 4
    requires starts[|starts| - 1] <= c <= end && starts[|starts| - 1] <= end - 4
    requires forall j :: starts[|starts| - 1] <= j < c ==> line[j] != ','
    ensures CommaStarts(line, ArgStarts(line, c, end, starts), starts[0], end - 4)
    decreases end - c
  {
    if |starts| == 9 || c >= end {
      ArgStartsDone(line, c, end, starts);
    } else if line[c] == ',' {
      NextStart(line, c, end, starts, starts + [c + 1]);
      ArgStartsCommas(line, c + 1, end, starts + [c + 1]);
    } else {
      assert line[c] != '\\';
      ArgStartsCommas(line, c + 1, end, starts);
    }
  }

  /** Once nine arguments have started or the call is read to its end, the
      starts found so far are the starts of the fields. */
  lemma ArgStartsDone(line: seq<char>, c: nat, end: nat, starts: seq<nat>)
    requires 4 <= end <= |line| && c <= end && (|starts| == 9 || c == end)
    requires forall j :: end - 4 <= j < end ==> line[j] != ','
    requires 1 <= |starts| <= 9 && Chain(line, starts, end - 4)
    requires forall i :: 0 <= i < |starts| ==> starts[0] <= starts[i] <= end - 4
    requires starts[|starts| - 1] <= end - 4
    requires forall j :: starts[|starts| - 1] <= j < c ==> line[j] != ','
    ensures ArgStarts(line, c, end, starts) == starts
    ensures CommaStarts(line, starts, starts[0], end - 4)
  {
  }

  /** A ',' in the argument text adds a start linked to the last one. */
  lemma NextStart(line: seq<char>, c: nat, end: nat, starts: seq<nat>, next: seq<nat>)
    requires 4 <= end <= |line| && c < end && line[c] == ',' && next == starts + [c + 1]
    requires forall j :: end - 4 <= j < end ==> line[j] != ','
    requires 1 <= |starts| && Chain(line, starts, end - 4)
    requires forall i :: 0 <= i < |starts| ==> starts[0] <= starts[i] <= end - 4
    requires starts[|starts| - 1] <= c
    requires forall j :: starts[|starts| - 1] <= j < c ==> line[j] != ','
    ensures c + 1 <= end - 4 && Chain(line, next, end - 4)
    ensures forall i :: 0 <= i < |next| ==> next[0] <= next[i] <= end - 4
  {
    assert Link(line, starts[|starts| - 1], c + 1, end - 4);
    ChainExtend(line, starts, c + 1, end - 4);
  }

  /** A chain extended by a start linked to its last one. */
  lemma ChainExtend(line: seq<char>, r: seq<nat>, b: nat, text: nat)
    requires text <= |line| && Chain(line, r, text) && |r| >= 1 && Link(line, r[|r| - 1], b, text)
    ensures Chain(line, r + [b], text)
  {
    var r' := r + [b];
    forall i | 0 < i < |r'|
      ensures LinkAt(line, r', i, text)
    {
      if i < |r| {
        assert LinkAt(line, r, i, text);
        assert r'[i - 1] == r[i - 1] && r'[i] == r[i];
      }
    }
  }

  /** One link of a chain. */
  lemma ChainLink(line: seq<char>, r: seq<nat>, text: nat, i: nat)
    requires text <= |line| && Chain(line, r, text) && 0 < i < |r|
    ensures Link(line, r[i - 1], r[i], text)
  {
    assert LinkAt(line, r, i, text);
  }

  /** The fields between the i-th start and the last one, each ending at
      the ',' before the next start. */
  ghost function Inner(line: seq<char>, r: seq<nat>, i: nat, text: nat): (f: seq<seq<char>>)
    requires text <= |line| && Chain(line, r, text) && i < |r|
    ensures |f| == |r| - 1 - i
    decreases |r| - i
  {
    if i == |r| - 1 then []
    else
      ChainLink(line, r, text, i + 1);
      [line[r[i]..r[i + 1] - 1]] + Inner(line, r, i + 1, text)
  }

  /** The m-th of those fields runs from start i + m to the ',' before
      start i + m + 1. */
  lemma {:induction false} InnerAt(line: seq<char>, r: seq<nat>, i: nat, text: nat, m: nat)
    requires text <= |line| && Chain(line, r, text) && i < |r| && m < |r| - 1 - i
    ensures Link(line, r[i + m], r[i + m + 1], text)
    ensures Inner(line, r, i, text)[m] == line[r[i + m]..r[i + m + 1] - 1]
    decreases m
  {
    ChainLink(line, r, text, i + m + 1);
    if m > 0 {
      InnerAt(line, r, i + 1, text, m - 1);
    }
  }

  /** Splitting at ',' from the i-th start gives the fields up to the last
      start, then the split of what follows it. */
  lemma {:induction false} SplitFields(line: seq<char>, r: seq<nat>, i: nat, text: nat)
    requires text <= |line| && Chain(line, r, text) && i < |r| && r[i] <= text && r[|r| - 1] <= text
    ensures Replacing.SplitOn(line[r[i]..text], ",") ==
      Inner(line, r, i, text) + Replacing.SplitOn(line[r[|r| - 1]..text], ",")
    decreases |r| - i
  {
    if i == |r| - 1 {
      assert Inner(line, r, i, text) == [];
    } else {
      ChainLink(line, r, text, i + 1);
      var a, b := r[i], r[i + 1];
      var field := line[a..b - 1];
      var last := Replacing.SplitOn(line[r[|r| - 1]..text], ",");
      SplitStep(line, a, b, text);
      SplitFields(line, r, i + 1, text);
      Regroup(Replacing.SplitOn(line[a..text], ","), field, Replacing.SplitOn(line[b..text], ","),
        Inner(line, r, i, text), Inner(line, r, i + 1, text), last);
    }
  }

  /** Regrouping a field list: the leading field moves from the split into the inner fields. */
  lemma Regroup(split: seq<seq<char>>, field: seq<char>, tail: seq<seq<char>>,
                inner: seq<seq<char>>, rest: seq<seq<char>>, last: seq<seq<char>>)
    requires split == [field] + tail && tail == rest + last && inner == [field] + rest
    ensures split == inner + last
  {
  }

  /** The split from a field's start is that field, then the split from
      the start after its ','. */
  lemma SplitStep(line: seq<char>, a: nat, b: nat, text: nat)
    requires text <= |line| && Link(line, a, b, text)
    ensures Replacing.SplitOn(line[a..text], ",") == [line[a..b - 1]] + Replacing.SplitOn(line[b..text], ",")
  {
    var s := line[..text];
    var e := b - 1;
    assert forall j :: a <= j < e ==> s[j] != ',';
    Replacing.SplitFirstComma(s, a, e);
    assert s[a..] == line[a..text] && s[a..e] == line[a..e];
    assert s[e + 1..] == line[b..text];
  }

  /** The split at ',' of the text the starts cover: the fields between
      consecutive starts, then one last field when there are fewer than
      nine starts, or everything from the ninth start on. */
  lemma SplitOfStarts(line: seq<char>, r: seq<nat>, lo: nat, text: nat)
    requires CommaStarts(line, r, lo, text)
    ensures var p := Replacing.SplitOn(line[lo..text], ",");
      |p| >= |r| && p[..|r| - 1] == Inner(line, r, 0, text) &&
      (|r| < 9 ==> |p| == |r| && p[|r| - 1] == line[r[|r| - 1]..text]) &&
      (|r| == 9 ==> Replacing.Join(p[8..], ",") == line[r[8]..text])
  {
    var last := r[|r| - 1];
    SplitFields(line, r, 0, text);
    var tail := Replacing.SplitOn(line[last..text], ",");
    PartsAppend(Replacing.SplitOn(line[lo..text], ","), Inner(line, r, 0, text), tail);
    if |r| < 9 {
      LastFieldSplit(line, last, text);
    } else {
      Replacing.JoinSplitOn(line[last..text], ",");
    }
  }

  /** The two halves of a list made of two lists. */
  lemma PartsAppend(p: seq<seq<char>>, front: seq<seq<char>>, back: seq<seq<char>>)
    requires p == front + back
    ensures |p| == |front| + |back| && p[..|front|] == front && p[|front|..] == back
  {
  }

  /** A text without ',' splits into itself. */
  lemma LastFieldSplit(line: seq<char>, last: nat, text: nat)
    requires last <= text <= |line|
    requires forall j :: last <= j < text ==> line[j] != ','
    ensures Replacing.SplitOn(line[last..text], ",") == [line[last..text]]
  {
    var s := line[..text];
    Replacing.SplitLastPiece(s, last);
    assert s[last..] == line[last..text] && s[last..|s|] == line[last..text];
  }

  /** On a text without '\', the k-th argument the starts give is the k-th
      text of the reference reading. */
  lemma ArgValueField(line: seq<char>, r: seq<nat>, lo: nat, text: nat, k: nat)
    requires CommaStarts(line, r, lo, text) && text + 4 <= |line| && 1 <= k < 10
    requires forall i :: 0 <= i < |r| ==> 1 <= r[i] <= text + 4
    requires forall j :: lo <= j < text ==> line[j] != '\\'
    ensures ArgValue(line, r, k, text + 4) == FieldArguments(line[lo..text])[k]
  {
    SplitOfStarts(line, r, lo, text);
    FieldAt(line[lo..text], k);
    if k < |r| {
      ArgValueInner(line, r, lo, text, k);
    } else if k == |r| {
      ArgValueLast(line, r, lo, text);
    }
  }

  /** The k-th text of the reference reading, from the split. */
  lemma FieldAt(text: seq<char>, k: nat)
    requires 1 <= k < 10
    ensures var p := Replacing.SplitOn(text, ",");
      FieldArguments(text)[k] ==
        if k > |p| then [] else if k < 9 then p[k - 1] else Replacing.Join(p[8..], ",")
  {
  }

  /** An argument followed by another start is the field before that start's ','. */
  lemma ArgValueInner(line: seq<char>, r: seq<nat>, lo: nat, text: nat, k: nat)
    requires CommaStarts(line, r, lo, text) && text + 4 <= |line| && 1 <= k < |r|
    requires forall i :: 0 <= i < |r| ==> 1 <= r[i] <= text + 4
    requires forall j :: lo <= j < text ==> line[j] != '\\'
    ensures ArgValue(line, r, k, text + 4) == Inner(line, r, 0, text)[k - 1]
  {
    InnerAt(line, r, 0, text, k - 1);
    UnescapedPlain(line, r[k - 1], r[k] - 1);
  }

  /** The last argument runs to the end of the argument text. */
  lemma ArgValueLast(line: seq<char>, r: seq<nat>, lo: nat, text: nat)
    requires CommaStarts(line, r, lo, text) && text + 4 <= |line|
    requires forall i :: 0 <= i < |r| ==> 1 <= r[i] <= text + 4
    requires forall j :: lo <= j < text ==> line[j] != '\\'
    ensures ArgValue(line, r, |r|, text + 4) == line[r[|r| - 1]..text]
  {
    UnescapedPlain(line, r[|r| - 1], text);
  }

  /** On an argument text without '\', the ten texts of a call are the
      reference reading of its fields. */
  lemma ArgumentsSplit(line: seq<char>, n: nat, end: nat)
    requires n + 5 <= end <= |line| && line[end - 4..end] == ")}}}"
    requires '\\' !in line[n + 1..end - 4]
    ensures Arguments(line, n, end) == FieldArguments(line[n + 1..end - 4])
  {
    var lo := n + 1;
    CallTail(line, lo, end);
    StartsOfCall(line, lo, end);
    var r := ArgStarts(line, lo, end, [lo]);
    ArgValuesFields(line, r, lo, end);
    ArgumentsFromStarts(line, n, end, r);
  }

  /** A call whose nine arguments agree with the reference reading has all
      ten texts of that reading. */
  lemma ArgumentsFromStarts(line: seq<char>, n: nat, end: nat, r: seq<nat>)
    requires n + 5 <= end <= |line| && r == ArgStarts(line, n + 1, end, [n + 1])
    requires forall k :: 1 <= k < 10 ==> ArgValue(line, r, k, end) == FieldArguments(line[n + 1..end - 4])[k]
    ensures Arguments(line, n, end) == FieldArguments(line[n + 1..end - 4])
  {
    var args := Arguments(line, n, end);
    var fields := FieldArguments(line[n + 1..end - 4]);
    forall k | 1 <= k < 10
      ensures args[k] == fields[k]
    {
      ArgumentsAt(line, n, end, k);
    }
    TenEqual(args, fields);
  }

  /** The k-th text of a call, from the argument starts. */
  lemma ArgumentsAt(line: seq<char>, n: nat, end: nat, k: nat)
    requires n + 4 <= end <= |line| && 0 < k < 10
    ensures Arguments(line, n, end)[k] == ArgValue(line, ArgStarts(line, n + 1, end, [n + 1]), k, end)
  {
  }

  /** The scan of a whole argument text without '\\' finds the starts
      after its commas. */
  lemma StartsOfCall(line: seq<char>, lo: nat, end: nat)
    requires lo + 4 <= end <= |line|
    requires forall j :: end - 4 <= j < end ==> line[j] != ','
    requires forall j :: lo <= j < end ==> line[j] != '\\'
    ensures CommaStarts(line, ArgStarts(line, lo, end, [lo]), lo, end - 4)
  {
    assert Chain(line, [lo], end - 4);
    ArgStartsCommas(line, lo, end, [lo]);
  }

  /** Two lists of ten texts that agree at every position are equal. */
  lemma TenEqual(a: seq<seq<char>>, b: seq<seq<char>>)
    requires |a| == 10 && |b| == 10 && forall k :: 0 <= k < 10 ==> a[k] == b[k]
    ensures a == b
  {
  }

  /** All nine arguments the starts give, against the reference reading. */
  lemma ArgValuesFields(line: seq<char>, r: seq<nat>, lo: nat, end: nat)
    requires 4 <= end <= |line| && 1 <= lo && CommaStarts(line, r, lo, end - 4)
    requires forall j :: lo <= j < end - 4 ==> line[j] != '\\'
    ensures forall i :: 0 <= i < |r| ==> 1 <= r[i] <= end
    ensures forall k :: 1 <= k < 10 ==> ArgValue(line, r, k, end) == FieldArguments(line[lo..end - 4])[k]
  {
    forall k | 1 <= k < 10
      ensures ArgValue(line, r, k, end) == FieldArguments(line[lo..end - 4])[k]
    {
      ArgValueField(line, r, lo, end - 4, k);
    }
  }

  /** The bytes of an argument text without '\' and of the `)}}}` after
      it. */
  lemma CallTail(line: seq<char>, lo: nat, end: nat)
    requires lo + 4 <= end <= |line| && line[end - 4..end] == ")}}}"
    requires '\\' !in line[lo..end - 4]
    ensures forall j :: end - 4 <= j < end ==> line[j] != ','
    ensures forall j :: lo <= j < end ==> line[j] != '\\'
  {
    var t := line[lo..end - 4];
    forall j | lo <= j < end
      ensures line[j] != '\\' && (end - 4 <= j ==> line[j] != ',')
    {
      if j < end - 4 {
        assert line[j] == t[j - lo];
      } else {
        assert line[j] == line[end - 4..end][j - (end - 4)];
      }
    }
  }

  /** `\,` in an argument is a ',' of that argument and starts no new one. */
  lemma EscapedCommaKept(line: seq<char>, n: nat, end: nat, a: seq<char>, b: seq<char>)
    requires n + 5 <= end <= |line| && line[end - 4..end] == ")}}}"
    requires line[n + 1..end - 4] == a + "\\," + b
    requires ',' !in a && '\\' !in a && ',' !in b && '\\' !in b
    ensures Arguments(line, n, end)[1] == a + "," + b
    ensures forall k :: 2 <= k < 10 ==> Arguments(line, n, end)[k] == []
  {
    var lo := n + 1;
    var m := lo + |a|;
    EscapedCommaBytes(line, lo, end, a, b);
    EscapedCommaStarts(line, lo, m, end);
    UnescapedSkip(line, lo, m, end - 4);
    UnescapedPlain(line, m + 2, end - 4);
    ArgumentsAt(line, n, end, 1);
    CommaJoined(Unescaped(line, lo, end - 4), line[lo..m], Unescaped(line, m + 2, end - 4), a, b);
    forall k | 2 <= k < 10
      ensures Arguments(line, n, end)[k] == []
    {
      ArgumentsAt(line, n, end, k);
    }
  }

  /** Two texts joined by a ','. */
  lemma CommaJoined(u: seq<char>, x: seq<char>, y: seq<char>, a: seq<char>, b: seq<char>)
    requires u == x + [','] + y && x == a && y == b
    ensures u == a + "," + b
  {
  }

  /** Where the bytes of `a\,b)}}}` sit in the line. */
  lemma EscapedCommaBytes(line: seq<char>, lo: nat, end: nat, a: seq<char>, b: seq<char>)
    requires lo + 4 <= end <= |line| && line[end - 4..end] == ")}}}"
    requires line[lo..end - 4] == a + "\\," + b
    requires ',' !in a && '\\' !in a && ',' !in b && '\\' !in b
    ensures lo + |a| + 2 <= end - 4
    ensures forall j :: lo <= j < lo + |a| ==> line[j] != ',' && line[j] != '\\'
    ensures line[lo + |a|] == '\\' && line[lo + |a| + 1] == ','
    ensures forall j :: lo + |a| + 2 <= j < end ==> line[j] != ',' && line[j] != '\\'
    ensures line[lo..lo + |a|] == a && line[lo + |a| + 2..end - 4] == b
  {
    var m := lo + |a|;
    var t := line[lo..end - 4];
    forall j | lo <= j < m
      ensures line[j] != ',' && line[j] != '\\'
    {
      assert line[j] == t[j - lo] == a[j - lo];
    }
    assert line[m] == t[|a|] == '\\' && line[m + 1] == t[|a| + 1] == ',';
    forall j | m + 2 <= j < end
      ensures line[j] != ',' && line[j] != '\\'
    {
      if j < end - 4 {
        assert line[j] == t[j - lo] == b[j - m - 2];
      } else {
        assert line[j] == line[end - 4..end][j - (end - 4)];
      }
    }
    assert line[lo..m] == t[..|a|] == a;
    assert line[m + 2..end - 4] == t[|a| + 2..] == b;
  }

  /** A `\,` between bytes that are neither ',' nor '\' leaves a single
      argument start. */
  lemma EscapedCommaStarts(line: seq<char>, lo: nat, m: nat, end: nat)
    requires lo <= m && m + 2 <= end <= |line|
    requires forall j :: lo <= j < m ==> line[j] != ',' && line[j] != '\\'
    requires line[m] == '\\' && line[m + 1] == ','
    requires forall j :: m + 2 <= j < end ==> line[j] != ',' && line[j] != '\\'
    ensures ArgStarts(line, lo, end, [lo]) == [lo]
  {
    ArgStartsSkip(line, lo, m, end, [lo]);
    ArgStartsSkip(line, m + 2, end, end, [lo]);
  }

  /** The scan passes over bytes that are neither ',' nor '\'. */
  lemma {:induction false} ArgStartsSkip(line: seq<char>, c: nat, c': nat, until: nat, starts: seq<nat>)
    requires c <= c' <= until <= |line| && 1 <= |starts| <= 9
    requires forall j :: c <= j < c' ==> line[j] != ',' && line[j] != '\\'
    ensures ArgStarts(line, c, until, starts) == ArgStarts(line, c', until, starts)
    decreases c' - c
  {
    if c < c' {
      ArgStartsSkip(line, c + 1, c', until, starts);
    }
  }

  /** Collapsing passes over bytes without '\', then collapses the `\,`
      that follows them. */
  lemma {:induction false} UnescapedSkip(src: seq<char>, i: nat, m: nat, until: nat)
    requires i <= m && m + 2 <= until <= |src| && src[m] == '\\' && src[m + 1] == ','
    requires forall j :: i <= j < m ==> src[j] != '\\'
    ensures Unescaped(src, i, until) == src[i..m] + [','] + Unescaped(src, m + 2, until)
    decreases m - i
  {
    if i == m {
      UnescapedComma(src, m, until);
      assert src[i..m] == [];
    } else {
      UnescapedSkip(src, i + 1, m, until);
      UnescapedCopied(src, i, until);
      assert src[i..m] == [src[i]] + src[i + 1..m];
      PrependRegroup(Unescaped(src, i, until), src[i], Unescaped(src, i + 1, until),
        src[i + 1..m], Unescaped(src, m + 2, until), src[i..m]);
    }
  }

  /** A `\,` is collapsed to one ','. */
  lemma UnescapedComma(src: seq<char>, m: nat, until: nat)
    requires m + 2 <= until <= |src| && src[m] == '\\' && src[m + 1] == ','
    ensures Unescaped(src, m, until) == [','] + Unescaped(src, m + 2, until)
  {
    assert EscapeAt(src, m) == (',', 2);
  }

  /** A byte other than '\' is copied as it is. */
  lemma UnescapedCopied(src: seq<char>, i: nat, until: nat)
    requires i < until <= |src| && src[i] != '\\'
    ensures Unescaped(src, i, until) == [src[i]] + Unescaped(src, i + 1, until)
  {
  }

  /** Regrouping a text that starts with byte c. */
  lemma PrependRegroup(u: seq<char>, c: char, v: seq<char>, a: seq<char>, w: seq<char>, h: seq<char>)
    requires u == [c] + v && v == a + [','] + w && h == [c] + a
    ensures u == h + [','] + w
  {
  }

  // ---------------------------------------------------------------------
  // Substitution

  /** A body with every `$d` (d a decimal digit) replaced by args[d]; any
      other byte, including a `$` not followed by a digit, is kept. */
  function Substitute(body: seq<char>, args: seq<seq<char>>): (r: seq<char>)
    requires |args| == 10
    decreases |body|
  {
    if |body| == 0 then []
    else if body[0] == '$' && |body| >= 2 && IsDigit(body[1]) then
      args[DigitValue(body[1])] + Substitute(body[2..], args)
    else [body[0]] + Substitute(body[1..], args)
  }

  /** A body without a `$` substitutes to itself. */
  lemma {:induction false} SubstitutePlain(body: seq<char>, args: seq<seq<char>>)
    requires |args| == 10 && '$' !in body
    ensures Substitute(body, args) == body
    decreases |body|
  {
    if |body| > 0 {
      assert '$' !in body[1..] by {
        assert forall j :: 0 <= j < |body[1..]| ==> body[1..][j] == body[j + 1];
      }
      SubstitutePlain(body[1..], args);
    }
  }

  /** Substitution distributes over a split of the body at a point that
      does not separate a `$` from its digit. */
  lemma {:induction false} SubstituteAppend(a: seq<char>, b: seq<char>, args: seq<seq<char>>)
    requires |args| == 10
    requires |a| > 0 && a[|a| - 1] == '$' ==> |b| == 0 || !IsDigit(b[0])
    ensures Substitute(a + b, args) == Substitute(a, args) + Substitute(b, args)
    decreases |a|
  {
    if |a| == 0 {
      assert a + b == b;
    } else if a[0] == '$' && |a| >= 2 && IsDigit(a[1]) {
      var ab := a + b;
      assert ab[0] == a[0] && ab[1] == a[1] && ab[2..] == a[2..] + b;
      SubstituteAppend(a[2..], b, args);
      var h := args[DigitValue(a[1])];
      Reassoc(Substitute(ab, args), h, Substitute(a[2..], args), Substitute(b, args), Substitute(a, args));
    } else {
      var ab := a + b;
      assert ab[0] == a[0] && ab[1..] == a[1..] + b;
      if |a| == 1 && a[0] == '$' {
        assert |b| == 0 || !IsDigit(b[0]);
      } else if a[0] == '$' {
        assert ab[1] == a[1];
      }
      SubstituteAppend(a[1..], b, args);
      Reassoc(Substitute(ab, args), [a[0]], Substitute(a[1..], args), Substitute(b, args), Substitute(a, args));
    }
  }

  /** Regrouping a text that starts with h. */
  lemma Reassoc(u: seq<char>, h: seq<char>, x: seq<char>, y: seq<char>, v: seq<char>)
    requires u == h + (x + y) && v == h + x
    ensures u == v + y
  {
  }

  /** The state of the substitution loop: `out` followed by the pending
      bytes [w, c) and the substitution of the rest is the whole result. */
  ghost predicate Pending(out: seq<char>, body: seq<char>, w: nat, c: nat, args: seq<seq<char>>)
    requires |args| == 10 && w <= c <= |body|
  {
    out + body[w..c] + Substitute(body[c..], args) == Substitute(body, args)
  }

  /** The substitution loop of lines 547-584 over a NUL-terminated body:
      `writeFrom` marks the first byte not yet copied, `c` the byte being
      examined; at `$d` the pending bytes before the `$` are copied and the
      argument text follows. */
  method SubstituteLoop(body: seq<char>, args: seq<seq<char>>) returns (out: seq<char>)
    requires |args| == 10 && NoNul(body)
    ensures out == Substitute(body, args)
  {
    out := [];
    var writeFrom := 0;
    var c := 0;
    assert body[0..0] == [] && body[0..] == body;
    while c < |body|
      invariant writeFrom <= c <= |body|
      invariant Pending(out, body, writeFrom, c, args)
      decreases |body| - c
    {
      // A '$' not followed by a digit is kept: the C loop steps past it and
      // examines the next byte afresh.
      if body[c] != '$' || c + 1 == |body| || !IsDigit(body[c + 1]) {
        KeepByte(out, body, writeFrom, c, args);
        c := c + 1;
      } else {
        ArgStep(out, body, writeFrom, c, args);
        out := out + body[writeFrom..c] + args[DigitValue(body[c + 1])];
        writeFrom := c + 2;
        c := c + 2;
      }
    }
    PendingDone(out, body, writeFrom, args);
    out := out + body[writeFrom..];
  }

  /** At the end of the body the pending bytes complete the result. */
  lemma PendingDone(out: seq<char>, body: seq<char>, w: nat, args: seq<seq<char>>)
    requires |args| == 10 && w <= |body| && Pending(out, body, w, |body|, args)
    ensures out + body[w..] == Substitute(body, args)
  {
    assert body[|body|..] == [] && body[w..|body|] == body[w..];
  }

  /** A byte that does not start `$d` is kept as it is. */
  lemma KeepByte(out: seq<char>, body: seq<char>, w: nat, c: nat, args: seq<seq<char>>)
    requires |args| == 10 && w <= c < |body|
    requires body[c] == '$' ==> c + 1 == |body| || !IsDigit(body[c + 1])
    requires Pending(out, body, w, c, args)
    ensures Pending(out, body, w, c + 1, args)
  {
    assert body[c..][1..] == body[c + 1..];
    assert Substitute(body[c..], args) == [body[c]] + Substitute(body[c + 1..], args);
    assert body[w..c + 1] == body[w..c] + [body[c]];
  }

  /** Writing the pending bytes and args[d] for the `$d` at offset c. */
  lemma ArgStep(out: seq<char>, body: seq<char>, w: nat, c: nat, args: seq<seq<char>>)
    requires |args| == 10 && w <= c && c + 1 < |body| && body[c] == '$' && IsDigit(body[c + 1])
    requires Pending(out, body, w, c, args)
    ensures Pending(out + body[w..c] + args[DigitValue(body[c + 1])], body, c + 2, c + 2, args)
  {
    SubstituteArg(body, c, args);
    assert body[c + 2..c + 2] == [];
  }

  /** `$d` at offset c is replaced by args[d]. */
  lemma SubstituteArg(body: seq<char>, c: nat, args: seq<seq<char>>)
    requires |args| == 10 && c + 1 < |body| && body[c] == '$' && IsDigit(body[c + 1])
    ensures Substitute(body[c..], args) == args[DigitValue(body[c + 1])] + Substitute(body[c + 2..], args)
  {
    assert body[c..][2..] == body[c + 2..];
  }

  // ---------------------------------------------------------------------
  // The step

  /** The text that replaces a call: nothing for an undefined name, the
      body for a constant, the substituted body for a call with arguments. */
  function Replacement(line: seq<char>, call: Call, body: Option<seq<char>>): (repl: seq<char>)
    requires call.begin + 6 <= call.end <= |line| && line[call.end - 3] == '}'
    ensures body.None? ==> repl == []
    ensures body.Some? && line[NameEnd(line, call.begin + 3, call.end - 3)] == '}' ==> repl == body.value
    ensures body.Some? && line[NameEnd(line, call.begin + 3, call.end - 3)] == '(' ==>
      repl == Substitute(body.value, Arguments(line, NameEnd(line, call.begin + 3, call.end - 3), call.end))
  {
    var n := NameEnd(line, call.begin + 3, call.end - 3);
    match body
    case None => []
    case Some(b) =>
      if line[n] == '}' then b
      else Substitute(b, Arguments(line, n, call.end))
  }

  /** The line with the call's bytes replaced (lines 504-509, 512-522 and
      586-590 all rebuild the line this way). */
  function Splice(line: seq<char>, call: Call, repl: seq<char>): (r: seq<char>)
    requires call.begin <= call.end <= |line|
    ensures |r| == |line| - (call.end - call.begin) + |repl|
    ensures r[..call.begin] == line[..call.begin]
    ensures r[call.begin..call.begin + |repl|] == repl
    ensures r[call.begin + |repl|..] == line[call.end..]
  {
    line[..call.begin] + repl + line[call.end..]
  }

  /** The bytes of `{{{name}}}`. */
  lemma WholeLineBytes(name: seq<char>, line: seq<char>)
    requires line == "{{{" + name + "}}}"
    ensures |line| == |name| + 6
    ensures forall j :: 3 <= j < |line| - 3 ==> line[j] == name[j - 3]
    ensures Triple(line, 0, '{') && Triple(line, |line| - 3, '}')
    ensures line[3..|line| - 3] == name
  {
  }

  /** In `{{{name}}}` the only `{{{` is the first one and the only `}}}`
      the last one. */
  lemma WholeLineTriples(name: seq<char>, line: seq<char>)
    requires '{' !in name && '}' !in name
    requires |line| == |name| + 6 && Triple(line, 0, '{') && Triple(line, |line| - 3, '}')
    requires forall j :: 3 <= j < |line| - 3 ==> line[j] == name[j - 3]
    ensures forall j :: 0 < j <= |line| - 2 ==> !Triple(line, j, '{')
    ensures forall j :: 0 <= j < |line| - 3 ==> !Triple(line, j, '}')
  {
    var n := |line|;
    forall j | 0 < j <= n - 2
      ensures !Triple(line, j, '{')
    {
      if j + 3 <= n {
        assert line[j + 2] != '{';
      }
    }
    forall j | 0 <= j < n - 3
      ensures !Triple(line, j, '}')
    {
      if j < 3 {
        assert line[j] == '{';
      } else {
        assert line[j] != '}';
      }
    }
  }

  /** A line whose only `{{{` opens it and whose only `}}}` closes it is
      one call, found whole. */
  lemma SingleCallLocated(line: seq<char>)
    requires |line| >= 6 && Triple(line, 0, '{') && Triple(line, |line| - 3, '}')
    requires forall j :: 0 < j <= |line| - 2 ==> !Triple(line, j, '{')
    requires forall j :: 0 <= j < |line| - 3 ==> !Triple(line, j, '}')
    ensures Locate(line, 0) == Some(Call(0, |line|, 0))
  {
    var n := |line|;
    assert LastTriple(line, '{', n - 2) == Some(0);
    assert FirstTriple(line, '}', 1, n - 2) == Some(n - 3);
    assert !Triple(line, n - 2, '}');
    assert LastTriple(line, '}', n - 2) == Some(n - 3);
  }

  /** The name scan stops at the closing `}}}` when the name holds no '('
      and no '}'. */
  lemma PlainNameEnd(line: seq<char>, name: seq<char>)
    requires '}' !in name && '(' !in name
    requires |line| == |name| + 6 && line[|line| - 3] == '}'
    requires line[3..|line| - 3] == name
    ensures NameEnd(line, 3, |line| - 3) == |line| - 3
    ensures CallName(line, Call(0, |line|, 0)) == name
  {
    var n := |line|;
    assert forall j :: 3 <= j < n - 3 ==> line[j] == name[j - 3];
    assert NameEnd(line, 3, n - 3) == n - 3;
  }

  /** A line that is a single constant call `{{{name}}}`, for a name with
      no braces and no '(', is found whole, and its name is read back. */
  lemma WholeLineCall(name: seq<char>)
    requires '{' !in name && '}' !in name && '(' !in name
    ensures var line := "{{{" + name + "}}}"; var call := Call(0, |name| + 6, 0);
      Locate(line, 0) == Some(call) &&
      NameEnd(line, 3, |name| + 3) == |name| + 3 && CallName(line, call) == name
  {
    var line := "{{{" + name + "}}}";
    WholeLineBytes(name, line);
    WholeLineTriples(name, line);
    SingleCallLocated(line);
    PlainNameEnd(line, name);
  }

  /** The name scan stops at the first '(' or '}' after `from`. */
  lemma NameEndAt(line: seq<char>, from: nat, limit: nat, m: nat)
    requires from <= m <= limit < |line| && line[limit] == '}'
    requires line[m] == '(' || line[m] == '}'
    requires forall j :: from <= j < m ==> line[j] != '(' && line[j] != '}'
    ensures NameEnd(line, from, limit) == m
  {
  }

  /** The name bytes of a call that starts at |p|: they are the name's,
      and none is '(' or '}' when the name holds neither. */
  lemma NameBytes(line: seq<char>, p: nat, name: seq<char>)
    requires '(' !in name && '}' !in name
    requires p + 3 + |name| <= |line| && line[p + 3..p + 3 + |name|] == name
    ensures forall j :: p + 3 <= j < p + 3 + |name| ==> line[j] != '(' && line[j] != '}'
  {
    forall j | p + 3 <= j < p + 3 + |name|
      ensures line[j] != '(' && line[j] != '}'
    {
      assert line[p + 3..p + 3 + |name|][j - p - 3] == line[j];
    }
  }

  /** The bytes of `p{{{name}}}s`. */
  lemma ConstantCallBytes(line: seq<char>, p: seq<char>, name: seq<char>, s: seq<char>)
    requires line == p + "{{{" + name + "}}}" + s
    ensures |line| == |p| + |name| + 6 + |s|
    ensures line[..|p|] == p && line[|p| + |name| + 6..] == s
    ensures line[|p| + 3..|p| + 3 + |name|] == name
    ensures line[|p| + |name| + 3] == '}'
  {
  }

  /** The bytes of `p{{{name(args)}}}s`. */
  lemma ArgumentCallBytes(line: seq<char>, p: seq<char>, name: seq<char>, args: seq<char>, s: seq<char>)
    requires line == p + "{{{" + name + "(" + args + ")}}}" + s
    ensures |line| == |p| + |name| + |args| + 8 + |s|
    ensures line[..|p|] == p && line[|p| + |name| + |args| + 8..] == s
    ensures line[|p| + 3..|p| + 3 + |name|] == name
    ensures line[|p| + 3 + |name|] == '('
    ensures line[|p| + |name| + 4..|p| + |name| + |args| + 4] == args
    ensures line[|p| + |name| + |args| + 4..|p| + |name| + |args| + 8] == ")}}}"
  {
  }

  /** Replacing the call `{{{name}}}` that starts right after p: the body
      takes its place, and an undefined name leaves nothing. */
  lemma ConstantCallExpands(line: seq<char>, p: seq<char>, name: seq<char>, s: seq<char>, call: Call)
    requires line == p + "{{{" + name + "}}}" + s && '(' !in name && '}' !in name
    requires call.begin == |p| && call.end == |p| + |name| + 6
    ensures call.end <= |line| && line[call.end - 3] == '}'
    ensures CallName(line, call) == name
    ensures forall b :: Splice(line, call, Replacement(line, call, Some(b))) == p + b + s
    ensures Splice(line, call, Replacement(line, call, None)) == p + s
  {
    var n := |p| + 3 + |name|;
    ConstantCallBytes(line, p, name, s);
    NameBytes(line, |p|, name);
    NameEndAt(line, |p| + 3, n, n);
  }

  /** Replacing the call `{{{name(args)}}}` that starts right after p, for
      arguments without '\': the body with `$k` read as the k-th
      comma-separated field of args takes its place. */
  lemma ArgumentCallExpands(line: seq<char>, p: seq<char>, name: seq<char>, args: seq<char>, s: seq<char>,
                            call: Call, b: seq<char>)
    requires line == p + "{{{" + name + "(" + args + ")}}}" + s
    requires '(' !in name && '}' !in name && '\\' !in args
    requires call.begin == |p| && call.end == |p| + |name| + |args| + 8
    ensures call.end <= |line| && line[call.end - 3] == '}'
    ensures CallName(line, call) == name
    ensures Splice(line, call, Replacement(line, call, Some(b))) == p + Substitute(b, FieldArguments(args)) + s
  {
    ArgumentCallBytes(line, p, name, args, s);
    ArgumentCallAt(line, p, name, args, s, call, b, |p| + 3 + |name|);
  }

  /** The same, from the bytes of the call alone. */
  lemma ArgumentCallAt(line: seq<char>, p: seq<char>, name: seq<char>, args: seq<char>, s: seq<char>,
                       call: Call, b: seq<char>, n: nat)
    requires '(' !in name && '}' !in name && '\\' !in args
    requires n == |p| + 3 + |name| && call.begin == |p| && call.end == n + |args| + 5 && call.end <= |line|
    requires line[..|p|] == p && line[call.end..] == s
    requires line[|p| + 3..n] == name && line[n] == '('
    requires line[n + 1..call.end - 4] == args && line[call.end - 4..call.end] == ")}}}"
    ensures line[call.end - 3] == '}'
    ensures CallName(line, call) == name
    ensures Splice(line, call, Replacement(line, call, Some(b))) == p + Substitute(b, FieldArguments(args)) + s
  {
    var e := call.end;
    assert line[e - 3] == line[e - 4..e][1];
    NameBytes(line, |p|, name);
    NameEndAt(line, |p| + 3, e - 3, n);
    ArgumentsOfText(line, n, e, args);
    ArgumentsReplacement(line, call, b, n);
    SubstituteSame(b, Arguments(line, n, e), FieldArguments(args), Replacement(line, call, Some(b)));
  }

  /** The arguments of a call whose argument text holds no backslash are
      the fields of that text. */
  lemma ArgumentsOfText(line: seq<char>, n: nat, end: nat, args: seq<char>)
    requires n + 5 <= end <= |line| && line[end - 4..end] == ")}}}"
    requires line[n + 1..end - 4] == args && '\\' !in args
    ensures Arguments(line, n, end) == FieldArguments(args)
  {
    ArgumentsSplit(line, n, end);
  }

  /** The replacement of a defined call with arguments. */
  lemma ArgumentsReplacement(line: seq<char>, call: Call, b: seq<char>, n: nat)
    requires call.begin + 6 <= call.end <= |line| && line[call.end - 3] == '}'
    requires n == NameEnd(line, call.begin + 3, call.end - 3) && line[n] == '('
    ensures Replacement(line, call, Some(b)) == Substitute(b, Arguments(line, n, call.end))
  {
  }

  /** Equal arguments substitute alike. */
  lemma SubstituteSame(b: seq<char>, x: seq<seq<char>>, y: seq<seq<char>>, r: seq<char>)
    requires |x| == 10 && x == y && r == Substitute(b, x)
    ensures r == Substitute(b, y)
  {
  }

  /** The bytes from `start - 1` on hold no `}}}`: no call can end in the
      part of the line the scan skips (the loop invariant stated at
      gokuro.c:338-340). */
  ghost predicate TailClear(line: seq<char>, offset: nat)
    requires offset <= |line|
  {
    forall j :: |line| - offset - 1 <= j ==> !Triple(line, j, '}')
  }

  /** The scan of a fresh line, with offset 0, skips nothing. */
  lemma TailClearAtStart(line: seq<char>)
    ensures TailClear(line, 0)
  {
  }

  /** Bytes copied from offset e of line to offset `shift` of r, after a
      '}' at e - 1: when line holds no `}}}` past `|line| - off - 3`, the
      last off + 1 bytes of r hold none either. */
  lemma TailShift(line: seq<char>, r: seq<char>, shift: nat, e: nat, off: nat)
    requires 1 <= e <= |line| - off && line[e - 1] == '}'
    requires shift <= |r| && r[shift..] == line[e..]
    requires forall j :: |line| - off - 3 < j ==> !Triple(line, j, '}')
    ensures off <= |r| && r[|r| - off..] == line[|line| - off..]
    ensures forall j :: |r| - off - 1 <= j ==> !Triple(r, j, '}')
  {
    assert |r| == shift + |line| - e;
    assert r[|r| - off..] == r[shift..][|line| - off - e..];
    forall j | |r| - off - 1 <= j
      ensures !Triple(r, j, '}')
    {
      if j >= shift {
        var i := j - shift + e;
        assert !Triple(line, i, '}');
        if j + 3 <= |r| {
          assert r[j] == line[i] && r[j + 1] == line[i + 1] && r[j + 2] == line[i + 2];
        }
      } else if j + 3 <= |r| {
        assert r[j + 1] == line[e] && r[j + 2] == line[e + 1];
        assert !Triple(line, e - 1, '}');
      }
    }
  }

  /** Expanding the located call keeps the loop invariant: the new offset
      fits the new line, the bytes it covers are the old line's bytes, and
      they still hold no `}}}`. */
  lemma OffsetKeepsTailClear(line: seq<char>, offset: nat, call: Call, repl: seq<char>)
    requires offset <= |line| && TailClear(line, offset)
    requires Locate(line, offset) == Some(call)
    ensures call.offset <= |Splice(line, call, repl)|
    ensures var r := Splice(line, call, repl);
      r[|r| - call.offset..] == line[|line| - call.offset..]
    ensures TailClear(Splice(line, call, repl), call.offset)
  {
    var r := Splice(line, call, repl);
    var f := |line| - call.offset - 3;
    assert forall j :: f < j ==> !Triple(line, j, '}');
    TailShift(line, r, call.begin + |repl|, call.end, call.offset);
  }

  /** A line whose skipped tail holds no `}}}` and whose scan finds no call
      holds no complete call at all. */
  lemma TailClearNoCall(line: seq<char>, offset: nat)
    requires offset <= |line|
    ensures TailClear(line, offset) && NoCompleteCall(line, |line| - offset) ==> NoCompleteCall(line, |line|)
  {
    if TailClear(line, offset) && NoCompleteCall(line, |line| - offset) {
      forall i, j | i < j <= |line| - 2 && Triple(line, i, '{') && Triple(line, j, '}')
        ensures exists k :: j < k <= |line| - 2 && Triple(line, k, '{')
      {
        var k :| j < k <= |line| - offset - 2 && Triple(line, k, '{');
      }
    }
  }

  /** One expansion keeps the scan offset inside the new line, and keeps
      the skipped tail free of `}}}` when it was. */
  lemma ExpandKeepsTailClear(line: seq<char>, offset: nat, call: Call, repl: seq<char>)
    requires offset <= |line| && Locate(line, offset) == Some(call)
    ensures call.offset <= |Splice(line, call, repl)|
    ensures TailClear(line, offset) ==> TailClear(Splice(line, call, repl), call.offset)
  {
    if TailClear(line, offset) {
      OffsetKeepsTailClear(line, offset, call, repl);
    }
  }
}

=== FILE: go_port.dfy ===
/**
 The Go revision, gokuro.go: calls are written `<<<name>>>` and
 `<<<name(args)>>>`, tables are keyed by the name itself, `$` in argument
 text is quoted as `$@` while placeholders are filled, and a name bound to
 an empty body counts as undefined.

 The call itself is found by a backward scan and a regular expression
 (lines 102-127); the model takes that matcher as a parameter `find` and
 models everything after the match.  The two definition expressions are
 simple enough to model exactly.
 */
module GoPort {
  import opened Text
  import opened Options
  import opened Replacing
  import opened Ports
  import Gokuro

  /** minInt (lines 12-17). */
  function MinInt(a: int, b: int): (m: int)
    ensures m <= a && m <= b && (m == a || m == b)
  {
    if a < b then a else b
  }

  const EscapedComma: seq<char> := "\\,"

  /** An escaped comma at offset `end` means the first one in s lies at or
      before it, so replacing the first one shortens s by one byte. */
  lemma EscapeFound(s: seq<char>, end: nat)
    requires end + 1 < |s| && s[end] == '\\' && s[end + 1] == ','
    ensures FirstOccurrence(s, EscapedComma, 0) <= end
    ensures |ReplaceFirst(s, EscapedComma, ",")| == |s| - 1
  {
    assert s[end..end + 2] == [s[end], s[end + 1]] == EscapedComma;
    assert Occurs(s, EscapedComma, end);
  }

  /** The loop of parseMacroArguments (lines 19-45) from argument start
      `start` and scan position `end`, with the arguments already found.
      At `\,` the FIRST escaped comma of the whole text is replaced by ','
      and the scan moves two bytes on in the shortened text. */
  function ParseFrom(s: seq<char>, start: nat, end: nat, done: seq<seq<char>>): (r: seq<seq<char>>)
    requires start <= end <= |s|
    ensures |r| > |done|
    decreases |s| - end
  {
    if end == |s| then done + [s[start..end]]
    else if s[end] == ',' then ParseFrom(s, end + 1, end + 1, done + [s[start..end]])
    else if s[end] == '\\' && end < |s| - 1 && s[end + 1] == ',' then
      EscapeFound(s, end);
      var s' := ReplaceFirst(s, EscapedComma, ",");
      ParseFrom(s', start, MinInt(end + 2, |s'|), done)
    else ParseFrom(s, start, end + 1, done)
  }

  /** parseMacroArguments: never empty. */
  function ParseArguments(s: seq<char>): (r: seq<seq<char>>)
    ensures |r| >= 1
  {
    ParseFrom(s, 0, 0, [])
  }

  /** Bytes that are neither ',' nor '\' only move the scan on. */
  lemma {:induction false} ParseSkip(s: seq<char>, start: nat, end: nat, k: nat, done: seq<seq<char>>)
    requires start <= end <= k <= |s|
    requires forall j :: end <= j < k ==> s[j] != ',' && s[j] != '\\'
    ensures ParseFrom(s, start, end, done) == ParseFrom(s, start, k, done)
    decreases k - end
  {
    if end < k {
      ParseSkip(s, start, end + 1, k, done);
    }
  }

  /** Without ',' or '\' after the scan position the rest is one argument. */
  lemma ParseTail(s: seq<char>, start: nat, end: nat, done: seq<seq<char>>)
    requires start <= end <= |s|
    requires forall j :: end <= j < |s| ==> s[j] != ',' && s[j] != '\\'
    ensures ParseFrom(s, start, end, done) == done + [s[start..]]
  {
    ParseSkip(s, start, end, |s|, done);
    assert s[start..|s|] == s[start..];
  }

  /** A comma ends the current argument. */
  lemma ParseComma(s: seq<char>, start: nat, end: nat, done: seq<seq<char>>)
    requires start <= end < |s| && s[end] == ','
    ensures ParseFrom(s, start, end, done) == ParseFrom(s, end + 1, end + 1, done + [s[start..end]])
  {
  }

  /** The pieces between commas from offset `start` on, found byte by
      byte. */
  ghost function CommaPieces(s: seq<char>, start: nat): (parts: seq<seq<char>>)
    requires start <= |s|
    decreases |s| - start
  {
    var k := FindFrom(s, start, ',');
    if k == |s| then [s[start..]] else [s[start..k]] + CommaPieces(s, k + 1)
  }

  /** They are the pieces of the split at ",". */
  lemma {:induction false} CommaPiecesSplit(s: seq<char>, start: nat)
    requires start <= |s|
    ensures CommaPieces(s, start) == SplitOn(s[start..], ",")
    decreases |s| - start
  {
    var k := FindFrom(s, start, ',');
    if k == |s| {
      assert CommaPieces(s, start) == [s[start..]];
      SplitLastPiece(s, start);
      assert s[start..|s|] == s[start..];
    } else {
      var piece := s[start..k];
      assert CommaPieces(s, start) == [piece] + CommaPieces(s, k + 1);
      SplitFirstComma(s, start, k);
      CommaPiecesSplit(s, k + 1);
      SameHead(CommaPieces(s, start), SplitOn(s[start..], ","), piece,
        CommaPieces(s, k + 1), SplitOn(s[k + 1..], ","));
    }
  }

  /** Two lists with the same head and equal tails are equal. */
  lemma SameHead(x: seq<seq<char>>, y: seq<seq<char>>, piece: seq<char>, rx: seq<seq<char>>, ry: seq<seq<char>>)
    requires x == [piece] + rx && y == [piece] + ry && rx == ry
    ensures x == y
  {
  }

  lemma {:induction false} ParseNoBackslash(s: seq<char>, start: nat, done: seq<seq<char>>)
    requires '\\' !in s && start <= |s|
    ensures ParseFrom(s, start, start, done) == done + CommaPieces(s, start)
    decreases |s| - start
  {
    var k := FindFrom(s, start, ',');
    ParseSkip(s, start, start, k, done);
    if k == |s| {
      assert s[start..|s|] == s[start..];
    } else {
      var piece := s[start..k];
      var rest := CommaPieces(s, k + 1);
      ParseComma(s, start, k, done);
      ParseNoBackslash(s, k + 1, done + [piece]);
      assert (done + [piece]) + rest == done + ([piece] + rest);
    }
  }

  /** On text without '\' the arguments are the pieces between commas. */
  lemma NoBackslashIsSplit(s: seq<char>)
    requires '\\' !in s
    ensures ParseArguments(s) == SplitOn(s, ",")
  {
    ParseNoBackslash(s, 0, []);
    CommaPiecesSplit(s, 0);
    assert s[0..] == s;
  }

  /** `\,` becomes ',' and does not split; the byte after it is passed over
      unexamined, so a ',' there does not split either. */
  lemma ByteAfterEscapeSkipped(a: seq<char>, x: char, b: seq<char>)
    requires ',' !in a && '\\' !in a && ',' !in b && '\\' !in b
    ensures ParseArguments(a + EscapedComma + [x] + b) == [a + "," + [x] + b]
  {
    var s := a + EscapedComma + [x] + b;
    var n := |a|;
    ParseSkip(s, 0, 0, n, []);
    forall j | 0 <= j < n
      ensures !Occurs(s, EscapedComma, j)
    {
      assert s[j] == a[j];
    }
    assert s[n..n + 2] == EscapedComma;
    FirstOccurrenceIs(s, EscapedComma, 0, n);
    var s' := ReplaceFirst(s, EscapedComma, ",");
    assert s' == a + "," + [x] + b by {
      assert s[..n] == a && s[n + 2..] == [x] + b;
    }
    assert MinInt(n + 2, |s'|) == n + 2;
    ParseTail(s', 0, n + 2, []);
    assert s'[0..] == s';
  }

  /** An escaped comma at the very end: the scan position is cut back to
      the end of the shortened text. */
  lemma TrailingEscapedComma(a: seq<char>)
    requires ',' !in a && '\\' !in a
    ensures ParseArguments(a + EscapedComma) == [a + ","]
  {
    var s := a + EscapedComma;
    var n := |a|;
    ParseSkip(s, 0, 0, n, []);
    forall j | 0 <= j < n
      ensures !Occurs(s, EscapedComma, j)
    {
      assert s[j] == a[j];
    }
    assert s[n..n + 2] == EscapedComma;
    FirstOccurrenceIs(s, EscapedComma, 0, n);
    var s' := ReplaceFirst(s, EscapedComma, ",");
    assert s' == a + "," by {
      assert s[..n] == a && s[n + 2..] == [];
    }
    assert MinInt(n + 2, |s'|) == n + 1;
    assert s'[0..n + 1] == s';
  }

  /** The escape branch of the loop, as one step. */
  lemma ParseEscape(s: seq<char>, start: nat, end: nat, done: seq<seq<char>>)
    requires start <= end && end + 1 < |s| && s[end] == '\\' && s[end + 1] == ','
    ensures |ReplaceFirst(s, EscapedComma, ",")| == |s| - 1
    ensures ParseFrom(s, start, end, done) ==
      ParseFrom(ReplaceFirst(s, EscapedComma, ","), start, MinInt(end + 2, |s| - 1), done)
  {
    EscapeFound(s, end);
  }

  /** Any other byte joins the current argument. */
  lemma ParsePlainByte(s: seq<char>, start: nat, end: nat, done: seq<seq<char>>)
    requires start <= end < |s| && s[end] != ','
    requires !(s[end] == '\\' && end < |s| - 1 && s[end + 1] == ',')
    ensures ParseFrom(s, start, end, done) == ParseFrom(s, start, end + 1, done)
  {
  }

  /** A piece of quoted text is quoted, unless it cuts a '$' from its '@'. */
  lemma SliceQuoted(s: seq<char>, a: nat, b: nat)
    requires DollarsQuoted(s) && a <= b <= |s| && (b == |s| || s[b] != '@')
    ensures DollarsQuoted(s[a..b])
  {
    forall i | 0 <= i < b - a && s[a..b][i] == '$'
      ensures i + 1 < b - a && s[a..b][i + 1] == '@'
    {
      assert s[a + i] == '$';
    }
  }

  /** Turning the first `\,` into ',' keeps the text quoted. */
  lemma EscapeRemovalKeepsQuoted(s: seq<char>, end: nat)
    requires end + 1 < |s| && s[end] == '\\' && s[end + 1] == ',' && DollarsQuoted(s)
    ensures DollarsQuoted(ReplaceFirst(s, EscapedComma, ","))
  {
    EscapeFound(s, end);
    var k := FirstOccurrence(s, EscapedComma, 0);
    var s' := ReplaceFirst(s, EscapedComma, ",");
    assert s[k..k + 2] == EscapedComma;
    assert s[k] == s[k..k + 2][0] == '\\';
    assert s' == s[..k] + "," + s[k + 2..];
    forall i | 0 <= i < |s'| && s'[i] == '$'
      ensures i + 1 < |s'| && s'[i + 1] == '@'
    {
      ReplacedAt(s, k, i);
    }
  }

  /** The bytes of a text with the pair at k turned into one ','. */
  lemma ReplacedAt(s: seq<char>, k: nat, i: nat)
    requires k + 2 <= |s| && s[k] == '\\' && DollarsQuoted(s)
    requires i < |s| - 1 && (s[..k] + "," + s[k + 2..])[i] == '$'
    ensures i + 1 < |s| - 1 && (s[..k] + "," + s[k + 2..])[i + 1] == '@'
  {
    var s' := s[..k] + "," + s[k + 2..];
    if i < k {
      assert s'[i] == s[i];
      assert s[i + 1] == '@';
      assert i + 1 < k;
      assert s'[i + 1] == s[i + 1];
    } else {
      assert i != k;
      assert s'[i] == s[k + 2..][i - k - 1] == s[i + 1];
      assert s[i + 2] == '@';
      assert s'[i + 1] == s[k + 2..][i - k] == s[i + 2];
    }
  }

  /** Every argument of quoted text is quoted. */
  lemma {:induction false} ParseKeepsQuoted(s: seq<char>, start: nat, end: nat, done: seq<seq<char>>)
    requires start <= end <= |s| && DollarsQuoted(s) && AllQuoted(done)
    ensures AllQuoted(ParseFrom(s, start, end, done))
    decreases |s| - end
  {
    if end == |s| {
      SliceQuoted(s, start, end);
    } else if s[end] == ',' {
      ParseComma(s, start, end, done);
      SliceQuoted(s, start, end);
      ParseKeepsQuoted(s, end + 1, end + 1, done + [s[start..end]]);
    } else if s[end] == '\\' && end < |s| - 1 && s[end + 1] == ',' {
      ParseEscape(s, start, end, done);
      EscapeRemovalKeepsQuoted(s, end);
      var s' := ReplaceFirst(s, EscapedComma, ",");
      ParseKeepsQuoted(s', start, MinInt(end + 2, |s'|), done);
    } else {
      ParsePlainByte(s, start, end, done);
      ParseKeepsQuoted(s, start, end + 1, done);
    }
  }

  /** The arguments hold no byte other than ',' that the text lacks. */
  lemma {:induction false} ParseKeepsAbsent(s: seq<char>, start: nat, end: nat, done: seq<seq<char>>, c: char)
    requires start <= end <= |s| && c !in s && c != ',' && AllWithout(done, c)
    ensures AllWithout(ParseFrom(s, start, end, done), c)
    decreases |s| - end
  {
    if end == |s| {
      assert c !in s[start..end] by {
        assert forall j :: 0 <= j < end - start ==> s[start..end][j] == s[start + j];
      }
    } else if s[end] == ',' {
      ParseComma(s, start, end, done);
      assert c !in s[start..end] by {
        assert forall j :: 0 <= j < end - start ==> s[start..end][j] == s[start + j];
      }
      ParseKeepsAbsent(s, end + 1, end + 1, done + [s[start..end]], c);
    } else if s[end] == '\\' && end < |s| - 1 && s[end + 1] == ',' {
      ParseEscape(s, start, end, done);
      ReplaceFirstKeepsAbsent(s, EscapedComma, ",", c);
      var s' := ReplaceFirst(s, EscapedComma, ",");
      ParseKeepsAbsent(s', start, MinInt(end + 2, |s'|), done, c);
    } else {
      ParsePlainByte(s, start, end, done);
      ParseKeepsAbsent(s, start, end + 1, done, c);
    }
  }

  // ---------------------------------------------------------------------
  // Quoting '$' in argument text (lines 47-53)

  /** quoteDollar: every '$' becomes `$@`. */
  function QuoteDollar(s: seq<char>): (r: seq<char>)
  {
    ReplaceAll(s, "$", "$@")
  }

  /** unquoteDollar: every `$@` becomes '$'. */
  function UnquoteDollar(s: seq<char>): (r: seq<char>)
  {
    ReplaceAll(s, "$@", "$")
  }

  /** Quoting and unquoting again gives the text back. */
  lemma {:induction false} QuoteRoundTrip(s: seq<char>)
    ensures UnquoteDollar(QuoteDollar(s)) == s
    decreases |s|
  {
    if |s| > 0 {
      var q := QuoteDollar(s[1..]);
      QuoteRoundTrip(s[1..]);
      if s[0] == '$' {
        assert "$" <= s;
        assert QuoteDollar(s) == "$@" + q;
        assert ("$@" + q)[2..] == q;
      } else {
        assert QuoteDollar(s) == [s[0]] + q;
        assert ([s[0]] + q)[1..] == q;
      }
    }
  }

  /** In quoted text every '$' is followed by '@', so no placeholder is
      left in it. */
  lemma {:induction false} QuotedDollars(s: seq<char>)
    ensures DollarsQuoted(QuoteDollar(s))
    decreases |s|
  {
    if |s| > 0 {
      var q := QuoteDollar(s[1..]);
      QuotedDollars(s[1..]);
      if s[0] == '$' {
        assert "$" <= s;
        assert QuoteDollar(s) == "$@" + q;
      } else {
        assert QuoteDollar(s) == [s[0]] + q;
      }
    }
  }

  /** Text without '$' is its own quotation. */
  lemma QuoteDollarFree(s: seq<char>)
    requires '$' !in s
    ensures QuoteDollar(s) == s && UnquoteDollar(s) == s
  {
    ReplaceAllAbsent(s, "$", "$@");
    ReplaceAllAbsent(s, "$@", "$");
  }

  // ---------------------------------------------------------------------
  // Lookup and the expansion step

  /** Lines 129-135: the local table first; a name in neither table has
      Go's zero value, the empty body. */
  function Lookup(t: Tables, name: seq<char>): (body: seq<char>)
    ensures name in t.locals ==> body == t.locals[name]
    ensures name !in t.locals && name in t.globals ==> body == t.globals[name]
    ensures name !in t.locals && name !in t.globals ==> body == []
  {
    if name in t.locals then t.locals[name]
    else if name in t.globals then t.globals[name]
    else []
  }

  /** The body of a call with arguments (lines 151-163): placeholders are
      filled from the quoted argument text, then the result is unquoted. */
  function Substitute(body: seq<char>, argText: seq<char>): (r: seq<char>)
  {
    var quoted := QuoteDollar(argText);
    UnquoteDollar(Placeholders(body, quoted, ParseArguments(quoted)))
  }

  /** One expansion step (lines 127-163): an empty or missing body deletes
      the call, a call without arguments is replaced by the body, one with
      arguments by the substituted body.  The text around the call stays. */
  function Step(line: seq<char>, m: CallMatch, t: Tables): (r: seq<char>)
    requires MatchIn(line, m)
    ensures m.begin <= |r|
    ensures r[..m.begin] == line[..m.begin]
    ensures |r| >= |line| - m.begin - |m.text|
    ensures r[|r| - (|line| - m.begin - |m.text|)..] == line[m.begin + |m.text|..]
    ensures EndsLine(line) ==> EndsLine(r)
  {
    var body := Lookup(t, m.name);
    var end := m.begin + |m.text|;
    var repl := if body == [] then [] else if m.args.None? then body else Substitute(body, m.args.value);
    var r := line[..m.begin] + repl + line[end..];
    assert r[|r| - (|line| - end)..] == line[end..];
    assert line[end - 1] == m.text[|m.text| - 1] != LineEnd;
    r
  }

  // ---------------------------------------------------------------------
  // Classification (lines 80-100)

  /** `\s` of Go's regular expressions: tab, newline, form feed, carriage
      return and space. */
  predicate IsSpace(c: char)
  {
    c == ' ' || c == '\t' || c == LineEnd || c == '\r' || c == 12 as char
  }

  /** Offset of the first white-space byte at or after `from`, or |s|. */
  function FirstSpace(s: seq<char>, from: nat): (k: nat)
    requires from <= |s|
    ensures from <= k <= |s|
    ensures k < |s| ==> IsSpace(s[k])
    ensures forall j :: from <= j < k ==> !IsSpace(s[j])
    decreases |s| - from
  {
    if from == |s| then from
    else if IsSpace(s[from]) then from
    else FirstSpace(s, from + 1)
  }

  /** `^prefix([^\s]+) (.*)\n$`: a name of one or more non-space bytes,
      one space, and a body running to the line's only '\n'. */
  function Definition(line: seq<char>, prefix: seq<char>): (r: Option<(seq<char>, seq<char>)>)
    ensures r.Some? ==> var (name, body) := r.value;
      && line == prefix + name + " " + body + [LineEnd]
      && |name| > 0 && (forall j :: 0 <= j < |name| ==> !IsSpace(name[j]))
      && LineEnd !in body
  {
    if !(prefix <= line) then None
    else
      var k := FirstSpace(line, |prefix|);
      if k == |prefix| || k == |line| || line[k] != ' ' then None
      else
        var e := FindFrom(line, k + 1, LineEnd);
        if e + 1 != |line| then None
        else
          var name, body := line[|prefix|..k], line[k + 1..e];
          assert line == line[..|prefix|] + name + " " + body + [LineEnd] by {
            assert line[..|prefix|] == prefix;
            assert line[e] == LineEnd;
          }
          assert LineEnd !in body by {
            assert forall j :: 0 <= j < |body| ==> body[j] == line[k + 1 + j];
          }
          Some((name, body))
  }

  /** Every line of the defining form is recognised, with its name and
      body: with the contract of Definition, the form and the result
      determine each other. */
  lemma DefinitionFound(prefix: seq<char>, name: seq<char>, body: seq<char>)
    requires |name| > 0 && (forall j :: 0 <= j < |name| ==> !IsSpace(name[j]))
    requires LineEnd !in body
    ensures Definition(prefix + name + " " + body + [LineEnd], prefix) == Some((name, body))
  {
    var line := prefix + name + " " + body + [LineEnd];
    var p := |prefix|;
    var k := p + |name|;
    assert line[..p] == prefix;
    forall j | p <= j < k
      ensures !IsSpace(line[j])
    {
      assert line[j] == name[j - p];
    }
    assert line[k] == ' ';
    assert FirstSpace(line, p) == k by {
      FirstSpaceIs(line, p, k);
    }
    var e := |line| - 1;
    forall j | k + 1 <= j < e
      ensures line[j] != LineEnd
    {
      assert line[j] == body[j - k - 1];
    }
    FindFromIs(line, k + 1, LineEnd, e);
    assert line[p..k] == name && line[k + 1..e] == body;
  }

  lemma FirstSpaceIs(s: seq<char>, from: nat, k: nat)
    requires from <= k <= |s|
    requires k < |s| ==> IsSpace(s[k])
    requires forall j :: from <= j < k ==> !IsSpace(s[j])
    ensures FirstSpace(s, from) == k
  {
  }

  /** A `#+` line is tried against the global form, then the local one. */
  function Classify(line: seq<char>): (c: Class)
    ensures c.Global? <==> Definition(line, Gokuro.GlobalPrefix).Some?
    ensures c.Global? ==> line == Gokuro.GlobalPrefix + c.name + " " + c.body + [LineEnd]
    ensures c.Local? <==> Definition(line, Gokuro.GlobalPrefix).None? && Definition(line, Gokuro.LocalPrefix).Some?
    ensures c.Local? ==> line == Gokuro.LocalPrefix + c.name + " " + c.body + [LineEnd]
    ensures c.Content? <==> Definition(line, Gokuro.GlobalPrefix).None? && Definition(line, Gokuro.LocalPrefix).None?
  {
    if !("#+" <= line) then Content
    else match Definition(line, Gokuro.GlobalPrefix)
      case Some((name, body)) => Global(name, body)
      case None =>
        match Definition(line, Gokuro.LocalPrefix)
        case Some((name, body)) => Local(name, body)
        case None => Content
  }

  // ---------------------------------------------------------------------
  // The line loop

  /** The inner loop (lines 80-164): a definition ends it, so does a line
      with no call left; otherwise the last call is expanded and the line
      is classified afresh.  At most `fuel` steps are taken. */
  function ProcessLine(line: seq<char>, find: seq<char> -> Option<CallMatch>, t: Tables, fuel: nat): (r: LineResult)
    requires Fits(find)
    ensures EndsLine(line) && r.Written? ==> EndsLine(r.text)
    decreases fuel
  {
    match Classify(line)
    case Global(name, body) => DefinedGlobal(name, body)
    case Local(name, body) => DefinedLocal(name, body)
    case Content =>
      match find(line)
      case None => Written(line)
      case Some(m) =>
        if fuel == 0 then OutOfFuel
        else ProcessLine(Step(line, m, t), find, t, fuel - 1)
  }

  /** The outer loop over the lines (lines 67-174): each line gets its
      '\n' back, definitions are stored and not written, and the local
      table is reset after every line but a local definition. */
  function Run(lines: seq<seq<char>>, find: seq<char> -> Option<CallMatch>, t: Tables, fuel: nat): (r: Outcome)
    requires Fits(find)
    ensures WholeLines(r)
    decreases |lines|
  {
    if |lines| == 0 then Output([])
    else
      var rest := lines[1..];
      match ProcessLine(lines[0] + [LineEnd], find, t, fuel)
      case OutOfFuel => Exhausted
      case DefinedGlobal(name, body) => Run(rest, find, Tables(t.globals[name := body], map[]), fuel)
      case DefinedLocal(name, body) => Run(rest, find, t.(locals := t.locals[name := body]), fuel)
      case Written(text) =>
        var o := Run(rest, find, t.(locals := map[]), fuel);
        PrependLine(text, o);
        Prepend(text, o)
  }

  /** gokuro(): the lines of the whole input, starting with empty tables. */
  function Preprocess(input: seq<char>, find: seq<char> -> Option<CallMatch>, fuel: nat): (r: Outcome)
    requires Fits(find)
    ensures WholeLines(r)
  {
    Run(Lines(input), find, Tables(map[], map[]), fuel)
  }

  // ---------------------------------------------------------------------
  // Properties

  /** A call whose name is in neither table is deleted. */
  lemma UndefinedCallDeleted(line: seq<char>, m: CallMatch, t: Tables)
    requires MatchIn(line, m) && m.name !in t.locals && m.name !in t.globals
    ensures Step(line, m, t) == line[..m.begin] + line[m.begin + |m.text|..]
  {
  }

  /** A local bound to the empty body hides a global of the same name,
      and the call is deleted. */
  lemma EmptyLocalHidesGlobal(line: seq<char>, m: CallMatch, t: Tables)
    requires MatchIn(line, m) && m.name in t.locals && t.locals[m.name] == []
    ensures Step(line, m, t) == line[..m.begin] + line[m.begin + |m.text|..]
  {
  }

  /** A call without arguments is replaced by the local body when there is
      one, whatever the global table holds. */
  lemma LocalBodyReplacesCall(line: seq<char>, m: CallMatch, t: Tables)
    requires MatchIn(line, m) && m.args.None?
    requires m.name in t.locals && t.locals[m.name] != []
    ensures Step(line, m, t) == line[..m.begin] + t.locals[m.name] + line[m.begin + |m.text|..]
  {
  }

  /** A body without '$' is used as it is, whatever the arguments. */
  lemma BodyWithoutDollarKept(body: seq<char>, argText: seq<char>)
    requires '$' !in body
    ensures Substitute(body, argText) == body
  {
    var quoted := QuoteDollar(argText);
    DollarFreeNoPlaceholder(body);
    PlaceholderFreeKept(body, quoted, ParseArguments(quoted));
    QuoteDollarFree(body);
  }

  /** `$0` becomes the argument text as written, '$' and all. */
  lemma WholeArgumentTextKept(argText: seq<char>)
    ensures Substitute("$0", argText) == argText
  {
    var quoted := QuoteDollar(argText);
    QuotedDollars(argText);
    QuotedNoPlaceholder(quoted);
    WholeArgumentText(quoted, ParseArguments(quoted));
    QuoteRoundTrip(argText);
  }

  /** The arguments of quoted text are quoted. */
  lemma QuotedArguments(argText: seq<char>)
    ensures AllQuoted(ParseArguments(QuoteDollar(argText)))
  {
    QuotedDollars(argText);
    ParseKeepsQuoted(QuoteDollar(argText), 0, 0, []);
  }

  /** `$k` (k from 1 to 9) becomes the k-th argument with its '$' bytes
      restored: quoting keeps an argument's own `$n` from being filled in
      by a later round. */
  lemma ArgumentUsed(k: nat, argText: seq<char>)
    requires 1 <= k <= 9 && k <= |ParseArguments(QuoteDollar(argText))|
    ensures Substitute(Target(k), argText) == UnquoteDollar(ParseArguments(QuoteDollar(argText))[k - 1])
  {
    var quoted := QuoteDollar(argText);
    var args := ParseArguments(quoted);
    QuotedArguments(argText);
    QuotedNoPlaceholder(args[k - 1]);
    SuppliedArgument(k, quoted, args);
  }

  /** `$k` past the last argument becomes nothing. */
  lemma ArgumentMissing(k: nat, argText: seq<char>)
    requires |ParseArguments(QuoteDollar(argText))| < k <= 9
    ensures Substitute(Target(k), argText) == []
  {
    var quoted := QuoteDollar(argText);
    MissingArgument(k, quoted, ParseArguments(quoted));
  }

  /** `$k` (k from 1 to 9) becomes the k-th comma-separated argument. */
  lemma SuppliedArgumentUsed(k: nat, argText: seq<char>)
    requires '$' !in argText && '\\' !in argText
    requires 1 <= k <= 9 && k <= |SplitOn(argText, ",")|
    ensures Substitute(Target(k), argText) == SplitOn(argText, ",")[k - 1]
  {
    QuoteDollarFree(argText);
    NoBackslashIsSplit(argText);
    var args := SplitOn(argText, ",");
    PiecesWithout(argText, '$');
    assert '$' !in args[k - 1];
    DollarFreeNoPlaceholder(args[k - 1]);
    SuppliedArgument(k, argText, args);
    QuoteDollarFree(args[k - 1]);
  }

  /** `$k` past the last supplied argument becomes nothing. */
  lemma MissingArgumentEmpty(k: nat, argText: seq<char>)
    requires '$' !in argText && '\\' !in argText
    requires |SplitOn(argText, ",")| < k <= 9
    ensures Substitute(Target(k), argText) == []
  {
    QuoteDollarFree(argText);
    NoBackslashIsSplit(argText);
    MissingArgument(k, argText, SplitOn(argText, ","));
  }

  /** `#+MACRO: name body` stores the body, is not written, and resets the
      local table. */
  lemma GlobalDefinitionStored(name: seq<char>, body: seq<char>, rest: seq<seq<char>>,
                               find: seq<char> -> Option<CallMatch>, t: Tables, fuel: nat)
    requires Fits(find)
    requires |name| > 0 && (forall j :: 0 <= j < |name| ==> !IsSpace(name[j])) && LineEnd !in body
    ensures Run([Gokuro.GlobalPrefix + name + " " + body] + rest, find, t, fuel) ==
      Run(rest, find, Tables(t.globals[name := body], map[]), fuel)
  {
    DefinitionFound(Gokuro.GlobalPrefix, name, body);
    assert ([Gokuro.GlobalPrefix + name + " " + body] + rest)[1..] == rest;
  }

  /** `#+MACRO_LOCAL: name body` stores the body in the local table, which
      the next line still sees; the line is not written. */
  lemma LocalDefinitionStored(name: seq<char>, body: seq<char>, rest: seq<seq<char>>,
                              find: seq<char> -> Option<CallMatch>, t: Tables, fuel: nat)
    requires Fits(find)
    requires |name| > 0 && (forall j :: 0 <= j < |name| ==> !IsSpace(name[j])) && LineEnd !in body
    ensures Run([Gokuro.LocalPrefix + name + " " + body] + rest, find, t, fuel) ==
      Run(rest, find, t.(locals := t.locals[name := body]), fuel)
  {
    var lines := [Gokuro.LocalPrefix + name + " " + body] + rest;
    LocalLineClassified(name, body);
    assert lines[0] + [LineEnd] == Gokuro.LocalPrefix + name + " " + body + [LineEnd];
    assert lines[1..] == rest;
  }

  /** A local definition line is classified as one. */
  lemma LocalLineClassified(name: seq<char>, body: seq<char>)
    requires |name| > 0 && (forall j :: 0 <= j < |name| ==> !IsSpace(name[j])) && LineEnd !in body
    ensures Classify(Gokuro.LocalPrefix + name + " " + body + [LineEnd]) == Local(name, body)
  {
    var line := Gokuro.LocalPrefix + name + " " + body + [LineEnd];
    DefinitionFound(Gokuro.LocalPrefix, name, body);
    assert line[..9] != Gokuro.GlobalPrefix by {
      assert line[7] == '_';
    }
    assert Definition(line, Gokuro.GlobalPrefix).None?;
  }

  /** A line with no call that is not a `#+` line is written as it is,
      and the local table is reset. */
  lemma PlainLineWritten(line: seq<char>, rest: seq<seq<char>>,
                         find: seq<char> -> Option<CallMatch>, t: Tables, fuel: nat)
    requires Fits(find) && !("#+" <= line) && find(line + [LineEnd]).None?
    ensures Run([line] + rest, find, t, fuel) ==
      Prepend(line + [LineEnd], Run(rest, find, t.(locals := map[]), fuel))
  {
    ContentWithLineEnd(line);
    ContentWithoutCall(line + [LineEnd], find, t, fuel);
    assert ([line] + rest)[0] == line && ([line] + rest)[1..] == rest;
  }

  /** A content line in which no call is found is written as it is. */
  lemma ContentWithoutCall(line: seq<char>, find: seq<char> -> Option<CallMatch>, t: Tables, fuel: nat)
    requires Fits(find) && Classify(line) == Content && find(line).None?
    ensures ProcessLine(line, find, t, fuel) == Written(line)
  {
  }

  /** A line that does not start with `#+` is content once its '\n' is back. */
  lemma ContentWithLineEnd(line: seq<char>)
    requires !("#+" <= line)
    ensures Classify(line + [LineEnd]) == Content
  {
    assert !("#+" <= line + [LineEnd]) by {
      if |line| >= 2 {
        assert (line + [LineEnd])[..2] == line[..2];
      } else {
        assert |line| + 1 < 2 || (line + [LineEnd])[|line|] == LineEnd;
      }
    }
  }

  /** A last line without '\n' is processed as if it had one. */
  lemma FinalNewlineAdded(input: seq<char>, find: seq<char> -> Option<CallMatch>, fuel: nat)
    requires Fits(find) && |input| > 0 && input[|input| - 1] != LineEnd
    ensures Preprocess(input, find, fuel) == Preprocess(input + [LineEnd], find, fuel)
  {
    LinesFinalNewline(input);
  }
}

=== FILE: gokuro.dfy ===
/**
 The line loop of `gokuro()` in gokuro.c (lines 303-600).  Each line is
 classified and expanded until no call is left; definition lines store a
 body and are not written; the local table lives until the end of the line
 after the last local definition.  The two tables are the maps from name
 fingerprint to body that the HashMap module's hash tables hold (with the
 bodies read back from the arena, as Buffers.StoreBody shows).
 */
module Gokuro {
  import opened Text
  import opened Options
  import opened Hashing
  import opened Expansion

  const GlobalPrefix: seq<char> := "#+MACRO: "
  const LocalPrefix: seq<char> := "#+MACRO_LOCAL: "

  datatype Tables = Tables(globals: map<nat, seq<char>>, locals: map<nat, seq<char>>)

  /** The body a name stands for (lines 488-502): the local table is asked
      first, the global table only on a miss.  Only the fingerprint is
      compared. */
  function Lookup(t: Tables, name: seq<char>): (body: Option<seq<char>>)
    ensures Hash32(name) in t.locals ==> body == Some(t.locals[Hash32(name)])
    ensures Hash32(name) !in t.locals && Hash32(name) in t.globals ==> body == Some(t.globals[Hash32(name)])
    ensures body.None? <==> Hash32(name) !in t.locals && Hash32(name) !in t.globals
  {
    var h := Hash32(name);
    if h in t.locals then Some(t.locals[h])
    else if h in t.globals then Some(t.globals[h])
    else None
  }

  /** Two names with the same fingerprint are the same macro: "aB" and
      "b!" after any common prefix. */
  lemma CollidingNamesShareBody(t: Tables, p: seq<char>)
    ensures Lookup(t, p + "aB") == Lookup(t, p + "b!")
  {
    Hash32Collision(p);
  }

  datatype Kind = Content | GlobalDefinition | LocalDefinition

  /** What the classification at the head of the expansion loop decides
      (lines 349-425). */
  datatype Class =
    | Bare                                        // exactly "#+MACRO: "
    | Definition(kind: Kind, name: seq<char>, body: seq<char>)
    | Expandable

  /** The definition on a line that starts with the prefix: the name runs
      from the end of the prefix to the first space, the body is everything
      after that space.  No space means no definition. */
  function ParseDefinition(line: seq<char>, prefixLength: nat): (r: Option<(seq<char>, seq<char>)>)
    requires prefixLength <= |line|
    ensures r.None? <==> ' ' !in line[prefixLength..]
    ensures r.Some? ==> ' ' !in r.value.0 && line == line[..prefixLength] + r.value.0 + [' '] + r.value.1
  {
    var sp := FindFrom(line, prefixLength, ' ');
    if sp == |line| then
      assert ' ' !in line[prefixLength..] by {
        assert forall j :: 0 <= j < |line| - prefixLength ==> line[prefixLength..][j] == line[prefixLength + j];
      }
      None
    else
      assert line[prefixLength..][sp - prefixLength] == ' ';
      assert line == line[..prefixLength] + line[prefixLength..sp] + [' '] + line[sp + 1..];
      Some((line[prefixLength..sp], line[sp + 1..]))
  }

  function Classify(line: seq<char>): (c: Class)
    ensures c.Definition? ==> c.kind != Content
    ensures c.Definition? && c.kind == GlobalDefinition ==>
      line == GlobalPrefix + c.name + [' '] + c.body && ' ' !in c.name
    ensures c.Definition? && c.kind == LocalDefinition ==>
      line == LocalPrefix + c.name + [' '] + c.body && ' ' !in c.name
  {
    if At(line, 0) != '#' then Expandable
    else if BeginWith(line, GlobalPrefix) && At(line, |GlobalPrefix|) == LineEnd then Bare
    else if BeginWith(line, GlobalPrefix) && ParseDefinition(line, |GlobalPrefix|).Some? then
      var d := ParseDefinition(line, |GlobalPrefix|).value;
      assert line[..|GlobalPrefix|] == GlobalPrefix;
      Definition(GlobalDefinition, d.0, d.1)
    else if BeginWith(line, LocalPrefix) && ParseDefinition(line, |LocalPrefix|).Some? then
      var d := ParseDefinition(line, |LocalPrefix|).value;
      assert line[..|LocalPrefix|] == LocalPrefix;
      Definition(LocalDefinition, d.0, d.1)
    else Expandable
  }

  /** No line starts with both prefixes: they differ at offset 7. */
  lemma PrefixesDiffer(line: seq<char>)
    ensures !(GlobalPrefix <= line && LocalPrefix <= line)
  {
    if |line| > 7 {
      assert GlobalPrefix <= line ==> line[7] == ':';
      assert LocalPrefix <= line ==> line[7] == '_';
    }
  }

  /** A line is Bare exactly when it is the global prefix and nothing else
      (line 349 reads the terminator right after the prefix). */
  lemma ClassifyBare(line: seq<char>)
    requires LineEnd !in line
    ensures Classify(line) == Bare <==> line == GlobalPrefix
  {
    if BeginWith(line, GlobalPrefix) && |line| > |GlobalPrefix| {
      assert line[|GlobalPrefix|] in line;
    }
  }

  /** A global definition is exactly a line that starts with the global
      prefix and has a space after it, other than the bare prefix. */
  lemma ClassifyGlobal(line: seq<char>)
    requires LineEnd !in line
    ensures (Classify(line).Definition? && Classify(line).kind == GlobalDefinition) <==>
      GlobalPrefix <= line && ParseDefinition(line, |GlobalPrefix|).Some?
  {
    if GlobalPrefix <= line && |line| > |GlobalPrefix| {
      assert line[|GlobalPrefix|] in line;
    }
  }

  /** A local definition is exactly a line that starts with the local
      prefix and has a space after it; no line starts with both prefixes. */
  lemma ClassifyLocal(line: seq<char>)
    ensures (Classify(line).Definition? && Classify(line).kind == LocalDefinition) <==>
      LocalPrefix <= line && ParseDefinition(line, |LocalPrefix|).Some?
  {
    PrefixesDiffer(line);
  }

  /** The tables after a definition is stored under its name's fingerprint. */
  function Store(t: Tables, kind: Kind, name: seq<char>, body: seq<char>): (t': Tables)
    ensures kind == GlobalDefinition ==> t' == t.(globals := t.globals[Hash32(name) := body])
    ensures kind == LocalDefinition ==> t' == t.(locals := t.locals[Hash32(name) := body])
    ensures kind == Content ==> t' == t
  {
    match kind
    case GlobalDefinition => t.(globals := t.globals[Hash32(name) := body])
    case LocalDefinition => t.(locals := t.locals[Hash32(name) := body])
    case Content => t
  }

  datatype LineResult = Finished(kind: Kind, line: seq<char>, tables: Tables) | LineExhausted

  /** One expansion: the located call replaced by its replacement.  The
      bytes around the call are kept; an undefined name leaves nothing in
      its place and a constant call leaves its body. */
  function ExpandCall(line: seq<char>, call: Call, t: Tables): (r: seq<char>)
    requires call.begin + 6 <= call.end <= |line| && Triple(line, call.end - 3, '}')
    ensures call.begin + (|line| - call.end) <= |r|
    ensures r[..call.begin] == line[..call.begin]
    ensures r[|r| - (|line| - call.end)..] == line[call.end..]
    ensures Lookup(t, CallName(line, call)).None? ==> r == line[..call.begin] + line[call.end..]
    ensures Lookup(t, CallName(line, call)).Some? && line[NameEnd(line, call.begin + 3, call.end - 3)] == '}' ==>
      r == line[..call.begin] + Lookup(t, CallName(line, call)).value + line[call.end..]
  {
    Splice(line, call, Replacement(line, call, Lookup(t, CallName(line, call))))
  }

  /** The expansion loop of one line (lines 341-591), starting at scan
      offset `offset`.  Expansion need not terminate (`#+MACRO: a {{{a}}}`
      makes `{{{a}}}` expand to itself), so at most `fuel` calls are
      expanded before the result is LineExhausted. */
  function ProcessLine(line: seq<char>, offset: nat, t: Tables, fuel: nat): (r: LineResult)
    requires offset <= |line|
    ensures r.Finished? && r.kind == Content ==> r.tables == t
    ensures r.Finished? && r.kind != Content ==> Classify(r.line).Definition?
    ensures r.Finished? && r.kind == Content && TailClear(line, offset) ==>
      Classify(r.line) == Bare || NoCompleteCall(r.line, |r.line|)
    decreases fuel
  {
    match Classify(line)
    case Bare => Finished(Content, line, t)
    case Definition(kind, name, body) => Finished(kind, line, Store(t, kind, name, body))
    case Expandable =>
      match Locate(line, offset)
      case None =>
        TailClearNoCall(line, offset);
        Finished(Content, line, t)
      case Some(call) =>
        if fuel == 0 then LineExhausted
        else
          ExpandKeepsTailClear(line, offset, call, Replacement(line, call, Lookup(t, CallName(line, call))));
          ProcessLine(ExpandCall(line, call, t), call.offset, t, fuel - 1)
  }

  /** The tables the next line sees (lines 597-599): the local table is
      cleared unless this line was a local definition. */
  function NextTables(kind: Kind, t: Tables): (t': Tables)
    ensures t'.globals == t.globals
    ensures kind == LocalDefinition ==> t'.locals == t.locals
    ensures kind != LocalDefinition ==> t'.locals == map[]
  {
    if kind == LocalDefinition then t else t.(locals := map[])
  }

  /** What a line contributes to the output (lines 593-595): a content line
      after expansion, with its '\n'; a definition nothing. */
  function Written(kind: Kind, line: seq<char>): (w: seq<char>)
    ensures kind == Content ==> w == line + [LineEnd]
    ensures kind != Content ==> w == []
  {
    if kind == Content then line + [LineEnd] else []
  }

  datatype Outcome = Output(text: seq<char>) | Exhausted

  /** The main loop over the lines of the input. */
  function Run(lines: seq<seq<char>>, t: Tables, fuel: nat): (r: Outcome)
    ensures r.Output? ==> Terminated(r.text)
    decreases |lines|
  {
    if |lines| == 0 then Output([])
    else
      match ProcessLine(lines[0], 0, t, fuel)
      case LineExhausted => Exhausted
      case Finished(kind, line, t') =>
        match Run(lines[1..], NextTables(kind, t'), fuel)
        case Exhausted => Exhausted
        case Output(rest) => Output(Written(kind, line) + rest)
  }

  /** `gokuro()` over the whole input, which `main` has made end with '\n'
      (an empty input gives an empty output). */
  function Gokuro(input: seq<char>, fuel: nat): (r: Outcome)
    ensures r.Output? ==> Terminated(r.text)
    ensures |input| == 0 ==> r == Output([])
  {
    var text := if |input| == 0 || input[|input| - 1] == LineEnd then input else input + [LineEnd];
    Run(Lines(text), Tables(map[], map[]), fuel)
  }

  // ---------------------------------------------------------------------
  // Properties

  /** A content line with no complete call is written as it is. */
  lemma PlainLineWritten(line: seq<char>, rest: seq<seq<char>>, t: Tables, fuel: nat)
    requires At(line, 0) != '#' && NoCompleteCall(line, |line|)
    ensures ProcessLine(line, 0, t, fuel) == Finished(Content, line, t)
    ensures Run([line] + rest, t, fuel) ==
      match Run(rest, t.(locals := map[]), fuel)
      case Exhausted => Exhausted
      case Output(text) => Output(line + [LineEnd] + text)
  {
    assert ([line] + rest)[1..] == rest;
  }

  /** `#+MACRO: name body` stores body under the fingerprint of name, and
      the line is not written. */
  lemma GlobalDefinitionStored(name: seq<char>, body: seq<char>, t: Tables, fuel: nat)
    requires ' ' !in name && LineEnd !in name
    ensures var line := GlobalPrefix + name + [' '] + body;
      ProcessLine(line, 0, t, fuel) ==
        Finished(GlobalDefinition, line, t.(globals := t.globals[Hash32(name) := body]))
  {
    var line := GlobalPrefix + name + [' '] + body;
    assert line[..9] == GlobalPrefix;
    assert BeginWith(line, GlobalPrefix);
    assert At(line, 9) != LineEnd by {
      assert line[9..] == name + [' '] + body;
      if |name| > 0 {
        assert line[9] == name[0];
      }
    }
    DefinitionSplit(line, 9, name, body);
  }

  /** `#+MACRO_LOCAL: name body` stores body in the local table, and the
      line is not written. */
  lemma LocalDefinitionStored(name: seq<char>, body: seq<char>, t: Tables, fuel: nat)
    requires ' ' !in name
    ensures var line := LocalPrefix + name + [' '] + body;
      ProcessLine(line, 0, t, fuel) ==
        Finished(LocalDefinition, line, t.(locals := t.locals[Hash32(name) := body]))
  {
    var line := LocalPrefix + name + [' '] + body;
    assert line[..15] == LocalPrefix;
    assert BeginWith(line, LocalPrefix);
    assert line[7] == '_';
    assert !BeginWith(line, GlobalPrefix);
    DefinitionSplit(line, 15, name, body);
  }

  /** The split ParseDefinition makes of a line built from a name without
      a space and a body. */
  lemma DefinitionSplit(line: seq<char>, p: nat, name: seq<char>, body: seq<char>)
    requires p <= |line| && ' ' !in name && line == line[..p] + name + [' '] + body
    ensures ParseDefinition(line, p) == Some((name, body))
  {
    var sp := p + |name|;
    assert line[sp] == ' ';
    forall j | p <= j < sp
      ensures line[j] != ' '
    {
      assert line[j] == name[j - p];
    }
    FindFromIs(line, p, ' ', sp);
    assert line[p..sp] == name;
    assert line[sp + 1..] == body;
  }

  /** A line that is exactly `#+MACRO: ` defines nothing and is written
      unchanged, without expansion. */
  lemma BareMacroLineWritten(t: Tables, fuel: nat)
    ensures ProcessLine(GlobalPrefix, 0, t, fuel) == Finished(Content, GlobalPrefix, t)
  {
    assert BeginWith(GlobalPrefix, GlobalPrefix);
  }

  /** Classification is repeated after each expansion: a line whose
      expansion produces a definition is stored as that definition. */
  lemma ExpansionCanDefine(line: seq<char>, offset: nat, t: Tables, fuel: nat, call: Call)
    requires offset <= |line| && fuel > 0
    requires Classify(line) == Expandable && Locate(line, offset) == Some(call)
    requires Classify(ExpandCall(line, call, t)).Definition?
    ensures var d := Classify(ExpandCall(line, call, t));
      ProcessLine(line, offset, t, fuel) ==
        Finished(d.kind, ExpandCall(line, call, t), Store(t, d.kind, d.name, d.body))
  {
  }

  /** A content line, with or without calls, is written as its loop left
      it, and the next line is processed with the local table emptied
      (lines 593-599). */
  lemma ContentLineClearsLocals(line: seq<char>, rest: seq<seq<char>>, t: Tables, fuel: nat, r: seq<char>)
    requires ProcessLine(line, 0, t, fuel) == Finished(Content, r, t)
    ensures Run([line] + rest, t, fuel) ==
      match Run(rest, t.(locals := map[]), fuel)
      case Exhausted => Exhausted
      case Output(text) => Output(r + [LineEnd] + text)
  {
    assert ([line] + rest)[0] == line && ([line] + rest)[1..] == rest;
  }

  /** One round of the expansion loop on a line that holds a call. */
  lemma ExpansionRound(line: seq<char>, offset: nat, t: Tables, fuel: nat)
    requires offset <= |line| && Classify(line) == Expandable && Locate(line, offset).Some?
    ensures var call := Locate(line, offset).value;
      ProcessLine(line, offset, t, fuel) ==
        if fuel == 0 then LineExhausted else ProcessLine(ExpandCall(line, call, t), call.offset, t, fuel - 1)
  {
  }

  /** With name defined as `{{{name}}}`, the line `{{{name}}}` is one
      call whose expansion is the line itself. */
  lemma SelfExpandsToItself(name: seq<char>, line: seq<char>, t: Tables)
    requires '{' !in name && '}' !in name && '(' !in name && line == "{{{" + name + "}}}"
    requires Hash32(name) !in t.locals && Hash32(name) in t.globals && t.globals[Hash32(name)] == line
    ensures Classify(line) == Expandable && Locate(line, 0) == Some(Call(0, |line|, 0))
    ensures ExpandCall(line, Call(0, |line|, 0), t) == line
  {
    SelfCallShape(name, line);
  }

  /** The line `{{{name}}}` is one constant call whose replacement by a
      body b leaves just b. */
  lemma SelfCallShape(name: seq<char>, line: seq<char>)
    requires '{' !in name && '}' !in name && '(' !in name && line == "{{{" + name + "}}}"
    ensures Classify(line) == Expandable && Locate(line, 0) == Some(Call(0, |line|, 0))
    ensures CallName(line, Call(0, |line|, 0)) == name
    ensures forall b :: Splice(line, Call(0, |line|, 0), Replacement(line, Call(0, |line|, 0), Some(b))) == b
  {
    WholeLineCall(name);
    assert line == [] + "{{{" + name + "}}}" + [];
    ConstantCallExpands(line, [], name, [], Call(0, |line|, 0));
    assert At(line, 0) == '{';
  }

  /** A macro whose body is a call to itself, `#+MACRO: a {{{a}}}`, never
      finishes: every fuel runs out. */
  lemma SelfReferenceExhausts(name: seq<char>, t: Tables, fuel: nat)
    requires '{' !in name && '}' !in name && '(' !in name
    requires Hash32(name) !in t.locals && Hash32(name) in t.globals
    requires t.globals[Hash32(name)] == "{{{" + name + "}}}"
    ensures ProcessLine("{{{" + name + "}}}", 0, t, fuel) == LineExhausted
  {
    var line := "{{{" + name + "}}}";
    SelfRound(name, t, 0);
    forall k: nat
      ensures ProcessLine(line, 0, t, k + 1) == ProcessLine(line, 0, t, k)
    {
      SelfRound(name, t, k + 1);
    }
    NeverChanges(k => ProcessLine(line, 0, t, k), fuel);
  }

  /** One round on `{{{name}}}` with name bound to that line: without fuel
      the line is exhausted, otherwise the round only uses up one unit. */
  lemma SelfRound(name: seq<char>, t: Tables, fuel: nat)
    requires '{' !in name && '}' !in name && '(' !in name
    requires Hash32(name) !in t.locals && Hash32(name) in t.globals
    requires t.globals[Hash32(name)] == "{{{" + name + "}}}"
    ensures var line := "{{{" + name + "}}}";
      ProcessLine(line, 0, t, fuel) == if fuel == 0 then LineExhausted else ProcessLine(line, 0, t, fuel - 1)
  {
    var line := "{{{" + name + "}}}";
    SelfExpandsToItself(name, line, t);
    ExpansionRound(line, 0, t, fuel);
  }

  /** One expansion, then nothing left to do: the line is written as the
      expansion made it. */
  lemma OneCallThenDone(line: seq<char>, call: Call, t: Tables, fuel: nat, r: seq<char>)
    requires Classify(line) == Expandable && Locate(line, 0) == Some(call) && fuel >= 1
    requires ExpandCall(line, call, t) == r && call.offset <= |r|
    requires !Classify(r).Definition? && Locate(r, call.offset).None?
    ensures ProcessLine(line, 0, t, fuel) == Finished(Content, r, t)
  {
    ExpansionRound(line, 0, t, fuel);
  }

  /** A constant call `{{{name}}}` to a defined name, found first on the
      line, is replaced by the body; when the result holds no definition and
      no further call before the scan position, that is the written line
      (lines 488-502, 512-523). */
  lemma ConstantCallWritten(line: seq<char>, p: seq<char>, name: seq<char>, s: seq<char>,
                            t: Tables, fuel: nat, call: Call, b: seq<char>)
    requires line == p + "{{{" + name + "}}}" + s && '(' !in name && '}' !in name
    requires Classify(line) == Expandable && Locate(line, 0) == Some(call)
    requires call.begin == |p| && call.end == |p| + |name| + 6
    requires Lookup(t, name) == Some(b) && fuel >= 1
    requires !Classify(p + b + s).Definition? && Locate(p + b + s, call.offset).None?
    ensures ProcessLine(line, 0, t, fuel) == Finished(Content, p + b + s, t)
  {
    ConstantCallExpands(line, p, name, s, call);
    OneCallThenDone(line, call, t, fuel, p + b + s);
  }

  /** A call to a name neither table holds is deleted (lines 504-510 copy
      the text after the call straight over it). */
  lemma UndefinedCallDeleted(line: seq<char>, p: seq<char>, name: seq<char>, s: seq<char>,
                             t: Tables, fuel: nat, call: Call)
    requires line == p + "{{{" + name + "}}}" + s && '(' !in name && '}' !in name
    requires Classify(line) == Expandable && Locate(line, 0) == Some(call)
    requires call.begin == |p| && call.end == |p| + |name| + 6
    requires Lookup(t, name).None? && fuel >= 1
    requires !Classify(p + s).Definition? && Locate(p + s, call.offset).None?
    ensures ProcessLine(line, 0, t, fuel) == Finished(Content, p + s, t)
  {
    ConstantCallExpands(line, p, name, s, call);
    OneCallThenDone(line, call, t, fuel, p + s);
  }

  /** A call with arguments `{{{name(args)}}}`, args without a backslash,
      is replaced by the body with each `$k` read as the k-th
      comma-separated field of args (lines 525-590). */
  lemma ArgumentCallWritten(line: seq<char>, p: seq<char>, name: seq<char>, args: seq<char>, s: seq<char>,
                            t: Tables, fuel: nat, call: Call, b: seq<char>)
    requires line == p + "{{{" + name + "(" + args + ")}}}" + s
    requires '(' !in name && '}' !in name && '\\' !in args
    requires Classify(line) == Expandable && Locate(line, 0) == Some(call)
    requires call.begin == |p| && call.end == |p| + |name| + |args| + 8
    requires Lookup(t, name) == Some(b) && fuel >= 1
    requires var r := p + Substitute(b, FieldArguments(args)) + s;
      !Classify(r).Definition? && Locate(r, call.offset).None?
    ensures ProcessLine(line, 0, t, fuel) == Finished(Content, p + Substitute(b, FieldArguments(args)) + s, t)
  {
    ArgumentCallExpands(line, p, name, args, s, call, b);
    OneCallThenDone(line, call, t, fuel, p + Substitute(b, FieldArguments(args)) + s);
  }

  /** In the input, the line `p{{{name}}}s` of the constant-call case is
      written as p, b, s, and the following lines see no local definition
      (lines 593-599). */
  lemma ConstantCallLineClearsLocals(line: seq<char>, p: seq<char>, name: seq<char>, s: seq<char>,
                                     rest: seq<seq<char>>, t: Tables, fuel: nat, call: Call, b: seq<char>)
    requires line == p + "{{{" + name + "}}}" + s && '(' !in name && '}' !in name
    requires Classify(line) == Expandable && Locate(line, 0) == Some(call)
    requires call.begin == |p| && call.end == |p| + |name| + 6
    requires Lookup(t, name) == Some(b) && fuel >= 1
    requires !Classify(p + b + s).Definition? && Locate(p + b + s, call.offset).None?
    ensures Run([line] + rest, t, fuel) ==
      match Run(rest, t.(locals := map[]), fuel)
      case Exhausted => Exhausted
      case Output(text) => Output(p + b + s + [LineEnd] + text)
  {
    ConstantCallWritten(line, p, name, s, t, fuel, call, b);
    ContentLineClearsLocals(line, rest, t, fuel, p + b + s);
  }
}

=== FILE: hashing.dfy ===
/**
 The name fingerprints of the three C revisions.  None of them is checked
 against the name after a hit, so two names with the same fingerprint are
 the same macro to every revision.
 */
module Hashing {
  import opened Text

  const U32: nat := 0x1_0000_0000
  const U64: nat := 0x1_0000_0000_0000_0000

  /** Seed of `hash_32` in gokuro.c. */
  const Seed32: nat := 2147483647
  /** Seed of `hash` in main.c. */
  const Seed64: nat := 1099511628211

  /** The multiplicative rolling fold `h := h * 33 + byte`, reduced modulo the
      word size after every step, over the bytes of s from the left. */
  function Rolling(seed: nat, modulus: nat, s: seq<char>): (h: nat)
    requires modulus > 0
    ensures |s| > 0 ==> h < modulus
    decreases |s|
  {
    if |s| == 0 then seed
    else (Rolling(seed, modulus, s[..|s|-1]) * 33 + Byte(s[|s|-1])) % modulus
  }

  /** `hash_32` of gokuro.c: 32-bit unsigned wrap-around. */
  function Hash32(s: seq<char>): (h: nat)
    ensures h < U32
  {
    Rolling(Seed32, U32, s)
  }

  /** `hash` of main.c: 64-bit unsigned wrap-around. */
  function Hash64(s: seq<char>): (h: nat)
    ensures h < U64
  {
    Rolling(Seed64, U64, s)
  }

  /** The byte loop of `hash_32` / `hash` over data[begin..end). */
  method RollingLoop(data: seq<char>, begin: nat, end: nat, seed: nat, modulus: nat) returns (h: nat)
    requires begin <= end <= |data|
    requires 0 < seed < modulus
    ensures h == Rolling(seed, modulus, data[begin..end])
    ensures h < modulus
  {
    h := seed;
    var c := begin;
    while c < end
      invariant begin <= c <= end
      invariant h == Rolling(seed, modulus, data[begin..c])
      invariant h < modulus
    {
      assert data[begin..c+1][..c-begin] == data[begin..c];
      h := (h * 33 + Byte(data[c])) % modulus;
      c := c + 1;
    }
  }

  /** Folding a concatenation is folding the second part from the
      fingerprint of the first: the fold is a left fold. */
  lemma {:induction false} RollingAppend(seed: nat, modulus: nat, a: seq<char>, b: seq<char>)
    requires modulus > 0
    ensures Rolling(seed, modulus, a + b) == Rolling(Rolling(seed, modulus, a), modulus, b)
    decreases |b|
  {
    if |b| == 0 {
      assert a + b == a;
    } else {
      var b' := b[..|b|-1];
      assert (a + b)[..|a + b| - 1] == a + b';
      assert (a + b)[|a + b| - 1] == b[|b| - 1];
      RollingAppend(seed, modulus, a, b');
    }
  }

  /** The remainder is the unique t in [0, m) with x == q * m + t. */
  lemma ModUnique(x: int, q: int, m: int, t: int)
    requires m > 0 && 0 <= t < m && x == q * m + t
    ensures x % m == t
  {
    var d := x / m - q;
    assert d * m == t - x % m;
  }

  lemma ModStep(x: nat, m: nat, y: nat)
    requires m > 0
    ensures ((x % m) * 33 + y) % m == (x * 33 + y) % m
  {
    var q := x / m;
    var z := (x % m) * 33 + y;
    assert x * 33 + y == (q * 33) * m + z;
    ModUnique(z, z / m, m, z % m);
    ModUnique(x * 33 + y, q * 33 + z / m, m, z % m);
  }

  /** A 32-bit collision: after any common prefix, "aB" and "b!" have the
      same `hash_32`, since 'a'*33 + 'B' == 'b'*33 + '!'. */
  lemma {:induction false} Hash32Collision(p: seq<char>)
    ensures Hash32(p + "aB") == Hash32(p + "b!")
  {
    var h := Hash32(p);
    RollingAppend(Seed32, U32, p, "aB");
    RollingAppend(Seed32, U32, p, "b!");
    assert "aB"[..1] == "a" && "b!"[..1] == "b";
    assert "a"[..0] == [] && "b"[..0] == [];
    ModStep(h * 33 + 97, U32, 66);
    ModStep(h * 33 + 98, U32, 33);
  }
}

=== FILE: hashmap.dfy ===
/**
 The open-addressing table of gokuro.c (lines 47-175) and hash_map.h: two
 parallel arrays of 32-bit keys and items, linear probing from
 `key % capacity`, UINT32_MAX marking an empty slot, and a doubling rehash
 once the table is half full.

 The arrays are modelled as sequences and each operation returns the new
 table.  `View` is the key -> item map the slots stand for; every operation
 is specified against it.
 */
module HashMap {
  import Hashing

  const U32: nat := Hashing.U32
  /** UINT32_MAX: the key (and item) of an empty slot, and the miss result of `Get`. */
  const EMPTY: nat := 0xFFFF_FFFF

  datatype Table = Table(keys: seq<nat>, items: seq<nat>, size: nat)

  /** The slot a key's probe sequence starts at: `key % capacity`. */
  function Home(k: nat, cap: nat): (h: nat)
    requires cap > 0
    ensures h < cap
  {
    k % cap
  }

  /** The slot reached after d probe steps from slot h. */
  function Wrap(h: nat, d: nat, cap: nat): (i: nat)
    requires h < cap && d <= cap
    ensures i < cap
  {
    if h + d < cap then h + d else h + d - cap
  }

  /** The number of probe steps from slot h to slot j. */
  function Dist(h: nat, j: nat, cap: nat): (d: nat)
    requires h < cap && j < cap
    ensures d < cap && Wrap(h, d, cap) == j
  {
    if h <= j then j - h else j + cap - h
  }

  lemma DistWrap(h: nat, d: nat, cap: nat)
    requires h < cap && d < cap
    ensures Dist(h, Wrap(h, d, cap), cap) == d
  {
  }

  lemma SmallMod(x: int, m: int)
    requires 0 <= x < m
    ensures x % m == x
  {
    Hashing.ModUnique(x, 0, m, x);
  }

  /** `idx = (idx + 1) % capacity` is one more probe step. */
  lemma NextIsWrap(h: nat, d: nat, cap: nat)
    requires h < cap && d < cap
    ensures (Wrap(h, d, cap) + 1) % cap == Wrap(h, d + 1, cap)
  {
    var i := Wrap(h, d, cap) + 1;
    if i < cap {
      SmallMod(i, cap);
    } else {
      Hashing.ModUnique(i, 1, cap, 0);
    }
  }

  ghost predicate Words(keys: seq<nat>, items: seq<nat>)
  {
    && |keys| == |items|
    && (forall i :: 0 <= i < |keys| ==> keys[i] < U32)
    && (forall i :: 0 <= i < |items| ==> items[i] < U32)
  }

  /** Every empty slot also carries UINT32_MAX as its item. */
  ghost predicate EmptyItems(keys: seq<nat>, items: seq<nat>)
    requires |keys| == |items|
  {
    forall i :: 0 <= i < |keys| && keys[i] == EMPTY ==> items[i] == EMPTY
  }

  /** No key is stored in two slots. */
  ghost predicate Distinct(keys: seq<nat>)
  {
    forall i, j :: 0 <= i < |keys| && 0 <= j < |keys| && i != j && keys[i] != EMPTY ==> keys[i] != keys[j]
  }

  /** The linear-probing invariant: between a stored key's home slot and the
      slot holding it, no slot is empty. */
  ghost predicate Reachable(keys: seq<nat>)
    requires |keys| > 0
  {
    forall j, d :: 0 <= j < |keys| && keys[j] != EMPTY && 0 <= d < Dist(Home(keys[j], |keys|), j, |keys|) ==>
      keys[Wrap(Home(keys[j], |keys|), d, |keys|)] != EMPTY
  }

  ghost predicate Slots(keys: seq<nat>, items: seq<nat>)
  {
    && |keys| > 0
    && Words(keys, items)
    && EmptyItems(keys, items)
    && Distinct(keys)
    && Reachable(keys)
  }

  /** The number of occupied slots. */
  function Occupied(keys: seq<nat>): (n: nat)
    ensures n <= |keys|
    decreases |keys|
  {
    if |keys| == 0 then 0
    else Occupied(keys[..|keys|-1]) + (if keys[|keys|-1] == EMPTY then 0 else 1)
  }

  /** The physical invariant, with `size` counting the occupied slots. */
  ghost predicate Inv(t: Table)
  {
    Slots(t.keys, t.items) && t.size == Occupied(t.keys)
  }

  /** A table between operations: at least one slot is empty. */
  ghost predicate Valid(t: Table)
  {
    Inv(t) && t.size < |t.keys|
  }

  /** The key -> item map held by slots [0, n). */
  ghost function ViewOf(keys: seq<nat>, items: seq<nat>, n: nat): map<nat, nat>
    requires n <= |keys| == |items|
  {
    if n == 0 then map[]
    else if keys[n-1] == EMPTY then ViewOf(keys, items, n - 1)
    else ViewOf(keys, items, n - 1)[keys[n-1] := items[n-1]]
  }

  /** The key -> item map the table stands for. */
  ghost function View(t: Table): map<nat, nat>
    requires |t.keys| == |t.items|
  {
    ViewOf(t.keys, t.items, |t.keys|)
  }

  // ---------------------------------------------------------------------
  // Facts about the view and the occupancy count

  lemma {:induction false} ViewDomain(keys: seq<nat>, items: seq<nat>, n: nat, x: nat)
    requires n <= |keys| == |items|
    ensures x in ViewOf(keys, items, n) <==> x != EMPTY && x in keys[..n]
    decreases n
  {
    if n > 0 {
      ViewDomain(keys, items, n - 1, x);
      assert keys[..n] == keys[..n-1] + [keys[n-1]];
    }
  }

  lemma {:induction false} ViewValue(keys: seq<nat>, items: seq<nat>, n: nat, i: nat)
    requires n <= |keys| == |items|
    requires Distinct(keys)
    requires i < n && keys[i] != EMPTY
    ensures keys[i] in ViewOf(keys, items, n) && ViewOf(keys, items, n)[keys[i]] == items[i]
    decreases n
  {
    if i < n - 1 {
      ViewValue(keys, items, n - 1, i);
    }
  }

  /** A map is the view of the slots when it holds exactly the stored keys,
      each with the item of its slot. */
  lemma ViewIs(keys: seq<nat>, items: seq<nat>, m: map<nat, nat>)
    requires |keys| == |items| && Distinct(keys)
    requires forall x :: x in m <==> x != EMPTY && x in keys
    requires forall i :: 0 <= i < |keys| && keys[i] != EMPTY ==> m[keys[i]] == items[i]
    ensures ViewOf(keys, items, |keys|) == m
  {
    var v := ViewOf(keys, items, |keys|);
    forall x
      ensures x in v <==> x in m
    {
      ViewDomain(keys, items, |keys|, x);
      assert keys[..|keys|] == keys;
    }
    forall x | x in m
      ensures v[x] == m[x]
    {
      var i :| 0 <= i < |keys| && keys[i] == x;
      ViewValue(keys, items, |keys|, i);
    }
  }

  lemma {:induction false} OccupiedUpdate(keys: seq<nat>, s: nat, k: nat)
    requires s < |keys| && keys[s] == EMPTY && k != EMPTY
    ensures Occupied(keys[s := k]) == Occupied(keys) + 1
    decreases |keys|
  {
    var keys' := keys[s := k];
    var n := |keys|;
    if s < n - 1 {
      assert keys'[..n-1] == keys[..n-1][s := k];
      OccupiedUpdate(keys[..n-1], s, k);
    } else {
      assert keys'[..n-1] == keys[..n-1];
    }
  }

  lemma {:induction false} OccupiedFull(keys: seq<nat>)
    requires Occupied(keys) == |keys|
    ensures forall i :: 0 <= i < |keys| ==> keys[i] != EMPTY
    decreases |keys|
  {
    if |keys| > 0 {
      OccupiedFull(keys[..|keys|-1]);
      assert forall i :: 0 <= i < |keys| - 1 ==> keys[..|keys|-1][i] == keys[i];
    }
  }

  lemma {:induction false} OccupiedEmpty(keys: seq<nat>)
    requires Occupied(keys) == 0
    ensures forall i :: 0 <= i < |keys| ==> keys[i] == EMPTY
    decreases |keys|
  {
    if |keys| > 0 {
      OccupiedEmpty(keys[..|keys|-1]);
      assert forall i :: 0 <= i < |keys| - 1 ==> keys[..|keys|-1][i] == keys[i];
    }
  }

  lemma {:induction false} OccupiedAllEmpty(keys: seq<nat>)
    requires forall i :: 0 <= i < |keys| ==> keys[i] == EMPTY
    ensures Occupied(keys) == 0
    decreases |keys|
  {
    if |keys| > 0 {
      OccupiedAllEmpty(keys[..|keys|-1]);
    }
  }

  /** With fewer occupied slots than slots, some slot is empty. */
  lemma EmptySlot(keys: seq<nat>) returns (i: nat)
    requires Occupied(keys) < |keys|
    ensures i < |keys| && keys[i] == EMPTY
  {
    if forall j :: 0 <= j < |keys| ==> keys[j] != EMPTY {
      OccupiedNone(keys);
      assert false;
    }
    i :| 0 <= i < |keys| && keys[i] == EMPTY;
  }

  lemma {:induction false} OccupiedNone(keys: seq<nat>)
    requires forall j :: 0 <= j < |keys| ==> keys[j] != EMPTY
    ensures Occupied(keys) == |keys|
    decreases |keys|
  {
    if |keys| > 0 {
      OccupiedNone(keys[..|keys|-1]);
    }
  }

  /** A probe that has passed d + 1 occupied slots while an empty slot
      exists has not yet gone round the whole table. */
  lemma ProbeBound(keys: seq<nat>, h: nat, d: nat, free: nat)
    requires h < |keys| && d < |keys| && free < |keys| && keys[free] == EMPTY
    requires forall e :: 0 <= e <= d ==> keys[Wrap(h, e, |keys|)] != EMPTY
    ensures d + 1 < |keys|
  {
    var df := Dist(h, free, |keys|);
    assert keys[Wrap(h, df, |keys|)] == EMPTY;
  }

  // ---------------------------------------------------------------------
  // The two slot writes `put` performs

  /** A probe for k that passed d occupied slots without meeting k and then
      met an empty slot proves k is stored nowhere. */
  lemma ProbeMiss(keys: seq<nat>, items: seq<nat>, k: nat, d: nat)
    requires Slots(keys, items) && k != EMPTY
    requires d < |keys|
    requires keys[Wrap(Home(k, |keys|), d, |keys|)] == EMPTY
    requires forall e :: 0 <= e < d ==> keys[Wrap(Home(k, |keys|), e, |keys|)] != k
    ensures k !in keys
  {
    var cap := |keys|;
    var h := Home(k, cap);
    forall j | 0 <= j < cap
      ensures keys[j] != k
    {
      var dj := Dist(h, j, cap);
      var hj := Home(keys[j], cap);
      if dj < d {
        assert keys[Wrap(h, dj, cap)] != k;
      }
    }
  }

  lemma ReachableInsert(keys: seq<nat>, s: nat, k: nat, d: nat)
    requires |keys| > 0 && Reachable(keys) && k != EMPTY
    requires d < |keys| && s == Wrap(Home(k, |keys|), d, |keys|) && keys[s] == EMPTY
    requires forall e :: 0 <= e < d ==> keys[Wrap(Home(k, |keys|), e, |keys|)] != EMPTY
    ensures Reachable(keys[s := k])
  {
    var cap := |keys|;
    var keys' := keys[s := k];
    DistWrap(Home(k, cap), d, cap);
    forall j, e | 0 <= j < cap && keys'[j] != EMPTY && 0 <= e < Dist(Home(keys'[j], cap), j, cap)
      ensures keys'[Wrap(Home(keys'[j], cap), e, cap)] != EMPTY
    {
      if j != s {
        assert keys[Wrap(Home(keys[j], cap), e, cap)] != EMPTY;
      }
    }
  }

  lemma ViewInsert(keys: seq<nat>, items: seq<nat>, s: nat, k: nat, v: nat)
    requires |keys| == |items| && Distinct(keys)
    requires s < |keys| && keys[s] == EMPTY && k != EMPTY && k !in keys
    ensures Distinct(keys[s := k])
    ensures ViewOf(keys[s := k], items[s := v], |keys|) == ViewOf(keys, items, |keys|)[k := v]
  {
    var cap := |keys|;
    var keys', items' := keys[s := k], items[s := v];
    var m := ViewOf(keys, items, cap)[k := v];
    forall x
      ensures x in m <==> x != EMPTY && x in keys'
    {
      ViewDomain(keys, items, cap, x);
      assert keys[..cap] == keys;
      assert keys'[s] == k;
      if x != k && x != EMPTY && x in keys {
        var i :| 0 <= i < cap && keys[i] == x;
        assert keys'[i] == x;
      }
      if x != k && x in keys' {
        var i :| 0 <= i < cap && keys'[i] == x;
        assert keys[i] == x;
      }
    }
    forall i | 0 <= i < cap && keys'[i] != EMPTY
      ensures m[keys'[i]] == items'[i]
    {
      if i != s {
        ViewValue(keys, items, cap, i);
      }
    }
    ViewIs(keys', items', m);
  }

  /** Storing a new key in the empty slot its probe reached keeps the
      invariant and adds exactly that key to the view. */
  lemma InsertAtEmpty(keys: seq<nat>, items: seq<nat>, s: nat, k: nat, v: nat, d: nat)
    requires Slots(keys, items)
    requires k != EMPTY && k < U32 && v < U32 && k !in keys
    requires d < |keys| && s == Wrap(Home(k, |keys|), d, |keys|) && keys[s] == EMPTY
    requires forall e :: 0 <= e < d ==> keys[Wrap(Home(k, |keys|), e, |keys|)] != EMPTY
    ensures Slots(keys[s := k], items[s := v])
    ensures ViewOf(keys[s := k], items[s := v], |keys|) == ViewOf(keys, items, |keys|)[k := v]
    ensures Occupied(keys[s := k]) == Occupied(keys) + 1
  {
    ReachableInsert(keys, s, k, d);
    ViewInsert(keys, items, s, k, v);
    OccupiedUpdate(keys, s, k);
  }

  /** Overwriting the item of an occupied slot keeps the invariant and
      changes only that key's item in the view. */
  lemma OverwriteAt(keys: seq<nat>, items: seq<nat>, s: nat, v: nat)
    requires Slots(keys, items) && v < U32
    requires s < |keys| && keys[s] != EMPTY
    ensures Slots(keys, items[s := v])
    ensures ViewOf(keys, items[s := v], |keys|) == ViewOf(keys, items, |keys|)[keys[s] := v]
  {
    var cap := |keys|;
    var items' := items[s := v];
    var m := ViewOf(keys, items, cap)[keys[s] := v];
    forall x
      ensures x in m <==> x != EMPTY && x in keys
    {
      ViewDomain(keys, items, cap, x);
      assert keys[..cap] == keys;
    }
    forall i | 0 <= i < cap && keys[i] != EMPTY
      ensures m[keys[i]] == items'[i]
    {
      if i != s {
        ViewValue(keys, items, cap, i);
      }
    }
    ViewIs(keys, items', m);
  }

  // ---------------------------------------------------------------------
  // The operations

  /** `hash_map_init`: every slot empty, size 0. */
  method Init(initialCapacity: nat) returns (t: Table)
    requires initialCapacity >= 1
    ensures Valid(t)
    ensures t.size == 0 && |t.keys| == initialCapacity
    ensures View(t) == map[]
  {
    var keys: seq<nat> := [];
    var items: seq<nat> := [];
    while |keys| < initialCapacity
      invariant |keys| == |items| <= initialCapacity
      invariant forall i :: 0 <= i < |keys| ==> keys[i] == EMPTY && items[i] == EMPTY
    {
      keys := keys + [EMPTY];
      items := items + [EMPTY];
    }
    t := Table(keys, items, 0);
    OccupiedAllEmpty(keys);
    ViewIs(keys, items, map[]);
  }

  /** `hash_map_get`: the item stored under key, or UINT32_MAX when the
      probe reaches an empty slot first. */
  method Get(t: Table, key: nat) returns (item: nat)
    requires Valid(t) && key < U32
    ensures key in View(t) ==> item == View(t)[key]
    ensures key !in View(t) ==> item == EMPTY
  {
    var cap := |t.keys|;
    var h := Home(key, cap);
    var idx := key % cap;
    ghost var d: nat := 0;
    ghost var free := EmptySlot(t.keys);
    while true
      invariant d < cap && idx == Wrap(h, d, cap)
      invariant forall e :: 0 <= e < d ==> t.keys[Wrap(h, e, cap)] != key && t.keys[Wrap(h, e, cap)] != EMPTY
      decreases cap - d
    {
      if t.keys[idx] == key {
        ViewDomain(t.keys, t.items, cap, key);
        assert t.keys[..cap] == t.keys;
        if key != EMPTY {
          ViewValue(t.keys, t.items, cap, idx);
        }
        return t.items[idx];
      }
      if t.keys[idx] == EMPTY {
        ProbeMiss(t.keys, t.items, key, d);
        ViewDomain(t.keys, t.items, cap, key);
        assert t.keys[..cap] == t.keys;
        return EMPTY;
      }
      NextIsWrap(h, d, cap);
      ProbeBound(t.keys, h, d, free);
      idx := (idx + 1) % cap;
      d := d + 1;
    }
  }

  /** One step of the rehash: the probe for k in the new arrays runs to the
      first empty slot, which then receives the pair. */
  method Reinsert(keys: seq<nat>, items: seq<nat>, k: nat, v: nat) returns (keys': seq<nat>, items': seq<nat>)
    requires Slots(keys, items) && Occupied(keys) < |keys|
    requires k != EMPTY && k < U32 && v < U32 && k !in keys
    ensures |keys'| == |keys| && Slots(keys', items')
    ensures ViewOf(keys', items', |keys'|) == ViewOf(keys, items, |keys|)[k := v]
    ensures Occupied(keys') == Occupied(keys) + 1
  {
    var cap := |keys|;
    var free := EmptySlot(keys);
    var h := Home(k, cap);
    var idx := k % cap;
    ghost var d: nat := 0;
    while keys[idx] != EMPTY
      invariant d < cap && idx == Wrap(h, d, cap)
      invariant forall e :: 0 <= e < d ==> keys[Wrap(h, e, cap)] != EMPTY
      decreases cap - d
    {
      NextIsWrap(h, d, cap);
      ProbeBound(keys, h, d, free);
      idx := (idx + 1) % cap;
      d := d + 1;
    }
    InsertAtEmpty(keys, items, idx, k, v, d);
    keys' := keys[idx := k];
    items' := items[idx := v];
  }

  /** A stored key of the old arrays is not yet among the moved pairs. */
  lemma NotYetMoved(keyBuf: seq<nat>, itemBuf: seq<nat>, n: nat, keys: seq<nat>, items: seq<nat>)
    requires n < |keyBuf| == |itemBuf| && Distinct(keyBuf) && keyBuf[n] != EMPTY
    requires |keys| == |items|
    requires ViewOf(keys, items, |keys|) == ViewOf(keyBuf, itemBuf, n)
    ensures keyBuf[n] !in keys
  {
    var k := keyBuf[n];
    ViewDomain(keyBuf, itemBuf, n, k);
    forall i | 0 <= i < n
      ensures keyBuf[..n][i] != k
    {
      assert keyBuf[i] != keyBuf[n];
    }
    ViewDomain(keys, items, |keys|, k);
    assert keys[..|keys|] == keys;
  }

  /** The rehash of `hash_map_put`: the arrays grow to twice the capacity
      and every stored pair is re-inserted by probing the new arrays. */
  method Rehash(t: Table) returns (t': Table)
    requires Inv(t)
    ensures Inv(t') && |t'.keys| == 2 * |t.keys| && t'.size == t.size
    ensures View(t') == View(t)
  {
    var oldCapacity := |t.keys|;
    var newCapacity := 2 * oldCapacity;
    var keyBuf, itemBuf := t.keys, t.items;
    var keys: seq<nat> := seq(newCapacity, _ => EMPTY);
    var items: seq<nat> := seq(newCapacity, _ => EMPTY);
    OccupiedAllEmpty(keys);
    ViewIs(keys, items, map[]);
    assert Slots(keys, items);
    var oldIdx := 0;
    while oldIdx < oldCapacity
      invariant oldIdx <= oldCapacity
      invariant |keys| == newCapacity && Slots(keys, items)
      invariant ViewOf(keys, items, newCapacity) == ViewOf(keyBuf, itemBuf, oldIdx)
      invariant Occupied(keys) == Occupied(keyBuf[..oldIdx])
    {
      assert keyBuf[..oldIdx+1][..oldIdx] == keyBuf[..oldIdx];
      if keyBuf[oldIdx] != EMPTY {
        NotYetMoved(keyBuf, itemBuf, oldIdx, keys, items);
        keys, items := Reinsert(keys, items, keyBuf[oldIdx], itemBuf[oldIdx]);
      }
      oldIdx := oldIdx + 1;
    }
    assert keyBuf[..oldCapacity] == keyBuf;
    t' := Table(keys, items, t.size);
  }

  /** The probe loop of `hash_map_put`: the first slot, from the key's home,
      that is empty or holds the key. */
  method ProbeForPut(t: Table, key: nat) returns (idx: nat, ghost d: nat)
    requires Valid(t)
    ensures d < |t.keys| && idx == Wrap(Home(key, |t.keys|), d, |t.keys|)
    ensures t.keys[idx] == EMPTY || t.keys[idx] == key
    ensures forall e :: 0 <= e < d ==> t.keys[Wrap(Home(key, |t.keys|), e, |t.keys|)] != key
    ensures forall e :: 0 <= e < d ==> t.keys[Wrap(Home(key, |t.keys|), e, |t.keys|)] != EMPTY
  {
    var cap := |t.keys|;
    var h := Home(key, cap);
    idx := key % cap;
    d := 0;
    ghost var free := EmptySlot(t.keys);
    while true
      invariant d < cap && idx == Wrap(h, d, cap)
      invariant forall e :: 0 <= e < d ==> t.keys[Wrap(h, e, cap)] != key && t.keys[Wrap(h, e, cap)] != EMPTY
      decreases cap - d
    {
      if t.keys[idx] == EMPTY {
        break;
      }
      if t.keys[idx] == key {
        break;
      }
      NextIsWrap(h, d, cap);
      ProbeBound(t.keys, h, d, free);
      idx := (idx + 1) % cap;
      d := d + 1;
    }
  }

  /** `hash_map_put`: probe to the key's slot or to the first empty slot,
      store the pair, and rehash into twice the capacity once
      `2 * size >= capacity`. */
  method Put(t: Table, key: nat, item: nat) returns (t': Table)
    requires Valid(t)
    requires key != EMPTY && key < U32 && item < U32
    ensures Valid(t')
    ensures View(t') == View(t)[key := item]
    ensures t'.size == if key in View(t) then t.size else t.size + 1
    ensures |t'.keys| == if 2 * t'.size < |t.keys| then |t.keys| else 2 * |t.keys|
    ensures |t.keys| >= 2 && 2 * t.size < |t.keys| ==> 2 * t'.size < |t'.keys|
  {
    var cap := |t.keys|;
    var idx, d := ProbeForPut(t, key);
    var size := t.size;
    ViewDomain(t.keys, t.items, cap, key);
    assert t.keys[..cap] == t.keys;
    if t.keys[idx] == EMPTY {
      size := size + 1;
      ProbeMiss(t.keys, t.items, key, d);
      InsertAtEmpty(t.keys, t.items, idx, key, item, d);
    } else {
      OverwriteAt(t.keys, t.items, idx, item);
      assert t.keys[idx := key] == t.keys;
    }
    var keys := t.keys[idx := key];
    var items := t.items[idx := item];
    var t1 := Table(keys, items, size);
    if 2 * size < cap {
      return t1;
    }
    t' := Rehash(t1);
  }

  /** `hash_map_clear`: a no-op on an empty table; otherwise every slot is
      emptied and size drops to 0. */
  method Clear(t: Table) returns (t': Table)
    requires Valid(t)
    ensures Valid(t') && t'.size == 0 && |t'.keys| == |t.keys|
    ensures View(t') == map[]
    ensures t.size == 0 ==> t' == t
  {
    if t.size == 0 {
      OccupiedEmpty(t.keys);
      ViewIs(t.keys, t.items, map[]);
      return t;
    }
    var cap := |t.keys|;
    var keys, items := t.keys, t.items;
    var i := 0;
    while i < cap
      invariant i <= cap && |keys| == |items| == cap
      invariant forall j :: 0 <= j < i ==> keys[j] == EMPTY && items[j] == EMPTY
    {
      keys := keys[i := EMPTY];
      items := items[i := EMPTY];
      i := i + 1;
    }
    OccupiedAllEmpty(keys);
    ViewIs(keys, items, map[]);
    t' := Table(keys, items, 0);
  }
}

=== FILE: js_port.dfy ===
/**
 The JavaScript revision, gokuro.js.  It follows the Go revision closely;
 the differences are what this module is about:

 - a name in neither table expands to nothing and is treated as a call
   without arguments, while a name bound to the empty body is defined;
 - `$` in argument text is escaped as `@$@`, and after a call with
   arguments the escape is undone on the whole line, not only on the
   inserted text;
 - `String.prototype.replace` with a string pattern reads `$$`, `$&`,
   `` $` `` and `$'` in the replacement text;
 - the definition expressions use a lazy `(.*?)` for the name, so the
   name may be empty and ends at the first space, and `.` stops at every
   JavaScript line terminator.

 As in GoPort, the backward scan and the call expression (lines 73-88)
 are the parameter `find`.
 */
module JsPort {
  import opened Text
  import opened Options
  import opened Replacing
  import opened Ports
  import GoPort
  import Gokuro

  // ---------------------------------------------------------------------
  // Replacement text

  /** The bytes that make `$` special in a replacement text. */
  predicate Special(c: char)
  {
    c == '$' || c == '&' || c == '`' || c == '\''
  }

  /** The GetSubstitution operation of ECMAScript for a pattern without
      capture groups: `$$` is '$', `$&` the matched text, `` $` `` the text
      before the match and `$'` the text after it; any other '$' stands for
      itself. */
  function Substitution(rep: seq<char>, matched: seq<char>, before: seq<char>, after: seq<char>): (r: seq<char>)
    decreases |rep|
  {
    if |rep| == 0 then []
    else if rep[0] == '$' && |rep| >= 2 && Special(rep[1]) then
      var piece := if rep[1] == '$' then "$" else if rep[1] == '&' then matched else if rep[1] == '`' then before else after;
      piece + Substitution(rep[2..], matched, before, after)
    else
      [rep[0]] + Substitution(rep[1..], matched, before, after)
  }

  /** A replacement text in which no '$' is special. */
  ghost predicate Plain(rep: seq<char>)
  {
    forall i :: 0 <= i < |rep| - 1 && rep[i] == '$' ==> !Special(rep[i + 1])
  }

  /** A replacement text in which no '$' is special is inserted as it is. */
  lemma {:induction false} PlainSubstitution(rep: seq<char>, matched: seq<char>, before: seq<char>, after: seq<char>)
    requires Plain(rep)
    ensures Substitution(rep, matched, before, after) == rep
    decreases |rep|
  {
    if |rep| > 0 {
      assert Plain(rep[1..]) by {
        forall i | 0 <= i < |rep[1..]| - 1 && rep[1..][i] == '$'
          ensures !Special(rep[1..][i + 1])
        {
          assert rep[i + 1] == '$';
        }
      }
      PlainSubstitution(rep[1..], matched, before, after);
      assert rep == [rep[0]] + rep[1..];
    }
  }

  /** `$&` is the matched text, `$$` a single '$'. */
  lemma MatchedAndDollar(matched: seq<char>, before: seq<char>, after: seq<char>)
    ensures Substitution("$&", matched, before, after) == matched
    ensures Substitution("$$", matched, before, after) == "$"
  {
    assert "$&"[2..] == [] && "$$"[2..] == [];
  }

  lemma QuotedPlain(s: seq<char>)
    requires DollarsQuoted(s)
    ensures Plain(s)
  {
  }

  /** `s.replace(pat, rep)` with a string pattern: the first occurrence is
      replaced by the substituted replacement text. */
  function Replace(s: seq<char>, pat: seq<char>, rep: seq<char>): (r: seq<char>)
    requires |pat| > 0
  {
    var k := FirstOccurrence(s, pat, 0);
    if k == |s| then s
    else s[..k] + Substitution(rep, pat, s[..k], s[k + |pat|..]) + s[k + |pat|..]
  }

  /** With a plain replacement text, `replace` is literal replacement of
      the first occurrence. */
  lemma PlainReplace(s: seq<char>, pat: seq<char>, rep: seq<char>)
    requires |pat| > 0 && Plain(rep)
    ensures Replace(s, pat, rep) == ReplaceFirst(s, pat, rep)
  {
    var k := FirstOccurrence(s, pat, 0);
    if k < |s| {
      PlainSubstitution(rep, pat, s[..k], s[k + |pat|..]);
      assert Replace(s, pat, rep) == s[..k] + rep + s[k + |pat|..];
      assert ReplaceFirst(s, pat, rep) == s[..k] + rep + s[k + |pat|..];
    }
  }

  /** A pattern at the front of the text is the one replaced. */
  lemma ReplaceAtFront(s: seq<char>, pat: seq<char>, rep: seq<char>)
    requires |pat| > 0 && pat <= s
    ensures Replace(s, pat, rep) == Substitution(rep, pat, [], s[|pat|..]) + s[|pat|..]
  {
    PrefixOccurs(s, pat);
    FirstOccurrenceIs(s, pat, 0, 0);
    ReplaceAt(s, pat, rep, 0);
    var tail := s[|pat|..];
    assert s[..0] == [];
    assert Substitution(rep, pat, s[..0], tail) == Substitution(rep, pat, [], tail);
    assert [] + Substitution(rep, pat, [], tail) + tail == Substitution(rep, pat, [], tail) + tail;
  }

  // ---------------------------------------------------------------------
  // Escaping '$' in argument text (lines 27-35)

  const EscapedDollar: seq<char> := "@$@"

  /** escapeDollar: the global expression `\$` replaced by `@$@`, in which
      '$' is followed by '@' and so is not special. */
  function Escape(s: seq<char>): (r: seq<char>)
  {
    assert Plain(EscapedDollar);
    ReplaceAll(s, "$", EscapedDollar)
  }

  /** unescapeDollar: the global expression `@\$@` replaced by a lone '$'. */
  function Unescape(s: seq<char>): (r: seq<char>)
  {
    assert Plain("$");
    ReplaceAll(s, EscapedDollar, "$")
  }

  /** Escaped text never starts with '$'. */
  lemma EscapeHead(s: seq<char>)
    ensures |Escape(s)| > 0 ==> Escape(s)[0] != '$'
  {
    if |s| > 0 {
      if "$" <= s {
        assert Escape(s) == EscapedDollar + Escape(s[1..]);
      } else {
        assert Escape(s) == [s[0]] + Escape(s[1..]);
      }
    }
  }

  /** Unescaping escaped text gives it back. */
  lemma {:induction false} EscapeRoundTrip(s: seq<char>)
    ensures Unescape(Escape(s)) == s
    decreases |s|
  {
    if |s| > 0 {
      var e := Escape(s[1..]);
      EscapeRoundTrip(s[1..]);
      if s[0] == '$' {
        assert "$" <= s;
        assert Escape(s) == EscapedDollar + e;
        assert EscapedDollar <= EscapedDollar + e;
        assert (EscapedDollar + e)[3..] == e;
      } else {
        assert Escape(s) == [s[0]] + e;
        EscapeHead(s[1..]);
        assert !(EscapedDollar <= [s[0]] + e) by {
          if |e| >= 1 {
            assert ([s[0]] + e)[1] == e[0] != '$';
          }
        }
        assert ([s[0]] + e)[1..] == e;
      }
    }
  }

  /** In escaped text every '$' is followed by '@'. */
  lemma {:induction false} EscapeQuoted(s: seq<char>)
    ensures DollarsQuoted(Escape(s))
    decreases |s|
  {
    if |s| > 0 {
      var e := Escape(s[1..]);
      EscapeQuoted(s[1..]);
      if s[0] == '$' {
        assert "$" <= s;
        assert Escape(s) == EscapedDollar + e;
      } else {
        assert Escape(s) == [s[0]] + e;
      }
    }
  }

  /** Text without '$' is its own escape. */
  lemma EscapeDollarFree(s: seq<char>)
    requires '$' !in s
    ensures Escape(s) == s
  {
    ReplaceAllAbsent(s, "$", EscapedDollar);
  }

  /** Text without '@' is its own unescape. */
  lemma UnescapeAtFree(s: seq<char>)
    requires '@' !in s
    ensures Unescape(s) == s
  {
    ReplaceAllAbsent(s, EscapedDollar, "$");
  }

  // ---------------------------------------------------------------------
  // parseMacroArgs (lines 1-25)

  /** The loop of parseMacroArgs.  At `\,` the first escaped comma of the
      whole text becomes ',' and the scan moves two bytes on, which may
      take it one past the end; the final slice then stops at the end. */
  function ParseFrom(s: seq<char>, start: nat, end: nat, done: seq<seq<char>>): (r: seq<seq<char>>)
    requires start <= |s| && start <= end <= |s| + 1
    ensures |r| > |done|
    decreases |s| + 1 - end
  {
    if end >= |s| then done + [s[start..|s|]]
    else if s[end] == ',' then ParseFrom(s, end + 1, end + 1, done + [s[start..end]])
    else if s[end] == '\\' && end + 1 < |s| && s[end + 1] == ',' then
      GoPort.EscapeFound(s, end);
      ParseFrom(ReplaceFirst(s, GoPort.EscapedComma, ","), start, end + 2, done)
    else ParseFrom(s, start, end + 1, done)
  }

  function ParseArgs(s: seq<char>): (r: seq<seq<char>>)
    ensures |r| >= 1
  {
    ParseFrom(s, 0, 0, [])
  }

  /** From the same state the loop splits as the Go loop does: stepping
      past the end and clamping at the end come to the same. */
  lemma {:induction false} ParseAgrees(s: seq<char>, start: nat, end: nat, done: seq<seq<char>>)
    requires start <= end <= |s|
    ensures ParseFrom(s, start, end, done) == GoPort.ParseFrom(s, start, end, done)
    decreases |s| - end
  {
    if end == |s| {
    } else if s[end] == ',' {
      GoPort.ParseComma(s, start, end, done);
      ParseAgrees(s, end + 1, end + 1, done + [s[start..end]]);
    } else if s[end] == '\\' && end + 1 < |s| && s[end + 1] == ',' {
      GoPort.ParseEscape(s, start, end, done);
      var s' := ReplaceFirst(s, GoPort.EscapedComma, ",");
      assert ParseFrom(s, start, end, done) == ParseFrom(s', start, end + 2, done);
      if end + 2 <= |s'| {
        ParseAgrees(s', start, end + 2, done);
      } else {
        assert GoPort.MinInt(end + 2, |s| - 1) == |s'|;
      }
    } else {
      GoPort.ParsePlainByte(s, start, end, done);
      ParseAgrees(s, start, end + 1, done);
    }
  }

  /** parseMacroArgs splits exactly as parseMacroArguments does. */
  lemma ParseArgsAgree(s: seq<char>)
    ensures ParseArgs(s) == GoPort.ParseArguments(s)
  {
    ParseAgrees(s, 0, 0, []);
  }

  // ---------------------------------------------------------------------
  // Lookup and the expansion step

  /** Lines 95-102: the local table first, then the global one; None for a
      name in neither. */
  function Lookup(t: Tables, name: seq<char>): (found: Option<seq<char>>)
    ensures found.Some? <==> name in t.locals || name in t.globals
    ensures name in t.locals ==> found == Some(t.locals[name])
    ensures name !in t.locals && name in t.globals ==> found == Some(t.globals[name])
  {
    if name in t.locals then Some(t.locals[name])
    else if name in t.globals then Some(t.globals[name])
    else None
  }

  /** The body with its placeholders filled from the escaped argument text
      (lines 112-122); the escape is undone later, on the whole line. */
  function Body(body: seq<char>, argText: seq<char>): (r: seq<char>)
  {
    var escaped := Escape(argText);
    Placeholders(body, escaped, ParseArgs(escaped))
  }

  /** One expansion step (lines 93-124).  A call without arguments, or of
      an undefined name, is replaced in the text from the call on; a call
      with arguments is replaced at the first place its text occurs in the
      line, and then the whole line is unescaped. */
  function Step(line: seq<char>, m: CallMatch, t: Tables): (r: seq<char>)
    requires MatchIn(line, m)
  {
    var found := Lookup(t, m.name);
    var body := found.GetOr([]);
    if m.args.None? || found.None? then line[..m.begin] + Replace(line[m.begin..], m.text, body)
    else Unescape(Replace(line, m.text, Body(body, m.args.value)))
  }

  // ---------------------------------------------------------------------
  // Classification (lines 38-39, 55-71)

  /** The line terminators of JavaScript, where `.` stops. */
  predicate Terminator(c: char)
  {
    c == LineEnd || c == '\r' || c == 0x2028 as char || c == 0x2029 as char
  }

  predicate NoTerminator(s: seq<char>)
  {
    forall i :: 0 <= i < |s| ==> !Terminator(s[i])
  }

  /** `^prefix(.*?) (.*)\n$`: the name is the shortest that lets the rest
      match, so it ends at the first space; name and body hold no line
      terminator, and the line ends with its only '\n'. */
  function Definition(line: seq<char>, prefix: seq<char>): (r: Option<(seq<char>, seq<char>)>)
    ensures r.Some? ==> var (name, body) := r.value;
      && line == prefix + name + " " + body + [LineEnd]
      && ' ' !in name && NoTerminator(name) && NoTerminator(body)
  {
    if !(prefix <= line) || |line| == |prefix| || line[|line| - 1] != LineEnd then None
    else
      var inner := line[|prefix|..|line| - 1];
      if !NoTerminator(inner) then None
      else
        var k := FindFrom(inner, 0, ' ');
        if k == |inner| then None
        else
          var name, body := inner[..k], inner[k + 1..];
          assert line == prefix + inner + [LineEnd] by {
            assert line[..|prefix|] == prefix;
          }
          assert inner == name + " " + body;
          NoTerminatorSlice(inner, 0, k);
          NoTerminatorSlice(inner, k + 1, |inner|);
          Some((name, body))
  }

  lemma NoTerminatorSlice(s: seq<char>, a: nat, b: nat)
    requires NoTerminator(s) && a <= b <= |s|
    ensures NoTerminator(s[a..b])
  {
    forall j | 0 <= j < b - a
      ensures !Terminator(s[a..b][j])
    {
      assert s[a..b][j] == s[a + j];
    }
  }

  /** Every line of the defining form is recognised, with its name and
      body, the empty name included. */
  lemma DefinitionFound(prefix: seq<char>, name: seq<char>, body: seq<char>)
    requires ' ' !in name && NoTerminator(name) && NoTerminator(body)
    ensures Definition(prefix + name + " " + body + [LineEnd], prefix) == Some((name, body))
  {
    var line := prefix + name + " " + body + [LineEnd];
    var inner := name + " " + body;
    assert line[..|prefix|] == prefix;
    assert line[|prefix|..|line| - 1] == inner;
    assert NoTerminator(inner) by {
      forall j | 0 <= j < |inner|
        ensures !Terminator(inner[j])
      {
        if j < |name| {
          assert inner[j] == name[j];
        } else if j > |name| {
          assert inner[j] == body[j - |name| - 1];
        }
      }
    }
    FindFromIs(inner, 0, ' ', |name|);
    assert inner[..|name|] == name && inner[|name| + 1..] == body;
  }

  /** The global expression is tried first, then the local one. */
  function Classify(line: seq<char>): (c: Class)
    ensures c.Global? <==> Definition(line, Gokuro.GlobalPrefix).Some?
    ensures c.Global? ==> line == Gokuro.GlobalPrefix + c.name + " " + c.body + [LineEnd]
    ensures c.Local? <==> Definition(line, Gokuro.GlobalPrefix).None? && Definition(line, Gokuro.LocalPrefix).Some?
    ensures c.Local? ==> line == Gokuro.LocalPrefix + c.name + " " + c.body + [LineEnd]
    ensures c.Content? <==> Definition(line, Gokuro.GlobalPrefix).None? && Definition(line, Gokuro.LocalPrefix).None?
  {
    match Definition(line, Gokuro.GlobalPrefix)
    case Some((name, body)) => Global(name, body)
    case None =>
      match Definition(line, Gokuro.LocalPrefix)
      case Some((name, body)) => Local(name, body)
      case None => Content
  }

  // ---------------------------------------------------------------------
  // The line handler

  /** The loop of the line handler (lines 54-125), at most `fuel` steps. */
  function ProcessLine(line: seq<char>, find: seq<char> -> Option<CallMatch>, t: Tables, fuel: nat): (r: LineResult)
    requires Fits(find)
    ensures EndsLine(line) && r.Written? ==> EndsLine(r.text)
    decreases fuel
  {
    match Classify(line)
    case Global(name, body) => DefinedGlobal(name, body)
    case Local(name, body) => DefinedLocal(name, body)
    case Content =>
      match find(line)
      case None => Written(line)
      case Some(m) =>
        if fuel == 0 then OutOfFuel
        else
          StepKeepsLineEnd(line, m, t);
          ProcessLine(Step(line, m, t), find, t, fuel - 1)
  }

  /** The 'line' events in order (lines 48-134): each line gets a '\n',
      definitions are stored and not written, and the local table is reset
      after every line but a local definition. */
  function Run(lines: seq<seq<char>>, find: seq<char> -> Option<CallMatch>, t: Tables, fuel: nat): (r: Outcome)
    requires Fits(find)
    ensures WholeLines(r)
    decreases |lines|
  {
    if |lines| == 0 then Output([])
    else
      var rest := lines[1..];
      match ProcessLine(lines[0] + [LineEnd], find, t, fuel)
      case OutOfFuel => Exhausted
      case DefinedGlobal(name, body) => Run(rest, find, Tables(t.globals[name := body], map[]), fuel)
      case DefinedLocal(name, body) => Run(rest, find, t.(locals := t.locals[name := body]), fuel)
      case Written(text) =>
        var o := Run(rest, find, t.(locals := map[]), fuel);
        PrependLine(text, o);
        Prepend(text, o)
  }

  /** gokuro(): the lines of the whole input, starting with empty tables. */
  function Preprocess(input: seq<char>, find: seq<char> -> Option<CallMatch>, fuel: nat): (r: Outcome)
    requires Fits(find)
    ensures WholeLines(r)
  {
    Run(Lines(input), find, Tables(map[], map[]), fuel)
  }

  // ---------------------------------------------------------------------
  // Properties of one step

  /** A call of a name in neither table is deleted, with or without
      arguments. */
  lemma UndefinedNameRemoved(line: seq<char>, m: CallMatch, t: Tables)
    requires MatchIn(line, m) && m.name !in t.locals && m.name !in t.globals
    ensures Step(line, m, t) == line[..m.begin] + line[m.begin + |m.text|..]
  {
    var end := m.begin + |m.text|;
    assert m.text <= line[m.begin..];
    ReplaceAtFront(line[m.begin..], m.text, []);
    assert line[m.begin..][|m.text|..] == line[end..];
  }

  /** A defined call without arguments is replaced where it stands by its
      body, read as a replacement text; `` $` `` in the body is empty, as
      the replacement works on the text from the call on. */
  lemma ConstantCallReplaced(line: seq<char>, m: CallMatch, t: Tables, body: seq<char>)
    requires MatchIn(line, m) && m.args.None? && Lookup(t, m.name) == Some(body)
    ensures var end := m.begin + |m.text|;
      Step(line, m, t) == line[..m.begin] + Substitution(body, m.text, [], line[end..]) + line[end..]
  {
    var end := m.begin + |m.text|;
    assert m.text <= line[m.begin..];
    ReplaceAtFront(line[m.begin..], m.text, body);
    assert line[m.begin..][|m.text|..] == line[end..];
  }

  /** A call with arguments whose text does not occur earlier in the line,
      in a line with no '@' around it, is replaced by its unescaped body. */
  lemma ParameterizedCallReplaced(line: seq<char>, m: CallMatch, t: Tables, body: seq<char>)
    requires MatchIn(line, m) && m.args.Some? && Lookup(t, m.name) == Some(body)
    requires forall j :: 0 <= j < m.begin ==> !Occurs(line, m.text, j)
    requires '@' !in line[..m.begin] && '@' !in line[m.begin + |m.text|..]
    ensures var end := m.begin + |m.text|;
      Step(line, m, t) == line[..m.begin] +
        Unescape(Substitution(Body(body, m.args.value), m.text, line[..m.begin], line[end..])) + line[end..]
  {
    var end := m.begin + |m.text|;
    var b := Body(body, m.args.value);
    StepWithArguments(line, m, t, body, b);
    UnescapedReplaceAt(line, m.text, b, m.begin);
  }

  /** Replacing the first occurrence at k, then unescaping, in a line with
      no '@' around the occurrence. */
  lemma UnescapedReplaceAt(line: seq<char>, pat: seq<char>, b: seq<char>, k: nat)
    requires |pat| > 0 && k + |pat| <= |line| && line[k..k + |pat|] == pat
    requires forall j :: 0 <= j < k ==> !Occurs(line, pat, j)
    requires '@' !in line[..k] && '@' !in line[k + |pat|..]
    ensures Unescape(Replace(line, pat, b)) ==
      line[..k] + Unescape(Substitution(b, pat, line[..k], line[k + |pat|..])) + line[k + |pat|..]
  {
    var mid := Substitution(b, pat, line[..k], line[k + |pat|..]);
    ReplaceAt(line, pat, b, k);
    UnescapeAround(line[..k], mid, line[k + |pat|..]);
  }

  /** The step for a defined call with arguments. */
  lemma StepWithArguments(line: seq<char>, m: CallMatch, t: Tables, body: seq<char>, b: seq<char>)
    requires MatchIn(line, m) && m.args.Some? && Lookup(t, m.name) == Some(body)
    requires b == Body(body, m.args.value)
    ensures Step(line, m, t) == Unescape(Replace(line, m.text, b))
  {
  }

  /** `replace` at the first occurrence k. */
  lemma ReplaceAt(s: seq<char>, pat: seq<char>, rep: seq<char>, k: nat)
    requires |pat| > 0 && k + |pat| <= |s| && s[k..k + |pat|] == pat
    requires forall j :: 0 <= j < k ==> !Occurs(s, pat, j)
    ensures Replace(s, pat, rep) == s[..k] + Substitution(rep, pat, s[..k], s[k + |pat|..]) + s[k + |pat|..]
  {
    FirstOccurrenceIs(s, pat, 0, k);
    assert FirstOccurrence(s, pat, 0) == k;
  }

  /** Unescaping passes over text without '@' on either side. */
  lemma UnescapeAround(a: seq<char>, mid: seq<char>, c: seq<char>)
    requires '@' !in a && '@' !in c
    ensures Unescape(a + mid + c) == a + Unescape(mid) + c
  {
    ConcatAssoc(a, mid, c);
    ReplaceAllFreePrefix(a, mid + c, EscapedDollar, "$");
    ReplaceAllFreeSuffix(mid, c, EscapedDollar, "$");
    ConcatAssoc(a, Unescape(mid), c);
  }

  /** The unescape after a call with arguments reaches text the call did
      not produce: `@$@` written before the call comes out as '$'.  (The Go
      revision keeps the text before a call, by the contract of
      GoPort.Step.) */
  lemma EscapeBeforeCallLost(m: CallMatch, post: seq<char>, t: Tables)
    requires m.begin == 3 && |m.text| > 0 && m.text[0] == '<' && LineEnd !in m.text
    requires m.args.Some? && Lookup(t, m.name).Some?
    ensures MatchIn(EscapedDollar + m.text + post, m)
    ensures Step(EscapedDollar + m.text + post, m, t)[..1] == "$"
  {
    var line := EscapedDollar + m.text + post;
    var end := 3 + |m.text|;
    CallAfterEscape(m.text, post);
    var b := Body(Lookup(t, m.name).value, m.args.value);
    StepWithArguments(line, m, t, Lookup(t, m.name).value, b);
    var mid := Substitution(b, m.text, line[..3], line[end..]);
    ReplaceAt(line, m.text, b, 3);
    assert line[..3] == EscapedDollar;
    UnescapeFront(mid + line[end..]);
  }

  /** A call text starting with '<' after `@$@` occurs first right there. */
  lemma CallAfterEscape(text: seq<char>, post: seq<char>)
    requires |text| > 0 && text[0] == '<'
    ensures var line := EscapedDollar + text + post;
      && line[3..3 + |text|] == text
      && forall j :: 0 <= j < 3 ==> !Occurs(line, text, j)
  {
    var line := EscapedDollar + text + post;
    assert line[3..3 + |text|] == text;
    forall j | 0 <= j < 3
      ensures !Occurs(line, text, j)
    {
      assert line[j] != '<';
      if j + |text| <= |line| {
        assert line[j..j + |text|][0] == line[j];
      }
    }
  }

  /** `@$@` at the front is unescaped to '$'. */
  lemma UnescapeFront(rest: seq<char>)
    ensures Unescape(EscapedDollar + rest) == "$" + Unescape(rest)
  {
    var s := EscapedDollar + rest;
    assert EscapedDollar <= s;
    assert s[3..] == rest;
  }

  /** `replace` keeps a final byte the pattern cannot contain. */
  lemma ReplaceKeepsLast(s: seq<char>, pat: seq<char>, rep: seq<char>, c: char)
    requires |pat| > 0 && c !in pat && |s| > 0 && s[|s| - 1] == c
    ensures var r := Replace(s, pat, rep); |r| > 0 && r[|r| - 1] == c
  {
    var k := FirstOccurrence(s, pat, 0);
    if k < |s| {
      assert s[k..k + |pat|][|pat| - 1] == pat[|pat| - 1] != c;
      var tail := s[k + |pat|..];
      assert tail[|tail| - 1] == c;
    }
  }

  /** A step keeps the line's final '\n'. */
  lemma StepKeepsLineEnd(line: seq<char>, m: CallMatch, t: Tables)
    requires MatchIn(line, m)
    ensures EndsLine(line) ==> EndsLine(Step(line, m, t))
  {
    var found := Lookup(t, m.name);
    var body := found.GetOr([]);
    if !EndsLine(line) {
    } else if m.args.None? || found.None? {
      assert LineEnd !in m.text;
      TailReplaceKeepsLineEnd(line, m.begin, m.text, body);
    } else {
      assert LineEnd !in m.text;
      UnescapedReplaceKeepsLineEnd(line, m.text, Body(body, m.args.value));
    }
  }

  lemma TailReplaceKeepsLineEnd(line: seq<char>, begin: nat, pat: seq<char>, rep: seq<char>)
    requires begin < |line| && EndsLine(line) && |pat| > 0 && LineEnd !in pat
    ensures EndsLine(line[..begin] + Replace(line[begin..], pat, rep))
  {
    var rest := line[begin..];
    assert rest[|rest| - 1] == LineEnd;
    ReplaceKeepsLast(rest, pat, rep, LineEnd);
  }

  lemma UnescapedReplaceKeepsLineEnd(line: seq<char>, pat: seq<char>, rep: seq<char>)
    requires EndsLine(line) && |pat| > 0 && LineEnd !in pat
    ensures EndsLine(Unescape(Replace(line, pat, rep)))
  {
    ReplaceKeepsLast(line, pat, rep, LineEnd);
    ReplaceAllKeepsLast(Replace(line, pat, rep), EscapedDollar, "$", LineEnd);
  }

  // ---------------------------------------------------------------------
  // Properties of the placeholders

  /** `$0` becomes the argument text as written, once the line is
      unescaped. */
  lemma WholeArgumentRestored(argText: seq<char>)
    ensures Unescape(Body("$0", argText)) == argText
  {
    var escaped := Escape(argText);
    EscapeQuoted(argText);
    QuotedNoPlaceholder(escaped);
    WholeArgumentText(escaped, ParseArgs(escaped));
    EscapeRoundTrip(argText);
  }

  /** `$k` (k from 1 to 9) becomes the k-th argument of the escaped text. */
  lemma ArgumentUsed(k: nat, argText: seq<char>)
    requires 1 <= k <= 9 && k <= |ParseArgs(Escape(argText))|
    ensures Body(Target(k), argText) == ParseArgs(Escape(argText))[k - 1]
  {
    var escaped := Escape(argText);
    var args := ParseArgs(escaped);
    EscapeQuoted(argText);
    ParseArgsAgree(escaped);
    GoPort.ParseKeepsQuoted(escaped, 0, 0, []);
    QuotedNoPlaceholder(args[k - 1]);
    SuppliedArgument(k, escaped, args);
  }

  /** `$k` past the last argument becomes nothing. */
  lemma ArgumentMissing(k: nat, argText: seq<char>)
    requires |ParseArgs(Escape(argText))| < k <= 9
    ensures Body(Target(k), argText) == []
  {
    var escaped := Escape(argText);
    MissingArgument(k, escaped, ParseArgs(escaped));
  }

  /** The arguments the body receives are plain replacement texts, so
      `replace` inserts them as they are. */
  lemma ArgumentsPlain(argText: seq<char>)
    ensures forall i :: 0 <= i < |ParseArgs(Escape(argText))| ==> Plain(ParseArgs(Escape(argText))[i])
    ensures Plain(Escape(argText))
  {
    var escaped := Escape(argText);
    EscapeQuoted(argText);
    ParseArgsAgree(escaped);
    GoPort.ParseKeepsQuoted(escaped, 0, 0, []);
  }

  /** Without '$' in the argument text and '@' anywhere, the body a call
      gets is the body the Go revision computes. */
  lemma SubstitutionAgrees(body: seq<char>, argText: seq<char>)
    requires '$' !in argText && '@' !in argText && '@' !in body
    ensures Unescape(Body(body, argText)) == GoPort.Substitute(body, argText)
  {
    EscapeDollarFree(argText);
    GoPort.QuoteDollarFree(argText);
    ParseArgsAgree(argText);
    var args := ParseArgs(argText);
    GoPort.ParseKeepsAbsent(argText, 0, 0, [], '@');
    var p := Placeholders(body, argText, args);
    PlaceholdersKeepAbsent(body, argText, args, '@');
    ReplaceAllAbsent(p, EscapedDollar, "$");
    NoAtUnquoted(p);
  }

  /** Text without '@' holds no `$@`. */
  lemma {:induction false} NoAtUnquoted(s: seq<char>)
    requires '@' !in s
    ensures GoPort.UnquoteDollar(s) == s
    decreases |s|
  {
    if |s| > 0 {
      assert !("$@" <= s) by {
        if |s| >= 2 {
          assert s[1] != '@';
        }
      }
      assert '@' !in s[1..] by {
        assert forall j :: 0 <= j < |s| - 1 ==> s[1..][j] == s[j + 1];
      }
      NoAtUnquoted(s[1..]);
      assert s == [s[0]] + s[1..];
    }
  }

  /** A constant call of a defined name with a non-empty body in which no
      '$' is special comes out as in the Go revision. */
  lemma ConstantCallAgrees(line: seq<char>, m: CallMatch, t: Tables)
    requires MatchIn(line, m) && m.args.None?
    requires Lookup(t, m.name).Some? && Lookup(t, m.name).value != [] && Plain(Lookup(t, m.name).value)
    ensures Step(line, m, t) == GoPort.Step(line, m, t)
  {
    var body := Lookup(t, m.name).value;
    ConstantCallReplaced(line, m, t, body);
    PlainSubstitution(body, m.text, [], line[m.begin + |m.text|..]);
  }

  // ---------------------------------------------------------------------
  // Properties of the line handler

  /** `#+MACRO: name body` stores the body, even under the empty name, is
      not written, and resets the local table. */
  lemma GlobalDefinitionStored(name: seq<char>, body: seq<char>, rest: seq<seq<char>>,
                               find: seq<char> -> Option<CallMatch>, t: Tables, fuel: nat)
    requires Fits(find)
    requires ' ' !in name && NoTerminator(name) && NoTerminator(body)
    ensures Run([Gokuro.GlobalPrefix + name + " " + body] + rest, find, t, fuel) ==
      Run(rest, find, Tables(t.globals[name := body], map[]), fuel)
  {
    DefinitionFound(Gokuro.GlobalPrefix, name, body);
    assert ([Gokuro.GlobalPrefix + name + " " + body] + rest)[1..] == rest;
  }

  /** `#+MACRO_LOCAL: name body` stores the body in the local table, which
      the next line still sees. */
  lemma LocalDefinitionStored(name: seq<char>, body: seq<char>, rest: seq<seq<char>>,
                              find: seq<char> -> Option<CallMatch>, t: Tables, fuel: nat)
    requires Fits(find)
    requires ' ' !in name && NoTerminator(name) && NoTerminator(body)
    ensures Run([Gokuro.LocalPrefix + name + " " + body] + rest, find, t, fuel) ==
      Run(rest, find, t.(locals := t.locals[name := body]), fuel)
  {
    var lines := [Gokuro.LocalPrefix + name + " " + body] + rest;
    LocalLineClassified(name, body);
    assert lines[0] + [LineEnd] == Gokuro.LocalPrefix + name + " " + body + [LineEnd];
    assert lines[1..] == rest;
  }

  /** A local definition line is classified as one. */
  lemma LocalLineClassified(name: seq<char>, body: seq<char>)
    requires ' ' !in name && NoTerminator(name) && NoTerminator(body)
    ensures Classify(Gokuro.LocalPrefix + name + " " + body + [LineEnd]) == Local(name, body)
  {
    var line := Gokuro.LocalPrefix + name + " " + body + [LineEnd];
    DefinitionFound(Gokuro.LocalPrefix, name, body);
    assert line[..9] != Gokuro.GlobalPrefix by {
      assert line[7] == '_';
    }
    assert Definition(line, Gokuro.GlobalPrefix).None?;
  }

  /** A line with no call that does not start with `#+` is written as it
      is, and the local table is reset. */
  lemma PlainLineWritten(line: seq<char>, rest: seq<seq<char>>,
                         find: seq<char> -> Option<CallMatch>, t: Tables, fuel: nat)
    requires Fits(find) && !("#+" <= line) && find(line + [LineEnd]).None?
    ensures Run([line] + rest, find, t, fuel) ==
      Prepend(line + [LineEnd], Run(rest, find, t.(locals := map[]), fuel))
  {
    var l := line + [LineEnd];
    assert !("#+" <= l) by {
      if |line| >= 2 {
        assert l[..2] == line[..2];
      } else {
        assert |line| + 1 < 2 || l[|line|] == LineEnd;
      }
    }
    assert Gokuro.GlobalPrefix[..2] == "#+" && Gokuro.LocalPrefix[..2] == "#+";
    assert |l| < 9 || l[..9][..2] == l[..2];
    assert |l| < 15 || l[..15][..2] == l[..2];
    assert ([line] + rest)[1..] == rest;
  }

  /** A last line without '\n' is handled as if it had one. */
  lemma FinalNewlineAdded(input: seq<char>, find: seq<char> -> Option<CallMatch>, fuel: nat)
    requires Fits(find) && |input| > 0 && input[|input| - 1] != LineEnd
    ensures Preprocess(input, find, fuel) == Preprocess(input + [LineEnd], find, fuel)
  {
    LinesFinalNewline(input);
  }
}

=== FILE: main_c.dfy ===
/**
 The line loop of `gokuro()` in main.c (lines 127-391), the revision built
 on buffer.h and stb_ds maps.  Its expansion step is the one of gokuro.c
 (module Expansion) with a 64-bit fingerprint, but lines are handled
 differently: definition lines are echoed, any other `#+` line with a ':'
 defines a local named by the text before the ':', a line that is exactly
 `#+MACRO: ` ends the run, only content lines are expanded (once classified,
 never again), and locals are dropped only after a content line.  The stb_ds
 maps are modelled as maps from fingerprint to body.
 */
module MainC {
  import opened Text
  import opened Options
  import opened Hashing
  import opened Expansion
  import Gokuro

  type Tables = Gokuro.Tables

  /** Lines 290-297: the local map first, the global map on a miss. */
  function Lookup(t: Tables, name: seq<char>): (body: Option<seq<char>>)
    ensures Hash64(name) in t.locals ==> body == Some(t.locals[Hash64(name)])
    ensures Hash64(name) !in t.locals && Hash64(name) in t.globals ==> body == Some(t.globals[Hash64(name)])
    ensures body.None? <==> Hash64(name) !in t.locals && Hash64(name) !in t.globals
  {
    var h := Hash64(name);
    if h in t.locals then Some(t.locals[h])
    else if h in t.globals then Some(t.globals[h])
    else None
  }

  /** What main.c does with a line (lines 143-222). */
  datatype Action =
    | Stop                                           // exactly "#+MACRO: "
    | EchoGlobal(name: seq<char>, body: seq<char>)   // global definition
    | EchoLocal(name: seq<char>, body: seq<char>)    // local definition
    | Echo                                           // a `#+` line that defines nothing
    | Fault                                          // a ':' with nothing after it
    | Expand                                         // content

  /** The classification of main.c.  A local definition `#+name: body`
      takes the body from two bytes after the ':' on; when the ':' is the
      last byte the C code reads past the end of the line (lines 211-214),
      which the model reports as Fault. */
  function Classify(line: seq<char>): (a: Action)
    ensures a.EchoGlobal? ==> line == Gokuro.GlobalPrefix + a.name + [' '] + a.body && ' ' !in a.name
    ensures a.EchoLocal? ==> exists x :: line == "#+" + a.name + [':', x] + a.body
    ensures a.EchoLocal? ==> ':' !in a.name
    ensures a.Stop? <==> line == Gokuro.GlobalPrefix
    ensures a.Expand? <==> !("#+" <= line)
  {
    if BeginWith(line, Gokuro.GlobalPrefix) then
      // The byte after the prefix is the line's closing NUL.
      if |line| == |Gokuro.GlobalPrefix| then
        assert line == Gokuro.GlobalPrefix;
        Stop
      else
        match Gokuro.ParseDefinition(line, |Gokuro.GlobalPrefix|)
        case None => Echo
        case Some((name, body)) =>
          assert line[..|Gokuro.GlobalPrefix|] == Gokuro.GlobalPrefix;
          EchoGlobal(name, body)
    else if BeginWith(line, "#+") then
      var colon := FindFrom(line, 2, ':');
      if colon == |line| then Echo
      else if colon + 1 == |line| then Fault
      else
        assert ':' !in line[2..colon] by {
          assert forall j :: 0 <= j < colon - 2 ==> line[2..colon][j] == line[2 + j];
        }
        assert line == "#+" + line[2..colon] + [':', line[colon + 1]] + line[colon + 2..] by {
          assert line[..2] == "#+";
          assert line == line[..2] + line[2..colon] + [line[colon], line[colon + 1]] + line[colon + 2..];
        }
        EchoLocal(line[2..colon], line[colon + 2..])
    else
      assert !("#+" <= line) by {
        assert !BeginWith(line, "#+");
      }
      Expand
  }

  /** The expansion loop of a content line (lines 224-385): the same step
      as gokuro.c, with no classification in between.  At most `fuel` calls
      are expanded; None means the fuel ran out. */
  function ExpandLine(line: seq<char>, offset: nat, t: Tables, fuel: nat): (r: Option<seq<char>>)
    requires offset <= |line|
    ensures r.Some? && TailClear(line, offset) ==> NoCompleteCall(r.value, |r.value|)
    decreases fuel
  {
    match Locate(line, offset)
    case None =>
      TailClearNoCall(line, offset);
      Some(line)
    case Some(call) =>
      if fuel == 0 then None
      else
        var repl := Replacement(line, call, Lookup(t, CallName(line, call)));
        ExpandKeepsTailClear(line, offset, call, repl);
        ExpandLine(Splice(line, call, repl), call.offset, t, fuel - 1)
  }

  datatype Outcome = Output(text: seq<char>) | Exhausted | Faulted

  /** Prefixes the text of an outcome with what an earlier line wrote.
      main.c's Outcome adds Faulted, so this Prepend is not the one of
      `Early` or `Ports`, whose outcomes differ. */
  function Prepend(w: seq<char>, o: Outcome): (r: Outcome)
    ensures o.Output? ==> r == Output(w + o.text)
    ensures !o.Output? ==> r == o
    ensures o.Output? && w != [] && Terminated(w) && Terminated(o.text) ==> r.Output? && Terminated(r.text)
  {
    match o
    case Output(text) => Output(w + text)
    case _ => o
  }

  /** The main loop over the lines of the input (lines 129-391). */
  function Run(lines: seq<seq<char>>, t: Tables, fuel: nat): (r: Outcome)
    ensures r.Output? ==> Terminated(r.text)
    decreases |lines|
  {
    if |lines| == 0 then Output([])
    else
      var line := lines[0];
      match Classify(line)
      case Stop => Output([])
      case Fault => Faulted
      case Echo => Prepend(line + [LineEnd], Run(lines[1..], t, fuel))
      case EchoGlobal(name, body) =>
        Prepend(line + [LineEnd], Run(lines[1..], t.(globals := t.globals[Hash64(name) := body]), fuel))
      case EchoLocal(name, body) =>
        Prepend(line + [LineEnd], Run(lines[1..], t.(locals := t.locals[Hash64(name) := body]), fuel))
      case Expand =>
        match ExpandLine(line, 0, t, fuel)
        case None => Exhausted
        case Some(expanded) => Prepend(expanded + [LineEnd], Run(lines[1..], t.(locals := map[]), fuel))
  }

  /** main.c over the whole input: an empty input writes nothing, otherwise
      a missing final '\n' is added first (lines 112-125). */
  function MainC(input: seq<char>, fuel: nat): (r: Outcome)
    ensures r.Output? ==> Terminated(r.text)
    ensures |input| == 0 ==> r == Output([])
  {
    if |input| == 0 then Output([])
    else
      var text := if input[|input| - 1] == LineEnd then input else input + [LineEnd];
      Run(Lines(text), Gokuro.Tables(map[], map[]), fuel)
  }

  // ---------------------------------------------------------------------
  // Properties

  /** A line that is exactly `#+MACRO: ` ends the run: neither it nor any
      later line is written. */
  lemma BareMacroLineStops(rest: seq<seq<char>>, t: Tables, fuel: nat)
    ensures Run([Gokuro.GlobalPrefix] + rest, t, fuel) == Output([])
  {
    assert Classify(Gokuro.GlobalPrefix) == Stop;
  }

  /** A global definition is stored and the line is echoed as it is,
      without expansion. */
  lemma GlobalDefinitionEchoed(name: seq<char>, body: seq<char>, rest: seq<seq<char>>, t: Tables, fuel: nat)
    requires ' ' !in name
    ensures var line := Gokuro.GlobalPrefix + name + [' '] + body;
      Run([line] + rest, t, fuel) ==
        Prepend(line + [LineEnd], Run(rest, t.(globals := t.globals[Hash64(name) := body]), fuel))
  {
    var line := Gokuro.GlobalPrefix + name + [' '] + body;
    assert line[..9] == Gokuro.GlobalPrefix;
    assert BeginWith(line, Gokuro.GlobalPrefix);
    Gokuro.DefinitionSplit(line, 9, name, body);
    assert ([line] + rest)[1..] == rest;
  }

  /** `#+name: body` (not a global definition) stores body under name in
      the local map; the line is echoed and the locals are kept for the
      next line. */
  lemma LocalDefinitionEchoed(name: seq<char>, x: char, body: seq<char>, rest: seq<seq<char>>, t: Tables, fuel: nat)
    requires ':' !in name
    requires !(Gokuro.GlobalPrefix <= "#+" + name + [':', x] + body)
    ensures var line := "#+" + name + [':', x] + body;
      Run([line] + rest, t, fuel) ==
        Prepend(line + [LineEnd], Run(rest, t.(locals := t.locals[Hash64(name) := body]), fuel))
  {
    var line := "#+" + name + [':', x] + body;
    assert line[..2] == "#+";
    assert BeginWith(line, "#+");
    var colon := 2 + |name|;
    assert line[colon] == ':';
    forall j | 2 <= j < colon
      ensures line[j] != ':'
    {
      assert line[j] == name[j - 2];
    }
    FindFromIs(line, 2, ':', colon);
    assert line[2..colon] == name;
    assert line[colon + 2..] == body;
    assert ([line] + rest)[1..] == rest;
  }

  /** A `#+` line without ':' is echoed and defines nothing. */
  lemma HashLineWithoutColonEchoed(line: seq<char>, rest: seq<seq<char>>, t: Tables, fuel: nat)
    requires "#+" <= line && ':' !in line && !(Gokuro.GlobalPrefix <= line)
    ensures Run([line] + rest, t, fuel) == Prepend(line + [LineEnd], Run(rest, t, fuel))
  {
    assert BeginWith(line, "#+");
    forall j | 2 <= j < |line|
      ensures line[j] != ':'
    {
    }
    FindFromIs(line, 2, ':', |line|);
    assert ([line] + rest)[1..] == rest;
  }

  /** A content line without a complete call is left as it is. */
  lemma PlainLineUnchanged(line: seq<char>, t: Tables, fuel: nat)
    requires NoCompleteCall(line, |line|)
    ensures ExpandLine(line, 0, t, fuel) == Some(line)
  {
  }

  /** A content line is expanded and written, and the locals are dropped
      after it. */
  lemma ContentClearsLocals(line: seq<char>, rest: seq<seq<char>>, t: Tables, fuel: nat)
    requires !("#+" <= line)
    requires ExpandLine(line, 0, t, fuel).Some?
    ensures Run([line] + rest, t, fuel) ==
      Prepend(ExpandLine(line, 0, t, fuel).value + [LineEnd], Run(rest, t.(locals := map[]), fuel))
  {
    assert ([line] + rest)[1..] == rest;
  }
}

=== FILE: options.dfy ===
/** Optional values, used wherever the C code uses NULL or a sentinel. */
module Options {

  datatype Option<+T> = None | Some(value: T) {

    /** Returns the value in Some, or the given default for None. */
    function GetOr(default: T): T
    {
      match this
      case Some(v) => v
      case None => default
    }
  }
}

=== FILE: ports.dfy ===
/**
 What gokuro.go and gokuro.js share once the regular expressions have
 matched: tables keyed by the macro name itself, the call a match reports,
 and the placeholder procedure that fills a body's `$0` .. `$10` from the
 (quoted) argument text and its pieces.

 Both revisions keep the line's '\n' while they work on it, so a line here
 ends with LineEnd.
 */
module Ports {
  import opened Text
  import opened Options
  import opened Replacing

  /** The global and local macro tables: name -> body. */
  datatype Tables = Tables(globals: map<seq<char>, seq<char>>, locals: map<seq<char>, seq<char>>)

  /** A call the matcher found: its text starts at `begin`, `name` is the
      first group, and `args` holds the text between the parentheses when
      the call has them. */
  datatype CallMatch = CallMatch(begin: nat, text: seq<char>, name: seq<char>, args: Option<seq<char>>)

  /** A match lies in the line, is not empty, and (as '.' in both regular
      expressions stops at '\n') holds no '\n'. */
  predicate MatchIn(line: seq<char>, m: CallMatch)
  {
    && 0 < |m.text|
    && m.begin + |m.text| <= |line|
    && line[m.begin..m.begin + |m.text|] == m.text
    && LineEnd !in m.text
  }

  /** The matcher, which stands for the backward scan and the call regular
      expression, reports only calls inside the line. */
  ghost predicate Fits(find: seq<char> -> Option<CallMatch>)
  {
    forall l :: find(l).Some? ==> MatchIn(l, find(l).value)
  }

  /** What one line comes to: a definition (not written), the expanded
      line, or running out of expansion steps. */
  datatype LineResult =
    | DefinedGlobal(name: seq<char>, body: seq<char>)
    | DefinedLocal(name: seq<char>, body: seq<char>)
    | Written(text: seq<char>)
    | OutOfFuel

  /** How a line is classified before any expansion. */
  datatype Class = Global(name: seq<char>, body: seq<char>) | Local(name: seq<char>, body: seq<char>) | Content

  datatype Outcome = Output(text: seq<char>) | Exhausted

  /** Prefixes the text of an outcome with what an earlier line wrote.
      The Go and JavaScript ports share this Outcome; the C revisions have
      outcomes of their own, and so Prepends of their own. */
  function Prepend(w: seq<char>, o: Outcome): (r: Outcome)
    ensures o.Output? ==> r == Output(w + o.text)
    ensures o.Exhausted? ==> r == Exhausted
  {
    match o
    case Output(text) => Output(w + text)
    case Exhausted => Exhausted
  }

  /** True when s ends with '\n'. */
  predicate EndsLine(s: seq<char>)
  {
    |s| > 0 && s[|s| - 1] == LineEnd
  }

  /** An output that is empty or ends with '\n'. */
  predicate WholeLines(o: Outcome)
  {
    o.Output? ==> o.text == [] || EndsLine(o.text)
  }

  lemma PrependLine(w: seq<char>, o: Outcome)
    requires EndsLine(w) && WholeLines(o)
    ensures WholeLines(Prepend(w, o))
  {
    if o.Output? {
      assert (w + o.text)[|w| - 1] == w[|w| - 1];
    }
  }

  // ---------------------------------------------------------------------
  // Placeholder names

  function Digit(k: nat): (c: char)
    requires k < 10
    ensures IsDigit(c) && DigitValue(c) == k
  {
    (('0' as int) + k) as char
  }

  /** `strconv.Itoa(n)` and `n.toString()` for n >= 0. */
  function Decimal(n: nat): (d: seq<char>)
    ensures |d| >= 1
    ensures forall i :: 0 <= i < |d| ==> IsDigit(d[i])
    ensures n < 10 ==> d == [Digit(n)]
    decreases n
  {
    if n < 10 then [Digit(n)] else Decimal(n / 10) + [Digit(n % 10)]
  }

  /** The number a string of decimal digits spells. */
  function DigitsValue(d: seq<char>): (n: nat)
    requires forall i :: 0 <= i < |d| ==> IsDigit(d[i])
    decreases |d|
  {
    if |d| == 0 then 0 else DigitsValue(d[..|d| - 1]) * 10 + DigitValue(d[|d| - 1])
  }

  /** Reading the decimal digits back gives the number. */
  lemma {:induction false} DecimalValue(n: nat)
    ensures DigitsValue(Decimal(n)) == n
    decreases n
  {
    if n >= 10 {
      var d := Decimal(n);
      assert d[..|d| - 1] == Decimal(n / 10);
      DecimalValue(n / 10);
    }
  }

  /** The placeholder `$n`. */
  function Target(n: nat): (t: seq<char>)
    ensures |t| >= 2 && t[0] == '$' && IsDigit(t[1])
  {
    "$" + Decimal(n)
  }

  /** Every '$' is followed by a byte that is not a digit. */
  ghost predicate NoPlaceholder(s: seq<char>)
  {
    forall i :: 0 <= i < |s| && s[i] == '$' ==> i + 1 < |s| && !IsDigit(s[i + 1])
  }

  /** Every '$' is followed by '@', as both quoting schemes leave it. */
  ghost predicate DollarsQuoted(s: seq<char>)
  {
    forall i :: 0 <= i < |s| && s[i] == '$' ==> i + 1 < |s| && s[i + 1] == '@'
  }

  /** Every piece is quoted. */
  ghost predicate AllQuoted(parts: seq<seq<char>>)
  {
    forall i :: 0 <= i < |parts| ==> DollarsQuoted(parts[i])
  }

  /** No piece holds c. */
  ghost predicate AllWithout(parts: seq<seq<char>>, c: char)
  {
    forall i :: 0 <= i < |parts| ==> c !in parts[i]
  }

  lemma QuotedNoPlaceholder(s: seq<char>)
    requires DollarsQuoted(s)
    ensures NoPlaceholder(s)
  {
  }

  lemma DollarFreeNoPlaceholder(s: seq<char>)
    requires '$' !in s
    ensures NoPlaceholder(s)
  {
  }

  /** A text with no placeholder is left alone by every `$n` replacement. */
  lemma {:induction false} ReplaceTargetAbsent(s: seq<char>, p: seq<char>, rep: seq<char>)
    requires NoPlaceholder(s) && |p| >= 2 && p[0] == '$' && IsDigit(p[1])
    ensures ReplaceAll(s, p, rep) == s
    decreases |s|
  {
    if |s| > 0 {
      if |s| >= 2 && s[0] == '$' {
        assert s[1] != p[1];
      }
      assert !(p <= s);
      assert NoPlaceholder(s[1..]) by {
        forall i | 0 <= i < |s| - 1 && s[1..][i] == '$'
          ensures i + 1 < |s[1..]| && !IsDigit(s[1..][i + 1])
        {
          assert s[i + 1] == '$';
        }
      }
      ReplaceTargetAbsent(s[1..], p, rep);
    }
  }

  // ---------------------------------------------------------------------
  // The placeholder procedure

  /** The loop over the supplied arguments: `$i+1` becomes args[i], for
      i from the given one up to the last argument. */
  function FillArguments(body: seq<char>, args: seq<seq<char>>, i: nat): (r: seq<char>)
    requires i <= |args|
    decreases |args| - i
  {
    if i == |args| then body
    else FillArguments(ReplaceAll(body, Target(i + 1), args[i]), args, i + 1)
  }

  /** The loop over the missing arguments: `$i+1` becomes nothing, for i
      from the given one up to 9. */
  function ClearMissing(body: seq<char>, i: nat): (r: seq<char>)
    decreases 10 - i
  {
    if i >= 10 then body
    else ClearMissing(ReplaceAll(body, Target(i + 1), []), i + 1)
  }

  /** `$0` first, then the arguments, then the missing ones. */
  function Placeholders(body: seq<char>, whole: seq<char>, args: seq<seq<char>>): (r: seq<char>)
  {
    ClearMissing(FillArguments(ReplaceAll(body, "$0", whole), args, 0), |args|)
  }

  lemma {:induction false} FillKeeps(body: seq<char>, args: seq<seq<char>>, i: nat)
    requires i <= |args| && NoPlaceholder(body)
    ensures FillArguments(body, args, i) == body
    decreases |args| - i
  {
    if i < |args| {
      ReplaceTargetAbsent(body, Target(i + 1), args[i]);
      FillKeeps(body, args, i + 1);
    }
  }

  lemma {:induction false} ClearKeeps(body: seq<char>, i: nat)
    requires NoPlaceholder(body)
    ensures ClearMissing(body, i) == body
    decreases 10 - i
  {
    if i < 10 {
      ReplaceTargetAbsent(body, Target(i + 1), []);
      ClearKeeps(body, i + 1);
    }
  }

  /** A body with no placeholder comes out of the procedure as it is. */
  lemma PlaceholderFreeKept(body: seq<char>, whole: seq<char>, args: seq<seq<char>>)
    requires NoPlaceholder(body)
    ensures Placeholders(body, whole, args) == body
  {
    ReplaceTargetAbsent(body, "$0", whole);
    FillKeeps(body, args, 0);
    ClearKeeps(body, |args|);
  }

  lemma ZeroTarget()
    ensures Target(0) == "$0"
  {
    assert Decimal(0) == ['0'];
  }

  /** `$a` is untouched by the replacement of a different one-digit `$b`. */
  lemma OtherTarget(a: nat, b: nat, rep: seq<char>)
    requires 0 <= a < 10 && 0 <= b < 10 && a != b
    ensures ReplaceAll(Target(a), Target(b), rep) == Target(a)
  {
    var s := Target(a);
    assert s[1] == Digit(a) != Digit(b) == Target(b)[1];
    assert !(Target(b) <= s);
    assert s[1..] == [Digit(a)];
    ReplaceAllAbsent(s[1..], Target(b), rep);
  }

  /** `$k` is replaced whole by its replacement. */
  lemma SameTarget(k: nat, rep: seq<char>)
    ensures ReplaceAll(Target(k), Target(k), rep) == rep
  {
    assert Target(k)[|Target(k)|..] == [];
  }

  /** The argument loop passes `$k` by while it handles other numbers. */
  lemma {:induction false} FillSkips(k: nat, args: seq<seq<char>>, i: nat, j: nat)
    requires 1 <= k <= 9 && i <= j <= |args| && j < k
    ensures FillArguments(Target(k), args, i) == FillArguments(Target(k), args, j)
    decreases j - i
  {
    if i < j {
      OtherTarget(k, i + 1, args[i]);
      FillSkips(k, args, i + 1, j);
    }
  }

  /** The missing-argument loop passes `$k` by likewise. */
  lemma {:induction false} ClearSkips(k: nat, i: nat, j: nat)
    requires 1 <= k <= 9 && i <= j < k
    ensures ClearMissing(Target(k), i) == ClearMissing(Target(k), j)
    decreases j - i
  {
    if i < j {
      OtherTarget(k, i + 1, []);
      ClearSkips(k, i + 1, j);
    }
  }

  /** `$k` for a supplied argument k (1 to 9) becomes that argument. */
  lemma SuppliedArgument(k: nat, whole: seq<char>, args: seq<seq<char>>)
    requires 1 <= k <= 9 && k <= |args| && NoPlaceholder(args[k - 1])
    ensures Placeholders(Target(k), whole, args) == args[k - 1]
  {
    ZeroTarget();
    OtherTarget(k, 0, whole);
    FillSkips(k, args, 0, k - 1);
    SameTarget(k, args[k - 1]);
    assert FillArguments(Target(k), args, k - 1) == FillArguments(args[k - 1], args, k);
    FillKeeps(args[k - 1], args, k);
    ClearKeeps(args[k - 1], |args|);
  }

  /** `$k` for an argument that was not supplied becomes nothing. */
  lemma MissingArgument(k: nat, whole: seq<char>, args: seq<seq<char>>)
    requires |args| < k <= 9
    ensures Placeholders(Target(k), whole, args) == []
  {
    ZeroTarget();
    OtherTarget(k, 0, whole);
    FillSkips(k, args, 0, |args|);
    ClearSkips(k, |args|, k - 1);
    SameTarget(k, []);
    assert ClearMissing(Target(k), k - 1) == ClearMissing([], k);
    ClearKeeps([], k);
  }

  /** `$0` becomes the whole argument text. */
  lemma WholeArgumentText(whole: seq<char>, args: seq<seq<char>>)
    requires NoPlaceholder(whole)
    ensures Placeholders("$0", whole, args) == whole
  {
    ZeroTarget();
    SameTarget(0, whole);
    FillKeeps(whole, args, 0);
    ClearKeeps(whole, |args|);
  }

  /** The pieces of a text between commas hold no byte the text lacks. */
  lemma {:induction false} PiecesWithout(s: seq<char>, c: char)
    requires c !in s
    ensures forall i :: 0 <= i < |SplitOn(s, ",")| ==> c !in SplitOn(s, ",")[i]
    decreases |s|
  {
    var k := FirstOccurrence(s, ",", 0);
    if k < |s| {
      var rest := s[k + 1..];
      assert c !in rest by {
        assert forall j :: 0 <= j < |rest| ==> rest[j] == s[k + 1 + j];
      }
      assert c !in s[..k] by {
        assert forall j :: 0 <= j < k ==> s[..k][j] == s[j];
      }
      PiecesWithout(rest, c);
      assert SplitOn(s, ",") == [s[..k]] + SplitOn(rest, ",");
    }
  }

  lemma {:induction false} FillKeepsAbsent(body: seq<char>, args: seq<seq<char>>, i: nat, c: char)
    requires i <= |args| && c !in body && AllWithout(args, c)
    ensures c !in FillArguments(body, args, i)
    decreases |args| - i
  {
    if i < |args| {
      ReplaceAllKeepsAbsent(body, Target(i + 1), args[i], c);
      FillKeepsAbsent(ReplaceAll(body, Target(i + 1), args[i]), args, i + 1, c);
    }
  }

  lemma {:induction false} ClearKeepsAbsent(body: seq<char>, i: nat, c: char)
    requires c !in body
    ensures c !in ClearMissing(body, i)
    decreases 10 - i
  {
    if i < 10 {
      ReplaceAllKeepsAbsent(body, Target(i + 1), [], c);
      ClearKeepsAbsent(ReplaceAll(body, Target(i + 1), []), i + 1, c);
    }
  }

  /** The procedure brings in no byte that the body, the argument text and
      the arguments all lack. */
  lemma PlaceholdersKeepAbsent(body: seq<char>, whole: seq<char>, args: seq<seq<char>>, c: char)
    requires c !in body && c !in whole && AllWithout(args, c)
    ensures c !in Placeholders(body, whole, args)
  {
    ReplaceAllKeepsAbsent(body, "$0", whole, c);
    FillKeepsAbsent(ReplaceAll(body, "$0", whole), args, 0, c);
    ClearKeepsAbsent(FillArguments(ReplaceAll(body, "$0", whole), args, 0), |args|, c);
  }
}

=== FILE: replacing.dfy ===
/**
 Literal substring replacement as the Go and JavaScript revisions use it:
 `strings.Replace(s, old, new, 1)` and `str.replace(old, new)` replace the
 first occurrence, `strings.ReplaceAll` and a global regular expression made
 of plain characters replace every occurrence, scanning left to right
 without overlap.  The pattern is never empty.
 */
module Replacing {
  import opened Text

  /** pat occurs in s at offset k. */
  predicate Occurs(s: seq<char>, pat: seq<char>, k: nat)
  {
    k + |pat| <= |s| && s[k..k + |pat|] == pat
  }

  /** The first offset at or after `from` where pat occurs, or |s|. */
  function FirstOccurrence(s: seq<char>, pat: seq<char>, from: nat): (k: nat)
    requires |pat| > 0 && from <= |s|
    ensures from <= k <= |s|
    ensures k < |s| ==> Occurs(s, pat, k)
    ensures forall j :: from <= j < k ==> !Occurs(s, pat, j)
    decreases |s| - from
  {
    if from == |s| then from
    else if Occurs(s, pat, from) then from
    else FirstOccurrence(s, pat, from + 1)
  }

  /** FirstOccurrence's result is the only offset with its properties. */
  lemma FirstOccurrenceIs(s: seq<char>, pat: seq<char>, from: nat, k: nat)
    requires |pat| > 0 && from <= k <= |s|
    requires k < |s| ==> Occurs(s, pat, k)
    requires forall j :: from <= j < k ==> !Occurs(s, pat, j)
    ensures FirstOccurrence(s, pat, from) == k
  {
  }

  /** `strings.Replace(s, pat, rep, 1)` and `s.replace(pat, rep)`: with no
      occurrence the text is kept; otherwise the first piece of the split,
      then rep, then the other pieces joined back with the pattern. */
  function ReplaceFirst(s: seq<char>, pat: seq<char>, rep: seq<char>): (r: seq<char>)
    requires |pat| > 0
    ensures |SplitOn(s, pat)| == 1 ==> r == s
    ensures |SplitOn(s, pat)| > 1 ==> r == SplitOn(s, pat)[0] + rep + Join(SplitOn(s, pat)[1..], pat)
  {
    var k := FirstOccurrence(s, pat, 0);
    if k == |s| then s
    else
      var rest := s[k + |pat|..];
      JoinSplitOn(rest, pat);
      assert SplitOn(s, pat) == [s[..k]] + SplitOn(rest, pat);
      assert SplitOn(s, pat)[1..] == SplitOn(rest, pat);
      s[..k] + rep + rest
  }

  /** `strings.ReplaceAll(s, pat, rep)`: the scan either replaces an
      occurrence at its position and resumes after it, or keeps one byte. */
  function ReplaceAll(s: seq<char>, pat: seq<char>, rep: seq<char>): (r: seq<char>)
    requires |pat| > 0
    decreases |s|
  {
    if |s| == 0 then []
    else if pat <= s then rep + ReplaceAll(s[|pat|..], pat, rep)
    else [s[0]] + ReplaceAll(s[1..], pat, rep)
  }

  /** The pieces of s between the occurrences of pat. */
  function SplitOn(s: seq<char>, pat: seq<char>): (parts: seq<seq<char>>)
    requires |pat| > 0
    ensures |parts| >= 1
    decreases |s|
  {
    var k := FirstOccurrence(s, pat, 0);
    if k == |s| then [s]
    else [s[..k]] + SplitOn(s[k + |pat|..], pat)
  }

  /** The pieces joined with sep between consecutive ones. */
  function Join(parts: seq<seq<char>>, sep: seq<char>): (s: seq<char>)
    requires |parts| >= 1
  {
    if |parts| == 1 then parts[0] else parts[0] + sep + Join(parts[1..], sep)
  }

  /** A prefix is an occurrence at offset 0. */
  lemma PrefixOccurs(s: seq<char>, pat: seq<char>)
    ensures pat <= s <==> Occurs(s, pat, 0)
  {
  }

  /** Dropping the first byte moves every offset down by one. */
  lemma NoOccurrenceShift(s: seq<char>, pat: seq<char>, k: nat)
    requires 0 < k <= |s|
    requires forall j :: 0 <= j < k ==> !Occurs(s, pat, j)
    ensures forall j :: 0 <= j < k - 1 ==> !Occurs(s[1..], pat, j)
  {
    var t := s[1..];
    forall j | 0 <= j < k - 1
      ensures !Occurs(t, pat, j)
    {
      assert !Occurs(s, pat, j + 1);
      if j + |pat| <= |t| {
        assert t[j..j + |pat|] == s[j + 1..j + 1 + |pat|];
      }
    }
  }

  /** Bytes before the first occurrence are kept as they are. */
  lemma {:induction false} ReplaceAllSkip(s: seq<char>, pat: seq<char>, rep: seq<char>, k: nat)
    requires |pat| > 0 && k <= |s|
    requires forall j :: 0 <= j < k ==> !Occurs(s, pat, j)
    ensures ReplaceAll(s, pat, rep) == s[..k] + ReplaceAll(s[k..], pat, rep)
    decreases k
  {
    if k > 0 {
      assert !Occurs(s, pat, 0);
      PrefixOccurs(s, pat);
      var t := s[1..];
      assert ReplaceAll(s, pat, rep) == [s[0]] + ReplaceAll(t, pat, rep);
      NoOccurrenceShift(s, pat, k);
      ReplaceAllSkip(t, pat, rep, k - 1);
      assert t[k - 1..] == s[k..];
      var tail := ReplaceAll(s[k..], pat, rep);
      assert s[..k] == [s[0]] + t[..k - 1];
      ConcatAssoc([s[0]], t[..k - 1], tail);
    } else {
      assert s[..0] == [] && s[0..] == s;
    }
  }

  /** ReplaceAll agrees with the reference definition: split at every
      occurrence, join with the replacement. */
  lemma {:induction false} ReplaceAllIsJoinSplit(s: seq<char>, pat: seq<char>, rep: seq<char>)
    requires |pat| > 0
    ensures ReplaceAll(s, pat, rep) == Join(SplitOn(s, pat), rep)
    decreases |s|
  {
    var k := FirstOccurrence(s, pat, 0);
    ReplaceAllSkip(s, pat, rep, k);
    if k == |s| {
      assert s[..k] == s && s[k..] == [];
    } else {
      var rest := s[k + |pat|..];
      assert s[k..][..|pat|] == pat;
      assert s[k..][|pat|..] == rest;
      ReplaceAllIsJoinSplit(rest, pat, rep);
      assert SplitOn(s, pat) == [s[..k]] + SplitOn(rest, pat);
      assert ([s[..k]] + SplitOn(rest, pat))[1..] == SplitOn(rest, pat);
    }
  }

  /** A text without the pattern's first byte is left as it is. */
  lemma {:induction false} ReplaceAllAbsent(s: seq<char>, pat: seq<char>, rep: seq<char>)
    requires |pat| > 0 && pat[0] !in s
    ensures ReplaceAll(s, pat, rep) == s
    decreases |s|
  {
    if |s| > 0 {
      assert s[0] != pat[0];
      assert pat[0] !in s[1..] by {
        assert forall j :: 0 <= j < |s| - 1 ==> s[1..][j] == s[j + 1];
      }
      ReplaceAllAbsent(s[1..], pat, rep);
    }
  }

  /** Replacing keeps a final byte that the pattern cannot contain. */
  lemma {:induction false} ReplaceAllKeepsLast(s: seq<char>, pat: seq<char>, rep: seq<char>, c: char)
    requires |pat| > 0 && c !in pat
    requires |s| > 0 && s[|s| - 1] == c
    ensures var r := ReplaceAll(s, pat, rep); |r| > 0 && r[|r| - 1] == c
    decreases |s|
  {
    if pat <= s {
      assert s[|pat| - 1] == pat[|pat| - 1] != c;
      ReplaceAllKeepsLast(s[|pat|..], pat, rep, c);
    } else if |s| > 1 {
      ReplaceAllKeepsLast(s[1..], pat, rep, c);
    }
  }

  /** The first replacement keeps a final byte the pattern cannot contain. */
  lemma ReplaceFirstKeepsLast(s: seq<char>, pat: seq<char>, rep: seq<char>, c: char)
    requires |pat| > 0 && c !in pat
    requires |s| > 0 && s[|s| - 1] == c
    ensures var r := ReplaceFirst(s, pat, rep); |r| > 0 && r[|r| - 1] == c
  {
    var k := FirstOccurrence(s, pat, 0);
    if k < |s| {
      assert s[k + |pat| - 1] == s[k..k + |pat|][|pat| - 1] == pat[|pat| - 1] != c;
      var tail := s[k + |pat|..];
      assert |tail| > 0 && tail[|tail| - 1] == c;
      var r := s[..k] + rep + tail;
      assert r[|r| - 1] == tail[|tail| - 1];
    }
  }

  /** Replacing never brings in a byte that neither the text nor the
      replacement holds. */
  lemma {:induction false} ReplaceAllKeepsAbsent(s: seq<char>, pat: seq<char>, rep: seq<char>, c: char)
    requires |pat| > 0 && c !in s && c !in rep
    ensures c !in ReplaceAll(s, pat, rep)
    decreases |s|
  {
    if |s| > 0 {
      if pat <= s {
        assert c !in s[|pat|..] by {
          assert forall j :: 0 <= j < |s| - |pat| ==> s[|pat|..][j] == s[j + |pat|];
        }
        ReplaceAllKeepsAbsent(s[|pat|..], pat, rep, c);
      } else {
        assert c !in s[1..] by {
          assert forall j :: 0 <= j < |s| - 1 ==> s[1..][j] == s[j + 1];
        }
        ReplaceAllKeepsAbsent(s[1..], pat, rep, c);
      }
    }
  }

  /** A leading text without the pattern's first byte is passed over. */
  lemma {:induction false} ReplaceAllFreePrefix(a: seq<char>, b: seq<char>, pat: seq<char>, rep: seq<char>)
    requires |pat| > 0 && pat[0] !in a
    ensures ReplaceAll(a + b, pat, rep) == a + ReplaceAll(b, pat, rep)
    decreases |a|
  {
    if |a| > 0 {
      var s := a + b;
      assert s[0] == a[0] != pat[0];
      assert !(pat <= s);
      assert s[1..] == a[1..] + b;
      assert pat[0] !in a[1..] by {
        assert forall j :: 0 <= j < |a| - 1 ==> a[1..][j] == a[j + 1];
      }
      ReplaceAllFreePrefix(a[1..], b, pat, rep);
      assert a == [a[0]] + a[1..];
    } else {
      assert a + b == b;
    }
  }

  /** A trailing text holding neither the first nor the last byte of the
      pattern is passed over. */
  lemma {:induction false} ReplaceAllFreeSuffix(b: seq<char>, c: seq<char>, pat: seq<char>, rep: seq<char>)
    requires |pat| > 0 && pat[0] !in c && pat[|pat| - 1] !in c
    ensures ReplaceAll(b + c, pat, rep) == ReplaceAll(b, pat, rep) + c
    decreases |b|
  {
    var s := b + c;
    if |b| == 0 {
      assert s == c;
      ReplaceAllAbsent(c, pat, rep);
    } else if pat <= b {
      assert pat <= s by {
        assert s[..|pat|] == b[..|pat|];
      }
      assert s[|pat|..] == b[|pat|..] + c;
      ReplaceAllFreeSuffix(b[|pat|..], c, pat, rep);
    } else {
      PrefixShort(b, c, pat);
      assert s[1..] == b[1..] + c;
      ReplaceAllFreeSuffix(b[1..], c, pat, rep);
    }
  }

  /** Under the conditions of ReplaceAllFreeSuffix an occurrence at the
      front of b + c lies in b. */
  lemma PrefixShort(b: seq<char>, c: seq<char>, pat: seq<char>)
    requires |pat| > 0 && |b| > 0 && pat[|pat| - 1] !in c && !(pat <= b)
    ensures !(pat <= b + c)
  {
    var s := b + c;
    if |b| >= |pat| {
      assert s[..|pat|] == b[..|pat|];
    } else if |pat| <= |s| {
      assert s[|pat| - 1] == c[|pat| - 1 - |b|];
    }
  }

  /** The first replacement brings in no byte that neither the text nor the
      replacement holds. */
  lemma ReplaceFirstKeepsAbsent(s: seq<char>, pat: seq<char>, rep: seq<char>, c: char)
    requires |pat| > 0 && c !in s && c !in rep
    ensures c !in ReplaceFirst(s, pat, rep)
  {
    var k := FirstOccurrence(s, pat, 0);
    if k < |s| {
      assert forall j :: 0 <= j < k ==> s[..k][j] == s[j];
      var tail := s[k + |pat|..];
      assert forall j :: 0 <= j < |tail| ==> tail[j] == s[k + |pat| + j];
    }
  }

  /** A one-byte pattern occurs exactly where that byte is. */
  lemma OccursComma(s: seq<char>, j: nat)
    ensures Occurs(s, ",", j) <==> j < |s| && s[j] == ','
  {
    if j < |s| {
      assert s[j..j + 1] == [s[j]];
    }
  }

  /** The split of a text with no ',' is the text alone. */
  lemma SplitNoComma(s: seq<char>)
    requires ',' !in s
    ensures SplitOn(s, ",") == [s]
  {
    forall j | 0 <= j < |s|
      ensures !Occurs(s, ",", j)
    {
      OccursComma(s, j);
    }
    FirstOccurrenceIs(s, ",", 0, |s|);
  }

  /** The first piece of the split ends at the first comma. */
  lemma SplitFirstComma(s: seq<char>, start: nat, end: nat)
    requires start <= end < |s| && s[end] == ','
    requires forall j :: start <= j < end ==> s[j] != ','
    ensures SplitOn(s[start..], ",") == [s[start..end]] + SplitOn(s[end + 1..], ",")
  {
    var rest := s[start..];
    forall j | 0 <= j < end - start
      ensures !Occurs(rest, ",", j)
    {
      OccursComma(rest, j);
    }
    OccursComma(rest, end - start);
    FirstOccurrenceIs(rest, ",", 0, end - start);
    assert rest[..end - start] == s[start..end];
    assert rest[end - start + 1..] == s[end + 1..];
  }

  /** The last piece of the split is all that follows the last comma. */
  lemma SplitLastPiece(s: seq<char>, start: nat)
    requires start <= |s|
    requires forall j :: start <= j < |s| ==> s[j] != ','
    ensures SplitOn(s[start..], ",") == [s[start..|s|]]
  {
    var rest := s[start..];
    assert ',' !in rest by {
      assert forall j :: 0 <= j < |rest| ==> rest[j] == s[start + j];
    }
    SplitNoComma(rest);
    assert s[start..|s|] == rest;
  }

  /** Joining the pieces of a split with the pattern gives the text back. */
  lemma {:induction false} JoinSplitOn(s: seq<char>, pat: seq<char>)
    requires |pat| > 0
    ensures Join(SplitOn(s, pat), pat) == s
    decreases |s|
  {
    var k := FirstOccurrence(s, pat, 0);
    if k < |s| {
      var rest := s[k + |pat|..];
      var tail := SplitOn(rest, pat);
      JoinSplitOn(rest, pat);
      assert SplitOn(s, pat) == [s[..k]] + tail;
      assert s[k..k + |pat|] == pat;
      JoinAround(s, k, pat, SplitOn(s, pat), tail);
    }
  }

  /** Joining a first piece that ends at an occurrence of pat to pieces
      that join to the rest after it gives back the text. */
  lemma JoinAround(s: seq<char>, k: nat, pat: seq<char>, parts: seq<seq<char>>, tail: seq<seq<char>>)
    requires k + |pat| <= |s| && s[k..k + |pat|] == pat && |tail| >= 1
    requires parts == [s[..k]] + tail && Join(tail, pat) == s[k + |pat|..]
    ensures Join(parts, pat) == s
  {
    assert parts[1..] == tail;
    assert s == s[..k] + pat + s[k + |pat|..];
  }
}

=== FILE: text.dfy ===
/**
 Character-level helpers shared by the C revisions (gokuro.c and main.c).

 A line is the sequence of its bytes without its terminator.  The C code
 reads one byte past the visible text: '\n' in gokuro.c, '\0' in main.c.
 `At` returns that terminator, so offsets up to and including `|s|` can be
 read exactly as the C code reads them.  Every comparison the
 code makes against the terminator (with '{', '}', ',', '(', ' ', ':' or a
 pattern byte) gives the same answer for '\n' and for '\0'.
 */
module Text {

  const LineEnd: char := '\n'

  /** Text made of whole lines: empty, or ending in '\n'. */
  predicate Terminated(s: seq<char>)
  {
    s == [] || s[|s| - 1] == LineEnd
  }

  /** The byte at offset i, or the terminator at offset |s|. */
  function At(s: seq<char>, i: int): (c: char)
    requires 0 <= i <= |s|
    ensures i < |s| ==> c == s[i]
    ensures i == |s| ==> c == LineEnd
  {
    if i < |s| then s[i] else LineEnd
  }

  /** The byte value a character stands for.  The model reads every
      character as one byte of the input; on bytes this is the identity. */
  function Byte(c: char): (b: nat)
    ensures b < 256
    ensures (c as int) < 256 ==> b == c as int
  {
    (c as int) % 256
  }

  /** `is_digit` (gokuro.c, main.c). */
  predicate IsDigit(c: char)
  {
    '0' <= c <= '9'
  }

  /** The numeric value of a decimal digit, as `*c - '0'`. */
  function DigitValue(c: char): (d: nat)
    requires IsDigit(c)
    ensures d <= 9
  {
    (c as int) - ('0' as int)
  }

  /** The byte-by-byte loop of `begin_with` from offset i on: stops with true
      at the end of the pattern b and with false at the first mismatch (the
      terminator of a never equals a pattern byte). */
  function MatchFrom(a: seq<char>, b: seq<char>, i: nat): (r: bool)
    requires i <= |b| && i <= |a|
    requires a[..i] == b[..i]
    ensures r <==> b <= a
    decreases |b| - i
  {
    if i == |b| then
      assert b == a[..i];
      true
    else if i == |a| || a[i] != b[i] then
      false
    else
      assert a[..i+1] == b[..i+1] by {
        assert a[..i+1] == a[..i] + [a[i]];
        assert b[..i+1] == b[..i] + [b[i]];
      }
      MatchFrom(a, b, i + 1)
  }

  /** `begin_with(a, b)` of gokuro.c and main.c: true exactly when b is a
      prefix of a. */
  function BeginWith(a: seq<char>, b: seq<char>): (r: bool)
    ensures r <==> b <= a
  {
    MatchFrom(a, b, 0)
  }

  /** Offset of the first c at or after `from`, or |s| when there is none
      (where the C loops meet the terminator). */
  function FindFrom(s: seq<char>, from: nat, c: char): (k: nat)
    requires from <= |s|
    ensures from <= k <= |s|
    ensures k < |s| ==> s[k] == c
    ensures forall j :: from <= j < k ==> s[j] != c
    decreases |s| - from
  {
    if from == |s| then from
    else if s[from] == c then from
    else FindFrom(s, from + 1, c)
  }

  /** FindFrom's result is the only offset with its two properties. */
  lemma FindFromIs(s: seq<char>, from: nat, c: char, k: nat)
    requires from <= k <= |s|
    requires k < |s| ==> s[k] == c
    requires forall j :: from <= j < k ==> s[j] != c
    ensures FindFrom(s, from, c) == k
  {
  }

  /** A sequence of values in which each one equals the one before is
      constant. */
  lemma {:induction false} NeverChanges<T>(f: nat -> T, n: nat)
    requires forall k: nat :: f(k + 1) == f(k)
    ensures f(n) == f(0)
    decreases n
  {
    if n > 0 {
      NeverChanges(f, n - 1);
      assert f((n - 1) + 1) == f(n - 1);
    }
  }

  /** Concatenation regroups freely. */
  lemma ConcatAssoc(a: seq<char>, b: seq<char>, c: seq<char>)
    ensures (a + b) + c == a + (b + c)
  {
  }

  /** True when s has no NUL byte: the text a C string can hold. */
  predicate NoNul(s: seq<char>)
  {
    forall i :: 0 <= i < |s| ==> s[i] != '\0'
  }

  /** The lines of a text: the pieces between the '\n' bytes, without
      them.  A final piece with no '\n' after it is a line too. */
  function Lines(text: seq<char>): (ls: seq<seq<char>>)
    ensures forall i :: 0 <= i < |ls| ==> LineEnd !in ls[i]
    decreases |text|
  {
    if |text| == 0 then []
    else
      var k := FindFrom(text, 0, LineEnd);
      if k == |text| then [text]
      else [text[..k]] + Lines(text[k + 1..])
  }

  /** Every line followed by its '\n'. */
  function Unlines(ls: seq<seq<char>>): (text: seq<char>)
    ensures |ls| > 0 ==> |text| > 0 && text[|text| - 1] == LineEnd
  {
    if |ls| == 0 then [] else ls[0] + [LineEnd] + Unlines(ls[1..])
  }

  /** A sequence is its prefix, the byte at k and the rest. */
  lemma SplitAt(s: seq<char>, k: nat)
    requires k < |s|
    ensures s == s[..k] + [s[k]] + s[k + 1..]
  {
  }

  /** Joining a line followed by more lines. */
  lemma UnlinesCons(l: seq<char>, ls: seq<seq<char>>)
    ensures Unlines([l] + ls) == l + [LineEnd] + Unlines(ls)
  {
    assert ([l] + ls)[1..] == ls;
  }

  /** Splitting a text that ends with '\n' and joining the lines again
      gives the text back. */
  lemma {:induction false} UnlinesLines(text: seq<char>)
    requires |text| == 0 || text[|text| - 1] == LineEnd
    ensures Unlines(Lines(text)) == text
    decreases |text|
  {
    if |text| > 0 {
      var k := FindFrom(text, 0, LineEnd);
      assert k < |text|;
      var rest := text[k + 1..];
      assert Lines(text) == [text[..k]] + Lines(rest);
      UnlinesLines(rest);
      UnlinesCons(text[..k], Lines(rest));
      SplitAt(text, k);
    }
  }

  /** Joining lines without '\n' and splitting again gives the lines back. */
  lemma {:induction false} LinesUnlines(ls: seq<seq<char>>)
    requires forall i :: 0 <= i < |ls| ==> LineEnd !in ls[i]
    ensures Lines(Unlines(ls)) == ls
    decreases |ls|
  {
    if |ls| > 0 {
      var text := Unlines(ls);
      var l := ls[0];
      assert text == l + ([LineEnd] + Unlines(ls[1..]));
      FindFromIs(text, 0, LineEnd, |l|);
      assert text[|l| + 1..] == Unlines(ls[1..]);
      assert text[..|l|] == l;
      LinesUnlines(ls[1..]);
    }
  }

  /** The first line ends at the first '\n'. */
  lemma LinesSplit(text: seq<char>, k: nat)
    requires k < |text| && text[k] == LineEnd
    requires forall j :: 0 <= j < k ==> text[j] != LineEnd
    ensures Lines(text) == [text[..k]] + Lines(text[k + 1..])
  {
    FindFromIs(text, 0, LineEnd, k);
  }

  /** A final '\n' added to a text whose last line lacks one does not
      change the lines. */
  lemma {:induction false} LinesFinalNewline(text: seq<char>)
    requires |text| > 0 && text[|text| - 1] != LineEnd
    ensures Lines(text + [LineEnd]) == Lines(text)
    decreases |text|
  {
    var k := FindFrom(text, 0, LineEnd);
    if k < |text| {
      assert k < |text| - 1;
      var rest := text[k + 1..];
      assert rest[|rest| - 1] == text[|text| - 1];
      LinesFinalNewline(rest);
      LinesSplit(text, k);
      LinesAppendEnd(text, k);
    } else {
      LinesOneLine(text);
    }
  }

  /** Adding a '\n' after a text with one does not move its first one. */
  lemma LinesAppendEnd(text: seq<char>, k: nat)
    requires k < |text| - 1 && text[k] == LineEnd
    requires forall j :: 0 <= j < k ==> text[j] != LineEnd
    ensures Lines(text + [LineEnd]) == [text[..k]] + Lines(text[k + 1..] + [LineEnd])
  {
    AppendSlices(text, k);
    LinesSplit(text + [LineEnd], k);
  }

  /** The slices of a text with a '\n' appended. */
  lemma AppendSlices(text: seq<char>, k: nat)
    requires k < |text|
    ensures forall j :: 0 <= j < |text| ==> (text + [LineEnd])[j] == text[j]
    ensures (text + [LineEnd])[..k] == text[..k]
    ensures (text + [LineEnd])[k + 1..] == text[k + 1..] + [LineEnd]
  {
  }

  /** A text without '\n' is one line, with or without a final '\n'. */
  lemma LinesOneLine(text: seq<char>)
    requires |text| > 0 && FindFrom(text, 0, LineEnd) == |text|
    ensures Lines(text + [LineEnd]) == Lines(text) == [text]
  {
    var t := text + [LineEnd];
    var k := |text|;
    forall j | 0 <= j < k
      ensures t[j] != LineEnd
    {
      assert t[j] == text[j];
    }
    LinesSplit(t, k);
    assert t[..k] == text && t[k + 1..] == [];
  }
}
